=== FILE: README.md ===
# Clip trimmer editing core, in Dafny

This project models the editing core of a desktop clip trimmer built on Qt and
ffmpeg, and proves properties of the model. The model covers:

- **The segment timeline.** This is the ordered list of kept intervals of the
  source video, in integer milliseconds. Its operations are:
  - split at the playhead;
  - single delete and multi-delete;
  - the edge drag with its neighbour clamps and 100 ms minimum;
  - playhead validation and stepping;
  - click, ctrl-click and rubber-band selection;
  - the reset when a file is loaded or its duration becomes known;
  - the start and end limits and the edited duration.
- **The undo/redo history.** It has two snapshot stacks with a capacity of 50.
- **The silence auto-cut.** It rebuilds the list from the silence detector's
  start and end times. The model also covers the audio-track count.
- **The export compiler.** It turns the edit into one ffmpeg job per export
  kind:
  - the export lock;
  - the pre-roll seek;
  - the per-segment trim windows;
  - the filter graph, as an abstract chain list;
  - the bitrate budget;
  - the muted export's size estimate;
  - the output file name.
- **The export progress popup.**
- **The region editor.** This is the privacy-filter list and the crop
  rectangle on the preview.
- **The main window's glue:**
  - the export-name sanitiser;
  - playback wrap-around;
  - the duration guard;
  - crop reset;
  - the drop filter;
  - the filmstrip hover preview.

Each module follows one source file or widget:

| module | models |
|---|---|
| `Common` | Option, rectangles, `qBound`, `qRound`, C++ truncation and `& ~1` |
| `Text` | the `QString` operations the core uses: `trimmed`, `replace`, `toLower`, decimal digits |
| `Paths` | `QFileInfo::fileName`, `baseName`, `suffix` |
| `Segments` | the `Segment` record, list invariants, duration and limits |
| `History` | `saveState`, `undo`, `redo` on two stacks |
| `Timeline` | the pure list operations: split, delete, multi-delete, playhead, hit-test, edge drag |
| `Editor` | the timeline widget's state and its `saveState`/`undo`/`redo`/`splitAtPlayhead`/`deleteSelectedSegment`/`validatePlayheadPosition` |
| `MediaLoader` | `setMediaSource`, `setDuration`, the thumbnail cache |
| `Audio` | `autoCutSilence`, `detectAudioTracks`, `isAnySelectedMuted` |
| `Mouse` | the timeline's press, move and release handlers |
| `Keyboard` | the timeline's key handler |
| `Regions` | the preview's region editor (`VideoWithCropWidget`) |
| `Export` | the four `copyTrimmed*` builders, `generateClippedName`, the export lock |
| `Progress` | `showProgressNotification` |
| `MainWindow` | the main window's connection lambdas |
| `Drop` | the drag-and-drop event filter |
| `Preview` | the filmstrip hover label |

Several things that are inputs in the program are parameters of the model:

- the wall-clock time string in export names;
- the video size the player reports;
- the file size;
- the ffprobe output;
- the silence lists;
- pointer positions already converted to milliseconds or pixels.

Time is an `int` number of milliseconds. Normalised rectangles and bitrates
are `real`. `static_cast<int>` truncates toward zero, `qRound` rounds halves
away from zero, and `qBound(lo, v, hi)` is `qMax(lo, qMin(v, hi))`. Each of
these is written out in `Common`.

## Model

| member | source | states |
|---|---|---|
| Segments.NewSegment | src/Includes/timelinewidget.h:69-75 | a segment built from two bounds has volume 1, pitch 1 and is not muted |
| Segments.TotalMs | src/Main/export.cpp:48-49 | with no inverted segment the edited duration is never negative and is at least as long as any one segment |
| Segments.OrderedPairwise | src/Main/timelinewidget.cpp:29-34 | the timeline invariant (each segment non-empty, ending no later than the next starts) orders any two positions, not only neighbours |
| Segments.TotalMsAppend | src/Main/export.cpp:48-49 | the edited duration of a concatenation is the sum of the parts' durations |
| Segments.TotalMsOfWellFormed | src/Main/export.cpp:48-49 | a list of non-empty segments lasts at least one millisecond per segment |
| Segments.TotalSeconds | src/Main/export.cpp:298-304 | the edited duration in seconds is never below 1; it equals the millisecond sum over 1000 once that reaches a second, and is exactly 1 below it |
| Segments.StartLimit | src/Main/export.cpp:306 | playback starts at the first segment's start, or 0 with no segments |
| Segments.EndLimit | src/Main/export.cpp:307 | playback ends at the last segment's end, or the media duration with no segments |
| Segments.LimitsEnclose | src/Main/export.cpp:306-307 | on an ordered list every segment lies between the start and the end limit |
| History.Save | src/Main/undoredo.cpp:3-11 | the current list goes on top of undo; the oldest entry is evicted only when undo would exceed 50; redo is emptied; a bounded history stays bounded |
| History.Undo | src/Main/undoredo.cpp:13-26 | an empty undo stack changes nothing; otherwise the top undo entry is restored and the current list is pushed on redo; the bound is kept |
| History.Redo | src/Main/undoredo.cpp:28-39 | the mirror of undo: an empty redo stack changes nothing; otherwise the top redo entry is restored and the current list is pushed on undo |
| History.SaveUndoRedo | src/Main/undoredo.cpp:5-7 | save, edit, undo restores the pre-edit list, and a following redo restores the edited list |
| History.UndoRedoInverse | src/Main/undoredo.cpp:16-36 | undo followed by redo gives back the original list and the original stacks |
| History.SaveFits | src/Main/undoredo.cpp:3-11 | saving a list that fits the media keeps every snapshot fitting |
| History.UndoFits | src/Main/undoredo.cpp:13-26 | undo on a fitting history restores a fitting list and leaves only fitting snapshots |
| History.RedoFits | src/Main/undoredo.cpp:28-39 | the same for redo |
| History.RunKeepsBound | src/Main/undoredo.cpp:8-10 | from any history within the capacity (empty stacks in particular), any sequence of saves, undos, redos and edits keeps the undo plus redo depth at most 50 |
| Timeline.SplitIndex | src/Main/timelinewidget.cpp:29-30 | the split falls in the first segment whose start + 200 < pos < end - 200; there is none exactly when no segment qualifies |
| Timeline.SplitAt | src/Main/timelinewidget.cpp:32-34 | the cut segment keeps [start, pos] and its attributes; a fresh [pos, end] follows it; nothing else moves; the length grows by one; the edited duration and the ordering are kept |
| Timeline.SplitExample | src/Main/timelinewidget.cpp:29-34 | a 10 s clip splits at 5 s into two halves; playheads 200 ms from either end do not split |
| Timeline.RemoveAt | src/Main/timelinewidget.cpp:46 | removing a position drops exactly that segment, shortening the edit by its length |
| Timeline.KeepSingle | src/Main/keyboardEvents.cpp:67-79 | deleting the single position i is the same as `removeAt(i)` |
| Timeline.KeepNothing | src/Main/keyboardEvents.cpp:76 | positions off the list are ignored: deleting none of the list's positions keeps it whole |
| Timeline.KeepFromMembers | src/Main/keyboardEvents.cpp:67-79 | a segment survives a multi-delete iff it sits at a position that was not deleted |
| Timeline.KeepFromOrdered | src/Main/keyboardEvents.cpp:67-79 | deleting any positions keeps the timeline ordered |
| Timeline.KeepWithin | src/Main/keyboardEvents.cpp:67-79 | deleting any positions keeps every segment inside the media |
| Timeline.KeepOrdered | src/Main/keyboardEvents.cpp:67-79 | the multi-delete result is ordered whenever the list was |
| Timeline.EraseHighestStep | src/Main/keyboardEvents.cpp:75-78 | erasing positions from the highest down, each erase removes the intended original segment |
| Timeline.DeleteIndices | src/Main/keyboardEvents.cpp:67-79 | the delete loop over the selected positions in descending order yields the original list minus exactly those in-range positions, order kept |
| Timeline.ValidatePlayhead | src/Main/timelinewidget.cpp:54-80 | with no segments or inside a segment the playhead stays; otherwise it moves to a segment start, and on a list of non-empty segments it ends inside a segment |
| Timeline.ValidateJumpsForward | src/Main/timelinewidget.cpp:66-76 | a playhead in a gap jumps to the first segment start at or after it |
| Timeline.ValidateWrapsToFirst | src/Main/timelinewidget.cpp:65-79 | a playhead in no segment with every start below it wraps to the first segment's start |
| Timeline.StepBack | src/Main/keyboardEvents.cpp:9 | stepping back lands at pos - delta when that is not negative and at exactly zero when it is |
| Timeline.StepForward | src/Main/keyboardEvents.cpp:17 | stepping forward lands at pos + delta when that is within the media and at exactly the duration when it is past it; it never goes below the smaller of pos and the duration |
| Timeline.StepsCancel | src/Main/keyboardEvents.cpp:8-28 | away from both ends a step back and a step forward by the same amount undo each other, in either order |
| Timeline.StepBackSaturates | src/Main/keyboardEvents.cpp:8-21 | near zero the back step saturates, so stepping back and forward again lands on the step size, not on the start |
| Timeline.HitTest | src/Main/mouseEvents.cpp:14-20 | the click hits the first segment containing it, both ends inclusive, and none exactly when no segment contains it |
| Timeline.Drag | src/Main/mouseEvents.cpp:142-151 | only the grabbed edge of the active segment moves; a start stays at or after the previous end and 100 ms before its own end when possible; an end stays 100 ms after its start and before the next start when possible; a reachable target is hit exactly; a target at or beyond a limit snaps to that limit, and when the two limits cross the lower one wins |
| Timeline.DragKeepsOrdered | src/Main/mouseEvents.cpp:142-151 | when the neighbours leave room for 100 ms, a drag keeps the timeline ordered and inside the media |
| Timeline.EndDragCanOverlap | src/Main/mouseEvents.cpp:148-149 | when start + 100 passes the next start, the end-edge clamp lets the segment overlap its neighbour |
| Editor.Initial | src/Includes/timelinewidget.h:99-112 | a new editor has no segments, empty history, no selection, playhead 0, one audio track, the lock off, the full-frame crop and the disabled (0.1,0.1)-(0.3,0.3) blur filter |
| Editor.Targets | src/Main/keyboardEvents.cpp:67-68 | the selected positions are the multi-selection plus the single selection when it is set |
| Editor.SaveState | src/Main/undoredo.cpp:3-11 | a snapshot touches only the history, clears redo, and keeps the editor invariant |
| Editor.UndoEdit | src/Main/undoredo.cpp:13-26 | undo restores the top snapshot and clears both selections, and keeps the invariant; with nothing to undo the editor is unchanged |
| Editor.RedoEdit | src/Main/undoredo.cpp:28-39 | redo restores the top undone list without touching the selection, and keeps the invariant |
| Editor.SplitAtPlayhead | src/Main/timelinewidget.cpp:28-41 | a split snapshots first and selects the right-hand piece, changing nothing but the history, the list and the selection; with no splittable segment nothing changes, not even the history; the edited duration and the invariant are kept |
| Editor.DeleteSelectedSegment | src/Main/timelinewidget.cpp:43-52 | with a selection on the list it snapshots, removes exactly that segment, clears the selection and revalidates the playhead, and changes nothing else; otherwise nothing changes |
| Editor.ValidatePlayheadPosition | src/Main/timelinewidget.cpp:54-80 | only the playhead moves, and on a non-empty list of non-empty segments it ends inside one |
| MediaLoader.SetMediaSource | src/Main/mediaLoader.cpp:6-31 | loading leaves exactly the placeholder segment [0, 1000], empty stacks and cache, zoom 1, scroll 0, no single selection, playhead 0, lock off, and the probed track count; the multi-selection set is not cleared and survives the load |
| MediaLoader.SetDuration | src/Main/mediaLoader.cpp:33-45 | the duration is recorded and the view reset; an empty list becomes [0, d], otherwise only the first segment's end changes, to d |
| MediaLoader.LoadThenDuration | src/Main/mediaLoader.cpp:22-41 | loading a file then learning its duration d leaves the single segment [0, d] |
| MediaLoader.SetDurationCanBreakOrder | src/Main/mediaLoader.cpp:40-41 | overwriting only the first end can leave that segment empty and the list out of order |
| MediaLoader.CacheFrame | src/Main/mediaLoader.cpp:47-54 | an invalid frame is ignored; a valid one fills its whole second's slot only when that slot is empty; no cached entry is changed |
| MediaLoader.CacheKeepsFirst | src/Main/mediaLoader.cpp:49 | once a second has a thumbnail, no later frame replaces it |
| MediaLoader.CacheSecondExample | src/Main/mediaLoader.cpp:49 | frames at 999 ms and at -500 ms share slot 0 (C++ division truncates toward zero), and the first one wins |
| Audio.Place | src/Main/audio.cpp:98-102 | a span starting before the last kept end extends that segment to the span's end; otherwise it is appended |
| Audio.PlaceKeepsOrdered | src/Main/audio.cpp:98-102 | placing a span that ends no earlier than the kept list keeps it ordered and inside the media |
| Audio.Candidate | src/Main/audio.cpp:93-102 | a span of at most 100 ms between silences is dropped; a longer one is padded by 200 ms on each side and clamped to the media, [max(0, start - 200), min(total, end + 200)], and is appended when it starts at or after the last kept end, else stretches the last kept segment to its end; either way all but the last kept segment are left alone |
| Audio.CutLoop | src/Main/audio.cpp:90-105 | the loop adds at most one segment per silence, never touches the kept segments before the last, and ends with the last silence end it read, or the start value when it read none |
| Audio.SilenceSegments | src/Main/audio.cpp:85-117 | at most one segment per silence plus the trailing one; when more than 100 ms follow the last silence end, the trailing span [max(0, lastEnd - 200), total] is appended to the loop's list when it starts at or after the last kept end and otherwise stretches the last kept segment to the end of the media; otherwise it is the loop's list; without silences the whole media (if longer than 100 ms) is one segment |
| Audio.CutLoopOrdered | src/Main/audio.cpp:90-105 | with ascending silences, the loop keeps its kept list ordered and inside the media |
| Audio.SilenceSegmentsOrdered | src/Main/audio.cpp:85-117 | with ascending silences inside the media, the rebuilt list is ordered and inside the media |
| Audio.SilenceExample | src/Main/audio.cpp:90-117 | silences at 2 s and 6 s (only the first ending, at 3 s) in 10 s give [0, 2.2 s] and [2.8 s, 10 s] |
| Audio.SilenceMergeExample | src/Main/audio.cpp:98-99 | padded spans that overlap merge into one segment |
| Audio.UnsortedSilencesBreakOrder | src/Main/audio.cpp:98-99 | with out-of-order silences a merge can produce an empty or inverted segment |
| Audio.AutoCutSilence | src/Main/audio.cpp:56-126 | skipped without media or during an export; otherwise it snapshots; with no silence the list is kept and "no silence" reported; with silence the list is replaced by the rebuilt one and nothing else changes; sorted silences keep the editor invariant |
| Audio.TrackCount | src/Main/audio.cpp:137-139 | the track count is the number of non-empty lines of the trimmed probe output, and exactly 1 when there are none |
| Audio.CountJoinedLines | src/Main/audio.cpp:138 | counting the non-empty lines of lines joined by newlines gives back their number |
| Audio.TrackCountOfProbe | src/Main/audio.cpp:137-138 | a probe printing one stream index per line yields that many tracks |
| Audio.DetectAudioTracks | src/Main/audio.cpp:128-141 | the count is set (at least 1) and the current track reset to 0; nothing else changes |
| Audio.IsAnySelectedMuted | src/Main/audio.cpp:143-147 | true iff some selected position (set plus single) holds a muted segment |
| Mouse.GrabEdge | src/Main/mouseEvents.cpp:43-51 | the press grabs the first segment with an edge within 12 px, the start edge taking precedence; none exactly when no edge is in reach |
| Mouse.ClickSelect | src/Main/mouseEvents.cpp:53-65 | a ctrl-click toggles the hit position in the set and clears the single selection; a plain click selects just it; a miss clears both |
| Mouse.Press | src/Main/mouseEvents.cpp:3-68 | a no-op without media or segments; otherwise the list and history are untouched; a right press starts a band from the current selection; shift-left seeks; any other press grabs the edge in reach exactly when there is one (selecting its segment), and otherwise is the click selection at the pressed time |
| Mouse.PlainClickSelects | src/Main/mouseEvents.cpp:53-61 | a plain click inside a segment away from its edges selects exactly the first segment containing the click |
| Mouse.CtrlClickTwice | src/Main/mouseEvents.cpp:54-57 | two ctrl-clicks on the same spot give back the original multi-selection |
| Mouse.SymDiff | src/Main/mouseEvents.cpp:86-88 | the members of exactly one of the two sets |
| Mouse.BandLoopMeaning | src/Main/mouseEvents.cpp:82-93 | the band loop's partial result after i segments is the overlap so far, or the snapshot toggled by it |
| Mouse.Overlapping | src/Main/mouseEvents.cpp:82-85 | a position is in the band exactly when it is on the list and its pixel extent meets the band strictly on both sides |
| Mouse.RubberBand | src/Main/mouseEvents.cpp:77-95 | without ctrl the band selects exactly the overlapping segments; with ctrl it is the pre-drag selection XOR the overlapping segments |
| Mouse.Move | src/Main/mouseEvents.cpp:70-159 | by priority: the band reselects and clears the single selection; shift-left seeks; no buttons changes nothing; an edge drag changes only that edge via the clamp; a fitting drag keeps the invariant |
| Mouse.Release | src/Main/mouseEvents.cpp:161-173 | after an edge drag the post-drag list is snapshotted; the grab ends; a right release ends the band |
| Mouse.UndoAfterDragKeepsDrag | src/Main/mouseEvents.cpp:162 | because the snapshot follows the drag, the first undo after it restores the dragged list |
| Mouse.DragGesture | src/Main/mouseEvents.cpp:3-173 | press on an edge, move and release change only the grabbed edge and push one snapshot |
| Keyboard.TrackLabel | src/Main/keyboardEvents.cpp:99-101 | a track with a name is announced by it, any higher track as "Track n+1" |
| Keyboard.ExportShortcut | src/Main/keyboardEvents.cpp:47-56 | ctrl+G asks for a GIF, ctrl+shift+C for audio, ctrl+alt+C for the muted video, ctrl+C for the video; nothing else asks for an export |
| Keyboard.NextTrack | src/Main/keyboardEvents.cpp:91-92 | with more than one track the track advances by one and wraps, staying in range; otherwise it stays |
| Keyboard.IterateAdd | src/Main/keyboardEvents.cpp:91-92 | a + b presses of alt+A are a presses followed by b presses |
| Keyboard.IterateClimbs | src/Main/keyboardEvents.cpp:92 | below the last track each press moves up one |
| Keyboard.FullCycle | src/Main/keyboardEvents.cpp:91-92 | as many presses as there are tracks come back to the starting track |
| Keyboard.DeleteSelection | src/Main/keyboardEvents.cpp:66-87 | with a selection, every selected position on the list is removed, both selections are cleared and the history is untouched; without one nothing happens |
| Keyboard.CycleTrack | src/Main/keyboardEvents.cpp:90-105 | alt+A with several tracks advances the track and announces its label; otherwise nothing happens |
| Keyboard.StepKey | src/Main/keyboardEvents.cpp:8-34 | Q/0 go back 2 s floored at 0 (announcing a replay), W forward 2 s capped at the duration, Left and Right 16 ms the same way; only the playhead moves |
| Keyboard.KeyPress | src/Main/keyboardEvents.cpp:3-109 | each key reaches its handler in the source's order: steps, undo/redo, exports, space, S (snapshot then split), delete, alt+A, otherwise passed on |
| Keyboard.KeyPressKeepsValid | src/Main/keyboardEvents.cpp:3-109 | no key breaks the editor invariant |
| Keyboard.SplitKeyClearsRedo | src/Main/keyboardEvents.cpp:62-65 | S always snapshots, so redo is empty afterwards even when nothing splits |
| Keyboard.SplitKeySnapshotsTwice | src/Main/keyboardEvents.cpp:62-65 | a split by S pushes the pre-split list twice |
| Keyboard.DeleteKeyKeepsHistory | src/Main/keyboardEvents.cpp:66-87 | the delete key takes no snapshot |
| Keyboard.UndoThenRedoKeys | src/Main/keyboardEvents.cpp:36-45 | ctrl+Z then ctrl+shift+Z restores the list |
| Regions.ModeOf | src/Includes/mediaSource.h:23 | mode 0 blurs, 1 pixelates, anything else fills |
| Regions.Initial | src/Includes/mediaSource.h:29-40 | no filters, nothing selected or grabbed, crop (0, 0.03)-(1, 0.96) |
| Regions.InitialValid | src/Includes/mediaSource.h:36 | the initial crop satisfies the shape invariant |
| Regions.AddFilter | src/Includes/mediaSource.h:55-62 | a (0.4,0.4)-(0.6,0.6) filter of the mode is appended, selected and put in adjust mode; the invariant is kept |
| Regions.DeleteKey | src/Includes/mediaSource.h:83-94 | Delete/Backspace in adjust mode with a valid selection removes exactly that filter and leaves adjust mode; otherwise nothing changes |
| Regions.AddThenDelete | src/Includes/mediaSource.h:55-94 | adding a filter and deleting it at once gives the filter list back |
| Regions.HandleAt | src/Includes/mediaSource.h:171-179 | a press grabs a corner iff one lies within 20 px, trying top-left, top-right, bottom-left, bottom-right in that order, so each corner is grabbed exactly when it is near and no earlier one is; otherwise it grabs the centre when strictly inside, and nothing when outside |
| Regions.TopmostHit | src/Includes/mediaSource.h:169-186 | filters are tried from last to first, so the topmost filter under the press wins; none iff no filter is hit |
| Regions.Press | src/Includes/mediaSource.h:160-206 | before a frame nothing happens; otherwise a filter hit selects it in adjust mode; a crop hit grabs the crop; the background deselects; rectangles are untouched |
| Regions.DragRect | src/Includes/mediaSource.h:219-230 | each corner drag moves two edges, keeping them 0.02 from the opposite ones; a centre drag keeps the size and the rectangle in the unit square; a shaped rectangle stays shaped |
| Regions.Move | src/Includes/mediaSource.h:208-234 | without a grab or a frame nothing happens; otherwise the pointer is clamped into [0,1] and the grabbed part of the selected filter (adjust mode) or of the crop is dragged; the invariant is kept |
| Regions.Release | src/Includes/mediaSource.h:235 | release ends the grab and changes nothing else |
| Regions.Apply | src/Includes/mediaSource.h:55-235 | every handler keeps each rectangle inside the unit square and at least 0.02 wide and high |
| Regions.EventsKeepShape | src/Includes/mediaSource.h:55-235 | any event sequence keeps the invariant, the crop in particular |
| Export.SeekMs | src/Main/export.cpp:52 | the input seek is the first start minus 500 ms when the first start is at least 500 ms, and exactly zero when it is below |
| Export.Windows | src/Main/export.cpp:78-85 | one window per segment, never starting before the seek origin, as long as its segment |
| Export.WindowsLocateSegments | src/Main/export.cpp:79-82 | on a valid list, seek origin plus window start is the segment's start |
| Export.WindowsSpan | src/Main/export.cpp:80 | the windows together last as long as the edit |
| Export.SegmentTrims | src/Main/export.cpp:78-85 | the segment chains trim exactly the windows, in order, once per stream |
| Export.SegmentOutputs | src/Main/export.cpp:81-87 | the trims produce exactly the pads the concat consumes, in index order |
| Export.ConcatPadsUse | src/Main/export.cpp:87 | the concat names each segment's pad once |
| Export.EvenPixel | src/Main/export.cpp:54-57 | `qRound(v) & ~1` is the even number in the two-pixel window from 1.5 below v to 0.5 above it |
| Export.SnapUnique | src/Main/export.cpp:54-57 | that window holds only one even number, so the pixel value is determined |
| Export.RegionPixels | src/Main/export.cpp:54-57 | each of the region's offset and size in pixels is the even number in the window around its scaled fraction |
| Export.VideoSize | src/Main/export.cpp:33-43 | the player's reported size, or 1920x1080 without one |
| Export.MaskShape | src/Main/export.cpp:59-76 | the mask reads the input video and ends in the filtered label; disabled it is a copy; modes 0 and 1 split, obscure and overlay; others draw a box |
| Export.MaskChains | src/Main/export.cpp:59-76 | the mask starts from the input video and its last chain writes `[filtered]`: a copy when off, split / obscure / overlay at the region's offset for modes 0 and 1, a black box over the region otherwise |
| Export.MaskLinks | src/Main/export.cpp:59-76 | the mask consumes each of its labels at most once and none of the segment or concat labels |
| Export.VideoGraphAsWritten | src/Main/export.cpp:71-92 | the graph as written trims each window once for video and once for audio, in order, but reads `[filtered]` once per segment, so from two segments on a label is consumed twice |
| Export.TwoSegmentVideoGraphRejected | src/Main/export.cpp:78-85 | a two-segment edit already breaks the single-use rule |
| Export.VideoGraphTrims | src/Main/export.cpp:78-92 | the corrected video graph trims every window once for video and once for audio, in order |
| Export.VideoGraphSingleUse | src/Main/export.cpp:72-92 | in the corrected video graph no label is consumed twice |
| Export.AudioGraph | src/Main/export.cpp:148-157 | the audio graph trims every window once, audio only, in order, and consumes no label twice |
| Export.MutedGraph | src/Main/export.cpp:233-245 | the muted graph trims every window once, video only, in order, and consumes no label twice |
| Export.GifGraph | src/Main/export.cpp:193-197 | the GIF graph reads the input, `[s0]`, `[s1]` and `[p]` once each, trims nothing and consumes no label twice |
| Export.DurationSec | src/Main/export.cpp:48-50 | the budget duration is exactly the edit from 100 ms on and exactly 0.1 s below it |
| Export.VideoBitrate | src/Main/export.cpp:94-98 | the video bitrate lies in [200, 12000] kbit/s, and below the ceiling one kbit/s more would overrun the 6.7 MiB budget |
| Export.VideoBitrateFitsBudget | src/Main/export.cpp:94-98 | above the floor, the video plus the 32 kbit/s audio over the clip fit in 6.7 MiB |
| Export.VideoBitrateNonIncreasing | src/Main/export.cpp:94-98 | a longer edit never gets a higher bitrate |
| Export.VideoBitrateTenSeconds | src/Main/export.cpp:94-98 | a 10 s edit is encoded at 5588 kbit/s |
| Export.MaxRate | src/Main/export.cpp:112 | the max rate is 1.1 times the bitrate, truncated, and not below it |
| Export.MutedBitrate | src/Main/export.cpp:259 | the muted capped bitrate lies in [200, 15000], and below the ceiling one kbit/s more would overrun the 7.5 MiB budget |
| Export.MutedBitrateFitsBudget | src/Main/export.cpp:259 | above the floor, the capped muted stream fits 7.5 MiB |
| Export.EstimateExceeds | src/Main/export.cpp:226-228 | the estimate exceeds 8 MiB iff file size times the kept time fraction times the crop area does; with a zero media duration, iff the quotient is plus infinity |
| Export.ClippedName | src/Main/export.cpp:286-296 | a custom name gives `<name>.<ext>`, otherwise `(clip-<base>_clipped-<time>).<ext>` |
| Export.ClippedNameSuffix | src/Main/export.cpp:220 | every generated name, `MUTED_` prefix or not, carries the requested extension |
| Export.VideoJobAsWritten | src/Main/export.cpp:30-137 | the video job as written: the same seek, trims, encoding and progress total as the corrected job, but `[filtered]` is read once per segment, so from two segments on a label is consumed twice |
| Export.VideoJob | src/Main/export.cpp:30-137 | the video job with the corrected graph (see Findings): it is named `<name>.mp4`, seeks with pre-roll, runs the video graph built from the filter's mask at the reported size, the export crop, the segment windows and the current audio track (so it starts with the mask, trims every window for both streams and uses each label once), encodes VBR at the budget bitrate with its max rate and a buffer twice the bitrate, and measures progress against the edit |
| Export.AudioJob | src/Main/export.cpp:139-182 | the audio job is named `<name>.mp3`, seeks with pre-roll, runs the audio graph over the windows (every window trimmed for audio only), encodes MP3 and shows no progress |
| Export.GifJob | src/Main/export.cpp:184-214 | the GIF job is named `<name>.gif`, runs the GIF graph on the export crop, seeks straight to the first segment and reads only its length, which is also its progress total |
| Export.MutedJob | src/Main/export.cpp:216-284 | the muted job is named `MUTED_<name>.mp4`, runs the muted graph over the windows (video only), and when the estimate exceeds 8 MiB caps the muted budget bitrate at 25 fps, else uses constant QP 23 |
| Export.Accepts | src/Main/export.cpp:31 | an export needs segments; all but the GIF export are refused while one runs, and the GIF export only needs segments |
| Export.Compile | src/Main/export.cpp:30-284 | every kind's graph consumes each label once; all but the GIF seek with pre-roll and read to the end, the GIF reads only the first segment; only the audio export shows no progress; each kind has its own encoding |
| Export.Begin | src/Main/export.cpp:31 | a request is compiled iff there are segments and (for all but the GIF) no export runs, and the job handed on is exactly the compiled one for that kind; a refusal changes nothing; an accepted non-GIF export takes the lock; the GIF leaves it |
| Export.Finish | src/Main/export.cpp:122-134 | all but the GIF release the lock and report success iff the exit code is 0; the GIF always reports a copied file |
| Export.LockCycle | src/Main/export.cpp:31-51 | while a video, audio or muted export runs every other such request is refused, and after it finishes they are accepted again |
| Export.GifIgnoresLock | src/Main/export.cpp:185 | the GIF export runs whenever there are segments, lock or no lock |
| Progress.FirstMatch | src/Main/notification.cpp:19-20 | the leftmost position where `out_time_us=` is followed by a digit, or none |
| Progress.DigitRun | src/Main/notification.cpp:19 | `\d+` takes every leading digit and stops at the first non-digit |
| Progress.ToLongLong | src/Main/notification.cpp:22 | the digits' value when it fits a qint64, else 0 |
| Progress.CapturedUs | src/Main/notification.cpp:19-22 | a value is captured iff the chunk matches anywhere; it lies in the qint64 range and is the digits of the leftmost match, wherever that lies |
| Progress.Percent | src/Main/notification.cpp:23 | the bar value lies in [0, 100] |
| Progress.PercentMeaning | src/Main/notification.cpp:23 | before the end, r percent means between r and r+1 hundredths of the edit have been written |
| Progress.PercentFull | src/Main/notification.cpp:23 | once the written time reaches the edit, the bar shows 100 |
| Progress.PercentMonotone | src/Main/notification.cpp:23 | a later time never shows a lower percentage |
| Progress.OnOutput | src/Main/notification.cpp:17-26 | a chunk without a match leaves the popup as it was; a match sets the bar to the captured time's percentage, a value in [0, 100], and changes nothing else; the popup stays open |
| Progress.RunOutputInRange | src/Main/notification.cpp:17-26 | whatever ffmpeg prints, the bar keeps its start value or holds a value in [0, 100] |
| Progress.CapturedLine | src/Main/notification.cpp:19-22 | a progress line as ffmpeg writes it, after any lines without a match and followed by anything, reads back as its time |
| Progress.ProgressLine | src/Main/notification.cpp:19-24 | such a line moves the bar to that time's percentage |
| Progress.OnFinished | src/Main/notification.cpp:28-33 | the popup closes whatever happened, and the outcome is success iff the exit code is 0 |
| MainWindow.Sanitize | src/Main/mainWindow.cpp:196-197 | the name is the input with all surrounding whitespace cut off, no more, and spaces turned into `_`: the kept slice neither starts nor ends with whitespace, and the name has no space |
| MainWindow.SanitizeIdempotent | src/Main/mainWindow.cpp:197 | sanitising a sanitised name changes nothing |
| MainWindow.TrimAround | src/Main/mainWindow.cpp:197 | trimming removes exactly the whitespace around a core that neither starts nor ends with whitespace |
| MainWindow.SanitizeExample | src/Main/mainWindow.cpp:197 | "  my clip " becomes "my_clip" |
| MainWindow.PositionChanged | src/Main/mainWindow.cpp:156-164 | paused, the playhead takes the position and nothing seeks; playing, the playhead is validated and the player is sent to the start limit when at or past the end limit, else to the moved playhead |
| MainWindow.PlaybackStaysInSegments | src/Main/mainWindow.cpp:156-162 | on a non-empty ordered timeline, after the handler player and playhead agree on a position inside a segment, below the end limit |
| MainWindow.PlaybackWrapsWithoutSegments | src/Main/mainWindow.cpp:158-161 | with no segments, reaching the media end sends the player back to 0 |
| MainWindow.DurationChanged | src/Main/mainWindow.cpp:166-171 | only a positive duration reaches the timeline |
| MainWindow.DurationsKeepLastPositive | src/Main/mainWindow.cpp:166-171 | after any reports the duration is the start value or the last positive report |
| MainWindow.ResetCrop | src/Main/mainWindow.cpp:180-186 | the preview crop returns to (0, 0.03)-(1, 0.96); the timeline's top and bottom follow it, its left and right stay |
| MainWindow.ResetCropIdempotent | src/Main/mainWindow.cpp:180-186 | pressing reset twice is pressing it once |
| Drop.Filter | src/Includes/dropFilter.h:25-65 | drag-enter is taken iff it carries URLs; a drop whose first path is empty is neither accepted nor consumed; any other drop is; the first path is loaded iff its lower-cased suffix is a supported format; other events pass |
| Drop.DropLoadsVideo | src/Includes/dropFilter.h:40-53 | a first file `dir/base.ext` with a supported extension is loaded, whatever follows it |
| Drop.UpperCaseSuffix | src/Includes/dropFilter.h:48 | the suffix is compared without regard to case: `.MP4` is supported |
| Drop.KelvinSuffix | src/Includes/dropFilter.h:48 | the Kelvin sign lowers to `k`, so a `.m\u212Av` suffix is supported |
| Drop.NoSuffixNotLoaded | src/Includes/dropFilter.h:45-62 | a file without an extension is not loaded, yet the drop is accepted and consumed |
| Paths.PathParts | src/Includes/dropFilter.h:46-48 | a path `dir/base.ext` has file name `base.ext`, base name `base` and suffix `ext` |
| Preview.SliceOf | src/Main/previewLabel.cpp:51-54 | frame i's slice is a tenth of the strip's width (rounded down), i such widths from the left, at full height |
| Preview.SliceWithin | src/Main/previewLabel.cpp:51-54 | the slice of an existing frame lies inside the strip |
| Preview.SlicesTile | src/Main/previewLabel.cpp:51-52 | neighbouring frames' slices meet without overlapping |
| Preview.UpdatePreview | src/Main/previewLabel.cpp:48-57 | without a filmstrip nothing happens; otherwise frame i's slice is shown |
| Preview.FrameIndex | src/Main/previewLabel.cpp:73-74 | the frame under the pointer is in [0, 9]: over the label it is the pointer's tenth of the width; left of it 0; right of it 9 |
| Preview.Enter | src/Main/previewLabel.cpp:59-62 | entering starts the hover and keeps the strip and the frame on display |
| Preview.Leave | src/Main/previewLabel.cpp:64-68 | leaving ends the hover and shows frame 0 again |
| Preview.Move | src/Main/previewLabel.cpp:70-78 | without a hover or a filmstrip nothing changes |
| Preview.MoveShowsPointedFrame | src/Main/previewLabel.cpp:70-78 | over a hovered label the pointed frame's slice is shown, and it lies inside the filmstrip |

## Left out

- Process launching, ffmpeg/ffprobe runs, the clipboard, the export directory and `mkpath`. These are I/O. The export lock is a two-state machine whose finish event carries the exit code.
- The exact argument strings. This covers `QString::number` of doubles, the filter text and the encoder flags that never vary. The graph is an abstract chain list and the varying encoder settings are a datatype.
- Floating point. Times are whole milliseconds where the source uses double seconds. This applies to the silence cut, the trim windows and the seek. Rectangles, ratios and bitrates are exact reals where the source uses `float`/`double`.
- The silence detector's output parsing. The model takes the silence start and end lists in milliseconds, and a failed detector run is seen as an empty list. The source reacts to it the same way: it reports that no silence was found.
- `loadAudioFast`, the waveform loader, which is floating-point RMS over temporary files. Also `generatePreview`, the filmstrip generation, which runs ffmpeg.
- All paint handlers, `calculateTargetRect`, the wheel zoom/scroll/gain and the cursor shapes. Pointer positions reach the model already converted to milliseconds, or to pixels in the frame rectangle.
- The update checker and downloader, window chrome, layouts and startup.
- Notifications and signals (`showNotification`, `playheadMoved`, the status label's text). The model returns outcome values instead.
- The player calls (`stop`, `setSource`, `play`) made by the drop filter. The model reports the file to load.
- The wall-clock read in `generateClippedName`. The time string is a parameter.
- 64-bit wrap-around. Sums of segment lengths and `qint64` arithmetic are unbounded here.
- The region editor's `float` crop and filter values. They are reals, so `0.03f` and `0.96f` are exact.
- Progress.Percent: requires a positive edited duration. The division by zero that the source performs otherwise yields an infinity or NaN, and casting that to `int` is undefined behaviour in C++. The same cast is also undefined when the percentage passes `INT_MAX`, which an `out_time_us` value of 10^17 against a one-second edit reaches. The model clamps such values to 100, and `PercentFull` states that. On x86 the source's cast gives `INT_MIN` and the bar shows 0.
- Progress.PercentFull: promises 100 for every time at or past the edit's end, including the times whose percentage passes `INT_MAX`, where the source's cast is undefined (see the line above).
- Preview.FrameIndex: requires a positive label width. The source divides by it unchecked.
- Audio.IsAnySelectedMuted: requires every selected position to be on the list. The source indexes without a check.
- Mouse.Move: requires the grabbed segment index, when an edge is active, to be on the list. The source indexes without a check.
- Regions.Move: requires the selected filter to exist while adjusting. The source indexes without a check.
- Paths.Suffix: paths use `/` only, as `QUrl::toLocalFile` produces them. Backslash separators are not recognised.
- Export.VideoJob: compiles the corrected graph with `[filtered]` split once per segment, and `Begin` hands that job on. The graph that export.cpp:78-85 builds is modelled separately as `VideoJobAsWritten` (see Findings).
- Text.ToLower: lowers the ASCII capitals and the Kelvin sign only. `QString::toLower` applies the full Unicode lower-case mapping. No other character lowers to an ASCII letter, so the supported-format test in `Drop.Filter` decides the same. Other lowered strings can differ.
- Export.MaskChains: a zero-size region is compiled like any other and is not skipped. This follows the code.

## Findings

| source | as written | input that shows it | evidently intended | confidence | as-written member | corrected member |
|---|---|---|---|---|---|---|
| src/Main/export.cpp:78-85 | every segment's video trim reads the single `[filtered]` label, but a filtergraph output label can feed only one input | a timeline with two segments: `[filtered]` is consumed twice and ffmpeg rejects the graph | split `[filtered]` once per segment (`split=n`) and give each trim its own copy | medium; not executed | Export.VideoJobAsWritten | Export.VideoGraphSingleUse |

=== FILE: audio.dfy ===
/** The audio side of the editor: the silence auto-cut that rebuilds the
    segment list from detected silences (`autoCutSilence`), the audio-track
    count (`detectAudioTracks`) and the muted-selection test
    (`isAnySelectedMuted`). Silence times are milliseconds. */
module Audio {
  import opened Common
  import opened Text
  import opened Segments
  import opened Editor

  /** Kept spans grow by this much on each side. */
  const PaddingMs: int := 200
  /** Spans this long or shorter are dropped before padding. */
  const MinSpanMs: int := 100

  /** Adds a span after the kept ones: when it starts before the last kept
      span ends, that span is stretched to the new end instead. */
  function Place(kept: seq<Segment>, span: Segment): (r: seq<Segment>)
    ensures |kept| > 0 && span.startMs < kept[|kept| - 1].endMs ==>
              r == kept[..|kept| - 1] + [kept[|kept| - 1].(endMs := span.endMs)]
    ensures !(|kept| > 0 && span.startMs < kept[|kept| - 1].endMs) ==> r == kept + [span]
    ensures |r| > 0 && r[|r| - 1].endMs == span.endMs
  {
    if |kept| > 0 && span.startMs < kept[|kept| - 1].endMs then
      kept[..|kept| - 1] + [kept[|kept| - 1].(endMs := span.endMs)]
    else
      kept + [span]
  }

  /** Placing a non-empty span inside the media keeps the kept list ordered
      and inside the media, provided the span does not end before the last
      kept span (which holds when the silences come in ascending order). */
  lemma PlaceKeepsOrdered(kept: seq<Segment>, span: Segment, totalMs: int)
    requires Ordered(kept) && Within(kept, totalMs)
    requires 0 <= span.startMs < span.endMs <= totalMs
    requires |kept| > 0 ==> kept[|kept| - 1].endMs <= span.endMs
    ensures Ordered(Place(kept, span)) && Within(Place(kept, span), totalMs)
  {
    var r := Place(kept, span);
    if |kept| > 0 && span.startMs < kept[|kept| - 1].endMs {
      assert forall k :: 0 <= k < |kept| - 1 ==> r[k] == kept[k];
    } else {
      assert forall k :: 0 <= k < |kept| ==> r[k] == kept[k];
    }
  }

  /** One candidate span `[clipStart, clipEnd]` between two silences: kept
      only when longer than `MinSpanMs`, then padded and clamped into the
      media. */
  function Candidate(kept: seq<Segment>, clipStart: int, clipEnd: int, totalMs: int): (r: seq<Segment>)
    ensures |kept| <= |r| <= |kept| + 1
    ensures |kept| > 0 ==> r[..|kept| - 1] == kept[..|kept| - 1]
    ensures clipEnd - clipStart <= MinSpanMs ==> r == kept
    ensures clipEnd - clipStart > MinSpanMs ==> |r| > 0 && r[|r| - 1].endMs == Min(totalMs, clipEnd + PaddingMs)
    ensures var lo, hi := Max(0, clipStart - PaddingMs), Min(totalMs, clipEnd + PaddingMs);
            clipEnd - clipStart > MinSpanMs && (|kept| == 0 || lo >= kept[|kept| - 1].endMs) ==>
              r == kept + [NewSegment(lo, hi)]
    ensures var lo, hi := Max(0, clipStart - PaddingMs), Min(totalMs, clipEnd + PaddingMs);
            clipEnd - clipStart > MinSpanMs && |kept| > 0 && lo < kept[|kept| - 1].endMs ==>
              r == kept[..|kept| - 1] + [kept[|kept| - 1].(endMs := hi)]
  {
    if clipEnd - clipStart > MinSpanMs then
      Place(kept, NewSegment(Max(0, clipStart - PaddingMs), Min(totalMs, clipEnd + PaddingMs)))
    else kept
  }

  /** The loop over the silence starts: the span before silence `i` runs
      from the previous silence end to its start. The previous end advances
      only when silence `i` has a recorded end.
      The loop adds at most one span per silence and never touches the
      kept spans before the last; it ends with the last recorded silence
      end, or with `lastEnd` when no silence from `i` on has one. */
  function CutLoop(starts: seq<int>, ends: seq<int>, totalMs: int, i: nat, kept: seq<Segment>, lastEnd: int): (r: (seq<Segment>, int))
    requires i <= |starts|
    ensures Min(|starts|, |ends|) > i ==> r.1 == ends[Min(|starts|, |ends|) - 1]
    ensures Min(|starts|, |ends|) <= i ==> r.1 == lastEnd
    ensures |kept| <= |r.0| <= |kept| + (|starts| - i)
    ensures |kept| > 0 ==> r.0[..|kept| - 1] == kept[..|kept| - 1]
    decreases |starts| - i
  {
    if i == |starts| then (kept, lastEnd)
    else
      var next := Candidate(kept, lastEnd, starts[i], totalMs);
      var r := CutLoop(starts, ends, totalMs, i + 1, next, if i < |ends| then ends[i] else lastEnd);
      PrefixOfPrefix(kept, next, r.0);
      r
  }

  /** Keeping all but the last of `b`, which itself keeps all but the last
      of `a`, keeps all but the last of `a`. */
  lemma PrefixOfPrefix(a: seq<Segment>, b: seq<Segment>, c: seq<Segment>)
    requires |a| <= |b| <= |c|
    requires |a| > 0 ==> b[..|a| - 1] == a[..|a| - 1]
    requires |b| > 0 ==> c[..|b| - 1] == b[..|b| - 1]
    ensures |a| > 0 ==> c[..|a| - 1] == a[..|a| - 1]
  {
    if |a| > 0 {
      assert c[..|a| - 1] == c[..|b| - 1][..|a| - 1];
      assert b[..|a| - 1] == b[..|b| - 1][..|a| - 1];
    }
  }

  /** The end of the last silence the loop reads an end for: silence ends
      past the last silence start are never read. */
  function LastSilenceEnd(starts: seq<int>, ends: seq<int>): int {
    var n := Min(|starts|, |ends|);
    if n > 0 then ends[n - 1] else 0
  }

  /** The segment list auto-cut builds: the loop, then the trailing span
      after the last silence end, by the same placing rule. At most one
      span per silence plus the trailing one; when the last silence end
      leaves more than `MinSpanMs` of media, the list reaches the end of
      the media; with no silence at all the whole media is one span. */
  function SilenceSegments(starts: seq<int>, ends: seq<int>, totalMs: int): (r: seq<Segment>)
    ensures |r| <= |starts| + 1
    ensures totalMs - LastSilenceEnd(starts, ends) > MinSpanMs ==> |r| > 0 && r[|r| - 1].endMs == totalMs
    ensures totalMs - LastSilenceEnd(starts, ends) <= MinSpanMs ==> r == CutLoop(starts, ends, totalMs, 0, [], 0).0
    ensures |starts| == 0 ==> r == if totalMs > MinSpanMs then [NewSegment(0, totalMs)] else []
    ensures var kept, lo := CutLoop(starts, ends, totalMs, 0, [], 0).0, Max(0, LastSilenceEnd(starts, ends) - PaddingMs);
            totalMs - LastSilenceEnd(starts, ends) > MinSpanMs && (|kept| == 0 || lo >= kept[|kept| - 1].endMs) ==>
              r == kept + [NewSegment(lo, totalMs)]
    ensures var kept, lo := CutLoop(starts, ends, totalMs, 0, [], 0).0, Max(0, LastSilenceEnd(starts, ends) - PaddingMs);
            totalMs - LastSilenceEnd(starts, ends) > MinSpanMs && |kept| > 0 && lo < kept[|kept| - 1].endMs ==>
              r == kept[..|kept| - 1] + [kept[|kept| - 1].(endMs := totalMs)]
  {
    var (kept, lastEnd) := CutLoop(starts, ends, totalMs, 0, [], 0);
    if totalMs - lastEnd > MinSpanMs then Place(kept, NewSegment(Max(0, lastEnd - PaddingMs), totalMs))
    else kept
  }

  /** Silence data as the detector reports it: every time inside the media
      and the silence starts in ascending order. */
  predicate SortedSilences(starts: seq<int>, ends: seq<int>, totalMs: int) {
    && 0 <= totalMs
    && (forall k :: 0 <= k < |starts| ==> 0 <= starts[k] <= totalMs)
    && (forall k :: 0 <= k < |ends| ==> 0 <= ends[k] <= totalMs)
    && (forall k, l :: 0 <= k < l < |starts| ==> starts[k] <= starts[l])
  }

  /** What the loop keeps true: the kept spans are ordered and inside the
      media, and the last one ends no later than any span still to come can
      end. */
  predicate LoopInvariant(starts: seq<int>, totalMs: int, i: nat, kept: seq<Segment>, lastEnd: int) {
    && Ordered(kept) && Within(kept, totalMs)
    && 0 <= lastEnd <= totalMs
    && (|kept| > 0 ==> forall k :: i <= k < |starts| ==> kept[|kept| - 1].endMs <= Min(totalMs, starts[k] + PaddingMs))
  }

  lemma {:induction false} CutLoopOrdered(starts: seq<int>, ends: seq<int>, totalMs: int, i: nat, kept: seq<Segment>, lastEnd: int)
    requires i <= |starts|
    requires SortedSilences(starts, ends, totalMs)
    requires LoopInvariant(starts, totalMs, i, kept, lastEnd)
    ensures var (k, e) := CutLoop(starts, ends, totalMs, i, kept, lastEnd);
            Ordered(k) && Within(k, totalMs) && 0 <= e <= totalMs
    decreases |starts| - i
  {
    if i < |starts| {
      var next := Candidate(kept, lastEnd, starts[i], totalMs);
      if starts[i] - lastEnd > MinSpanMs {
        var span := NewSegment(Max(0, lastEnd - PaddingMs), Min(totalMs, starts[i] + PaddingMs));
        PlaceKeepsOrdered(kept, span, totalMs);
        assert next[|next| - 1].endMs == Min(totalMs, starts[i] + PaddingMs);
      }
      CutLoopOrdered(starts, ends, totalMs, i + 1, next, if i < |ends| then ends[i] else lastEnd);
    }
  }

  /** With ascending silences inside the media, auto-cut produces an ordered
      timeline inside the media. */
  lemma SilenceSegmentsOrdered(starts: seq<int>, ends: seq<int>, totalMs: int)
    requires SortedSilences(starts, ends, totalMs)
    ensures Ordered(SilenceSegments(starts, ends, totalMs))
    ensures Within(SilenceSegments(starts, ends, totalMs), totalMs)
  {
    CutLoopOrdered(starts, ends, totalMs, 0, [], 0);
    var (kept, lastEnd) := CutLoop(starts, ends, totalMs, 0, [], 0);
    var r := SilenceSegments(starts, ends, totalMs);
    if totalMs - lastEnd > MinSpanMs {
      var span := NewSegment(Max(0, lastEnd - PaddingMs), totalMs);
      PlaceKeepsOrdered(kept, span, totalMs);
      assert r == Place(kept, span);
    } else {
      assert r == kept;
    }
  }

  /** Silences at 2 s and 6 s, only the first with an end (3 s), in a 10 s
      clip: the span before the first silence is padded to `[0, 2.2 s]`;
      the second span `[2.8 s, 6.2 s]` is appended; since the second silence
      has no end, the trailing span starts again from 3 s and is merged,
      stretching it to the end of the clip. */
  lemma SilenceExample()
    ensures SilenceSegments([2000, 6000], [3000], 10000) == [NewSegment(0, 2200), NewSegment(2800, 10000)]
  {
    var starts, ends := [2000, 6000], [3000];
    assert Candidate([], 0, 2000, 10000) == [NewSegment(0, 2200)];
    assert Candidate([NewSegment(0, 2200)], 3000, 6000, 10000) == [NewSegment(0, 2200), NewSegment(2800, 6200)];
    assert CutLoop(starts, ends, 10000, 0, [], 0)
        == CutLoop(starts, ends, 10000, 1, [NewSegment(0, 2200)], 3000)
        == CutLoop(starts, ends, 10000, 2, [NewSegment(0, 2200), NewSegment(2800, 6200)], 3000)
        == ([NewSegment(0, 2200), NewSegment(2800, 6200)], 3000);
  }

  /** Two padded spans that overlap merge into one. */
  lemma SilenceMergeExample()
    ensures SilenceSegments([1000, 1500], [1150, 1600], 1800) == [NewSegment(0, 1800)]
  {
    MergeLoopExample();
    var kept := [NewSegment(0, 1700)];
    assert kept[..0] + [kept[0].(endMs := 1800)] == [NewSegment(0, 1800)];
    assert Place(kept, NewSegment(1400, 1800)) == [NewSegment(0, 1800)];
  }

  /** A worked example rather than a property: the loop part of the merge
      example, where the second span starts inside the first and stretches
      it. */
  lemma MergeLoopExample()
    ensures CutLoop([1000, 1500], [1150, 1600], 1800, 0, [], 0) == ([NewSegment(0, 1700)], 1600)
  {
    var starts, ends := [1000, 1500], [1150, 1600];
    var first := [NewSegment(0, 1200)];
    assert Candidate([], 0, 1000, 1800) == first;
    assert first[..0] + [first[0].(endMs := 1700)] == [NewSegment(0, 1700)];
    assert Candidate(first, 1150, 1500, 1800) == [NewSegment(0, 1700)];
    assert CutLoop(starts, ends, 1800, 2, [NewSegment(0, 1700)], 1600) == ([NewSegment(0, 1700)], 1600);
    assert CutLoop(starts, ends, 1800, 1, first, 1150) == ([NewSegment(0, 1700)], 1600);
  }

  /** Out-of-order silence starts break the ordering: a merge can pull the
      last span's end below its start. */
  lemma UnsortedSilencesBreakOrder()
    ensures !WellFormed(SilenceSegments([2000, 5000, 1000, 0], [3200, 500, 5200], 5200))
  {
    var starts, ends := [2000, 5000, 1000, 0], [3200, 500, 5200];
    var a := [NewSegment(0, 2200)];
    var b := a + [NewSegment(3000, 5200)];
    var c := a + [NewSegment(3000, 1200)];
    assert Candidate([], 0, 2000, 5200) == a;
    assert Candidate(a, 3200, 5000, 5200) == b;
    assert Candidate(b, 500, 1000, 5200) == c;
    assert Candidate(c, 5200, 0, 5200) == c;
    assert CutLoop(starts, ends, 5200, 4, c, 5200) == (c, 5200);
    assert CutLoop(starts, ends, 5200, 3, c, 5200) == (c, 5200);
    assert CutLoop(starts, ends, 5200, 2, b, 500) == (c, 5200);
    assert CutLoop(starts, ends, 5200, 1, a, 3200) == (c, 5200);
    assert CutLoop(starts, ends, 5200, 0, [], 0) == (c, 5200);
    assert SilenceSegments(starts, ends, 5200) == c;
    assert !(c[1].startMs < c[1].endMs);
  }

  /** How an auto-cut request ends. */
  datatype CutOutcome = Skipped | NoSilenceFound | Cut(count: nat)

  /** `autoCutSilence` with the detector's result already in hand: skipped
      without a duration or while exporting; otherwise a snapshot is taken
      before the analysis, and then either no silence was reported and the
      list stays, or the list is replaced by the rebuilt one. A detector
      that fails to run reports no silence either. */
  function AutoCutSilence(s: State, starts: seq<int>, ends: seq<int>): (r: (State, CutOutcome))
    ensures s.durationMs <= 0 || s.exporting ==> r == (s, Skipped)
    ensures s.durationMs > 0 && !s.exporting ==> r.0.history == SaveState(s).history
    ensures s.durationMs > 0 && !s.exporting && |starts| == 0 ==>
              r.1 == NoSilenceFound && r.0 == SaveState(s)
    ensures s.durationMs > 0 && !s.exporting && |starts| > 0 ==>
              && r.0 == SaveState(s).(segments := r.0.segments)
              && r.0.segments == SilenceSegments(starts, ends, s.durationMs)
              && r.1 == Cut(|r.0.segments|)
    ensures Valid(s) && SortedSilences(starts, ends, s.durationMs) ==> Valid(r.0)
  {
    if s.durationMs <= 0 || s.exporting then (s, Skipped)
    else
      var saved := SaveState(s);
      if |starts| == 0 then (saved, NoSilenceFound)
      else
        var segs := SilenceSegments(starts, ends, s.durationMs);
        assert SortedSilences(starts, ends, s.durationMs) ==> Ordered(segs) && Within(segs, s.durationMs) by {
          if SortedSilences(starts, ends, s.durationMs) {
            SilenceSegmentsOrdered(starts, ends, s.durationMs);
          }
        }
        (saved.(segments := segs), Cut(|segs|))
  }

  // ----------------------------------------------------------- track count

  /** Number of non-empty lines: `split('\n', SkipEmptyParts).count()`. */
  function CountLines(s: string, atLineStart: bool): nat
    decreases |s|
  {
    if |s| == 0 then 0
    else if s[0] == '\n' then CountLines(s[1..], true)
    else (if atLineStart then 1 else 0) + CountLines(s[1..], false)
  }

  /** `detectAudioTracks`: the probe prints one stream index per line; the
      count is the number of non-empty lines of the trimmed output, and no
      line at all counts as one track. */
  function TrackCount(probeOutput: string): (n: nat)
    ensures n >= 1
    ensures CountLines(Trim(probeOutput), true) > 0 ==> n == CountLines(Trim(probeOutput), true)
    ensures CountLines(Trim(probeOutput), true) == 0 ==> n == 1
  {
    var lines := CountLines(Trim(probeOutput), true);
    if lines == 0 then 1 else lines
  }

  predicate IsLine(l: string) {
    |l| > 0 && '\n' !in l
  }

  predicate NoLeadingSpace(s: string) {
    |s| > 0 && !IsSpace(s[0])
  }

  predicate NoTrailingSpace(s: string) {
    |s| > 0 && !IsSpace(s[|s| - 1])
  }

  function JoinLines(lines: seq<string>): string {
    if |lines| == 0 then "" else if |lines| == 1 then lines[0] else lines[0] + "\n" + JoinLines(lines[1..])
  }

  lemma {:induction false} CountLineChars(l: string, rest: string, atLineStart: bool)
    requires IsLine(l)
    ensures CountLines(l + rest, atLineStart) == (if atLineStart then 1 else 0) + CountLines(rest, false)
    decreases |l|
  {
    assert (l + rest)[1..] == l[1..] + rest;
    if |l| > 1 {
      CountLineChars(l[1..], rest, false);
    } else {
      assert l[1..] + rest == rest;
    }
  }

  /** Joining non-empty lines with newlines and counting them back gives the
      number of lines. */
  lemma {:induction false} CountJoinedLines(lines: seq<string>)
    requires forall k :: 0 <= k < |lines| ==> IsLine(lines[k])
    ensures CountLines(JoinLines(lines), true) == |lines|
    decreases |lines|
  {
    if |lines| == 1 {
      CountLineChars(lines[0], "", true);
      assert lines[0] + "" == lines[0];
    } else if |lines| > 1 {
      var rest := JoinLines(lines[1..]);
      CountLineChars(lines[0], "\n" + rest, true);
      assert lines[0] + "\n" + rest == lines[0] + ("\n" + rest);
      assert ("\n" + rest)[1..] == rest;
      CountJoinedLines(lines[1..]);
    }
  }

  /** A string that neither starts nor ends with whitespace trims to itself. */
  lemma TrimUntrimmed(s: string)
    requires NoLeadingSpace(s) && NoTrailingSpace(s)
    ensures Trim(s) == s
  {
  }

  /** The probe's output of one index per line yields that many tracks. */
  lemma TrackCountOfProbe(lines: seq<string>)
    requires |lines| > 0
    requires forall k :: 0 <= k < |lines| ==> IsLine(lines[k])
    requires NoLeadingSpace(lines[0]) && NoTrailingSpace(lines[|lines| - 1])
    ensures TrackCount(JoinLines(lines)) == |lines|
  {
    var s := JoinLines(lines);
    JoinLinesEnds(lines);
    TrimUntrimmed(s);
    CountJoinedLines(lines);
  }

  lemma {:induction false} JoinLinesEnds(lines: seq<string>)
    requires |lines| > 0
    requires forall k :: 0 <= k < |lines| ==> IsLine(lines[k])
    ensures NoLeadingSpace(lines[0]) ==> NoLeadingSpace(JoinLines(lines))
    ensures NoTrailingSpace(lines[|lines| - 1]) ==> NoTrailingSpace(JoinLines(lines))
    decreases |lines|
  {
    if |lines| > 1 {
      JoinLinesEnds(lines[1..]);
      var rest := JoinLines(lines[1..]);
      assert JoinLines(lines) == lines[0] + ("\n" + rest);
      assert JoinLines(lines)[0] == lines[0][0];
      assert JoinLines(lines)[|JoinLines(lines)| - 1] == rest[|rest| - 1];
    }
  }

  /** `detectAudioTracks` on the editor: sets the count and resets the
      current track to the first. */
  function DetectAudioTracks(s: State, probeOutput: string): (r: State)
    ensures r == s.(totalTracks := r.totalTracks, currentTrack := 0)
    ensures r.totalTracks >= 1
  {
    s.(totalTracks := TrackCount(probeOutput), currentTrack := 0)
  }

  // ----------------------------------------------------------- muted test

  /** `isAnySelectedMuted`: whether some selected segment is muted. The
      source indexes the list without a range check, so every selected
      position must be on the list. */
  method IsAnySelectedMuted(segs: seq<Segment>, selectedSet: set<int>, selectedIdx: int) returns (muted: bool)
    requires forall k :: k in Targets(selectedSet, selectedIdx) ==> 0 <= k < |segs|
    ensures muted <==> exists k :: k in Targets(selectedSet, selectedIdx) && segs[k].muted
  {
    var targets := Targets(selectedSet, selectedIdx);
    var i := 0;
    while i < |segs|
      invariant 0 <= i <= |segs|
      invariant forall k :: 0 <= k < i && k in targets ==> !segs[k].muted
    {
      if i in targets && segs[i].muted {
        return true;
      }
      i := i + 1;
    }
    return false;
  }
}

=== FILE: common.dfy ===
/** Small arithmetic helpers shared by every part of the model: the option
    type, Qt's clamping rule, and the C++ conversions from `double` to `int`
    that the editor relies on. */
module Common {

  datatype Option<+T> = None | Some(value: T)

  /** A rectangle in normalised frame coordinates, `[0,1]` on both axes. */
  datatype Rect = Rect(left: real, top: real, right: real, bottom: real)

  /** The first position of `s` whose element satisfies `p`: the linear
      "for each index, break on the first hit" search the editor uses. */
  function FindFirst<T>(s: seq<T>, p: T -> bool): (r: Option<nat>)
    ensures r.Some? ==> r.value < |s| && p(s[r.value])
    ensures r.Some? ==> forall j :: 0 <= j < r.value ==> !p(s[j])
    ensures r.None? <==> forall j :: 0 <= j < |s| ==> !p(s[j])
  {
    if |s| == 0 then None
    else if p(s[0]) then Some(0)
    else match FindFirst(s[1..], p)
      case None => assert forall j :: 1 <= j < |s| ==> s[j] == s[1..][j - 1]; None
      case Some(k) => Some(k + 1)
  }

  function Min(a: int, b: int): (r: int)
    ensures r <= a && r <= b
    ensures r == a || r == b
  {
    if a <= b then a else b
  }

  function Max(a: int, b: int): (r: int)
    ensures r >= a && r >= b
    ensures r == a || r == b
  {
    if a >= b then a else b
  }

  function MinReal(a: real, b: real): (r: real)
    ensures r <= a && r <= b
    ensures r == a || r == b
  {
    if a <= b then a else b
  }

  function MaxReal(a: real, b: real): (r: real)
    ensures r >= a && r >= b
    ensures r == a || r == b
  {
    if a >= b then a else b
  }

  /** Qt's `qBound(lo, v, hi)`, defined as `qMax(lo, qMin(v, hi))`: the lower
      bound wins when the bounds cross. */
  function Bound(lo: int, v: int, hi: int): (r: int)
    ensures lo <= r
    ensures lo <= hi ==> r <= hi
    ensures lo <= v <= hi ==> r == v
    ensures v <= lo ==> r == lo
    ensures lo <= hi <= v ==> r == hi
  {
    Max(lo, Min(v, hi))
  }

  /** `qBound` on floating-point values, modelled on the reals. */
  function BoundReal(lo: real, v: real, hi: real): (r: real)
    ensures lo <= r
    ensures lo <= hi ==> r <= hi
    ensures lo <= v <= hi ==> r == v
    ensures v <= lo ==> r == lo
    ensures lo <= hi <= v ==> r == hi
  {
    MaxReal(lo, MinReal(v, hi))
  }

  function Abs(x: int): (r: nat)
    ensures r == x || r == -x
  {
    if x < 0 then -x else x
  }

  /** C++ integer division by a positive divisor, which truncates toward
      zero: the remainder `a - q * b` takes the sign of the dividend. */
  function TruncDiv(a: int, b: int): (q: int)
    requires b > 0
    ensures a >= 0 ==> 0 <= q && 0 <= a - q * b < b
    ensures a < 0 ==> q <= 0 && -b < a - q * b <= 0
  {
    if a >= 0 then a / b else -((-a) / b)
  }

  /** C++ `%` by a positive divisor: the remainder takes the sign of the
      dividend. */
  function TruncMod(a: int, b: int): (r: int)
    requires b > 0
    ensures a >= 0 ==> 0 <= r < b
    ensures a < 0 ==> -b < r <= 0
  {
    a - TruncDiv(a, b) * b
  }

  /** `static_cast<int>` of a floating-point value: truncation toward zero. */
  function Trunc(x: real): (r: int)
    ensures x >= 0.0 ==> 0 <= r && r as real <= x < r as real + 1.0
    ensures x < 0.0 ==> r <= 0 && r as real - 1.0 < x <= r as real
  {
    if x >= 0.0 then x.Floor else -((-x).Floor)
  }

  /** Truncation never reverses the order of two values. */
  lemma TruncMonotone(x: real, y: real)
    requires x <= y
    ensures Trunc(x) <= Trunc(y)
  {
  }

  /** Qt's `qRound`: to the nearest integer, halves away from zero. */
  function QRound(x: real): (r: int)
    ensures x >= 0.0 ==> r as real - 0.5 <= x < r as real + 0.5
    ensures x < 0.0 ==> r as real - 0.5 < x <= r as real + 0.5
  {
    if x >= 0.0 then (x + 0.5).Floor else -((-x + 0.5).Floor)
  }

  /** `x & ~1` on a two's-complement int: clears the lowest bit, which rounds
      down to the nearest even number (also for negative values). */
  function ClearLowBit(x: int): (r: int)
    ensures r % 2 == 0
    ensures x - 2 < r <= x
    ensures x % 2 == 0 ==> r == x
  {
    x - x % 2
  }
}

=== FILE: drop.dfy ===
/** The drag-and-drop filter on the main window: a drag is welcomed when it
    carries URLs, and a drop loads the first URL's local file when its
    suffix names a supported container. */
module Drop {
  import opened Common
  import opened Text
  import opened Paths

  /** The containers a drop may load, compared in lower case. */
  const Formats: seq<string> := ["mp4", "mkv", "mov", "avi", "webm"]

  /** The events the filter sees. A drop carries the local file paths of its
      URLs, empty for a URL that names no local file. */
  datatype Event = DragEnter(hasUrls: bool) | Dropped(paths: seq<string>) | OtherEvent

  /** What the filter does with an event: whether it accepts it, whether it
      stops it from reaching the window, and which file it loads, if any. */
  datatype Reaction = Reaction(accepted: bool, consumed: bool, load: Option<string>)

  /** Whether a path names a supported container. */
  predicate Supported(path: string) {
    ToLower(Suffix(path)) in Formats
  }

  /** `eventFilter`. */
  function Filter(ev: Event): (r: Reaction)
    ensures ev.DragEnter? ==> r.accepted == ev.hasUrls && r.consumed == ev.hasUrls && r.load == None
    ensures ev.Dropped? && |ev.paths| > 0 && ev.paths[0] == "" ==> !r.accepted && !r.consumed && r.load == None
    ensures ev.Dropped? && (|ev.paths| == 0 || ev.paths[0] != "") ==> r.accepted && r.consumed
    ensures r.load.Some? <==> ev.Dropped? && |ev.paths| > 0 && ev.paths[0] != "" && Supported(ev.paths[0])
    ensures r.load.Some? ==> r.load.value == ev.paths[0]
    ensures ev.OtherEvent? ==> r == Reaction(false, false, None)
  {
    match ev
    case DragEnter(hasUrls) => Reaction(hasUrls, hasUrls, None)
    case Dropped(paths) =>
      if |paths| == 0 then Reaction(true, true, None)
      else if paths[0] == "" then Reaction(false, false, None)
      else Reaction(true, true, if Supported(paths[0]) then Some(paths[0]) else None)
    case OtherEvent => Reaction(false, false, None)
  }

  /** Lower-casing a word that is already in lower case leaves it as it is. */
  lemma {:induction false} LowerOfLower(s: string)
    requires forall k :: 0 <= k < |s| ==> LowerChar(s[k]) == s[k]
    ensures ToLower(s) == s
  {
    if |s| > 0 {
      LowerOfLower(s[1..]);
      assert s == [s[0]] + s[1..];
    }
  }

  /** Every supported extension is a lower-case word without `.` or `/`. */
  lemma FormatWord(ext: string)
    requires ext in Formats
    ensures ToLower(ext) == ext && '/' !in ext && '.' !in ext
  {
    if ext == "mp4" {
      PlainWord("mp4");
    } else if ext == "mkv" {
      PlainWord("mkv");
    } else if ext == "mov" {
      PlainWord("mov");
    } else if ext == "avi" {
      PlainWord("avi");
    } else {
      assert ext == "webm";
      PlainWord("webm");
    }
  }

  /** A word of lower-case letters and digits. */
  lemma PlainWord(s: string)
    requires forall k :: 0 <= k < |s| ==> 'a' <= s[k] <= 'z' || '0' <= s[k] <= '9'
    ensures ToLower(s) == s && '/' !in s && '.' !in s
  {
    LowerOfLower(s);
  }

  /** A file `dir/base.ext` with a supported extension, dropped first,
      is loaded whatever else comes with it. */
  lemma DropLoadsVideo(dir: string, base: string, ext: string, rest: seq<string>)
    requires '/' !in base && '.' !in base
    requires ext in Formats
    ensures Filter(Dropped([dir + "/" + base + "." + ext] + rest)).load == Some(dir + "/" + base + "." + ext)
  {
    var path := dir + "/" + base + "." + ext;
    FormatWord(ext);
    PathParts(dir, base, ext);
    assert ([path] + rest)[0] == path;
  }

  /** The suffix is compared without regard to case. */
  lemma UpperCaseSuffix(stem: string)
    ensures Supported(stem + ".MP4")
  {
    var path := stem + ".MP4";
    assert path == stem + "." + "MP4";
    SuffixOfDotted(stem, "MP4");
    assert Suffix(path) == "MP4";
    LowerMp4();
    assert Formats[0] == "mp4";
  }

  lemma LowerMp4()
    ensures ToLower("MP4") == "mp4"
  {
    var low := ToLower("MP4");
    assert low[0] == 'm' && low[1] == 'p' && low[2] == '4';
  }

  /** The Kelvin sign lowers to `k`, so `.m\U{212A}v` names a Matroska
      file. */
  lemma KelvinSuffix(stem: string)
    ensures Supported(stem + "." + "m\U{212A}v")
  {
    KelvinWord();
    LowerMkv();
    MkvSupported();
    SupportedDotted(stem, "m\U{212A}v", "mkv");
  }

  /** `stem.ext` is supported when `ext` lowers to a supported format. */
  lemma SupportedDotted(stem: string, ext: string, low: string)
    requires '/' !in ext && '.' !in ext
    requires ToLower(ext) == low && low in Formats
    ensures Supported(stem + "." + ext)
  {
    SuffixOfDotted(stem, ext);
  }

  lemma MkvSupported()
    ensures "mkv" in Formats
  {
    assert Formats[1] == "mkv";
  }

  lemma KelvinWord()
    ensures '/' !in "m\U{212A}v" && '.' !in "m\U{212A}v"
  {
    var ext := "m\U{212A}v";
    assert ext[0] == 'm' && ext[1] == '\U{212A}' && ext[2] == 'v';
  }

  lemma LowerMkv()
    ensures ToLower("m\U{212A}v") == "mkv"
  {
    var low := ToLower("m\U{212A}v");
    assert low[0] == 'm' && low[1] == 'k' && low[2] == 'v';
  }

  /** A file without an extension is never loaded, yet the drop is still
      consumed. */
  lemma NoSuffixNotLoaded(path: string)
    requires path != "" && '.' !in path
    ensures Filter(Dropped([path])) == Reaction(true, true, None)
  {
    var name := FileName(path);
    assert '.' !in name by {
      assert path[|path| - |name|..] == name;
      forall k | 0 <= k < |name| ensures name[k] != '.' {
        assert name[k] == path[|path| - |name| + k];
      }
    }
    assert Suffix(path) == "";
    assert ToLower("") == "";
  }
}

=== FILE: editor.dfy ===
/** The timeline editor's state (`TimelineWidget`'s fields) with its
    declared defaults, the history operations on it, and the three segment
    commands `splitAtPlayhead`, `deleteSelectedSegment` and
    `validatePlayheadPosition`. */
module Editor {
  import opened Common
  import opened Segments
  import opened History
  import opened Timeline

  /** The keyboard modifiers held during a pointer or key event. */
  datatype Modifiers = Modifiers(shift: bool, ctrl: bool, alt: bool)

  /** The four ways to export the edited clip. */
  datatype ExportKind = VideoExport | AudioExport | GifExport | MutedExport

  /** A decoded thumbnail image; its pixels play no part in the model. */
  datatype Image = Image(id: nat)

  /** The single privacy region the exporter applies (`filterL`..`filterB`,
      `currentFilter`, `filterEnabled`). */
  datatype ExportFilter = ExportFilter(rect: Rect, mode: int, enabled: bool)

  datatype State = State(
    segments: seq<Segment>,
    history: Stacks,
    /** The single selection, -1 for none. */
    selectedIdx: int,
    /** The ctrl-click / rubber-band selection. */
    selectedSet: set<int>,
    /** The selection as it was when a rubber-band drag began. */
    preSelect: set<int>,
    playheadMs: int,
    durationMs: int,
    zoom: real,
    scroll: int,
    exporting: bool,
    currentTrack: int,
    totalTracks: int,
    activeEdge: Edge,
    activeIdx: int,
    selecting: bool,
    scrubbing: bool,
    /** Thumbnails keyed by whole seconds of media time. */
    thumbnails: map<int, Image>,
    crop: Rect,
    filter: ExportFilter,
    customName: string,
    fileSize: int,
    sourcePath: string)

  /** The full frame: the export crop's default. */
  const FullFrame: Rect := Rect(0.0, 0.0, 1.0, 1.0)

  /** The export filter's default: `(0.1,0.1)-(0.3,0.3)`, blur, disabled. */
  const DefaultFilter: ExportFilter := ExportFilter(Rect(0.1, 0.1, 0.3, 0.3), 0, false)

  /** A freshly constructed editor. */
  function Initial(): (s: State)
    ensures s.segments == [] && s.history == Empty && Bounded(s.history)
    ensures s.selectedIdx == -1 && s.selectedSet == {} && s.activeEdge == NoEdge && s.activeIdx == -1
    ensures s.playheadMs == 0 && s.durationMs == 0 && s.zoom == 1.0 && s.scroll == 0
    ensures !s.exporting && s.currentTrack == 0 && s.totalTracks == 1
    ensures s.crop == FullFrame && s.filter == DefaultFilter
  {
    State([], Empty, -1, {}, {}, 0, 0, 1.0, 0, false, 0, 1, NoEdge, -1,
          false, false, map[], FullFrame, DefaultFilter, "", 0, "")
  }

  /** The selected positions: the multi-selection plus the single
      selection, if any. */
  function Targets(selectedSet: set<int>, selectedIdx: int): (r: set<int>)
    ensures forall k :: k in r <==> k in selectedSet || (selectedIdx != -1 && k == selectedIdx)
  {
    if selectedIdx != -1 then selectedSet + {selectedIdx} else selectedSet
  }

  /** The state the editing invariants speak about: an ordered list inside
      the media, and a bounded history of such lists. */
  predicate Valid(s: State) {
    && Ordered(s.segments) && Within(s.segments, s.durationMs)
    && Bounded(s.history) && SnapshotsFit(s.history, s.durationMs)
  }

  /** `saveState`: snapshot the list into the history; nothing else moves. */
  function SaveState(s: State): (r: State)
    ensures r == s.(history := r.history)
    ensures r.history.redo == []
    ensures |r.history.undo| > 0 && r.history.undo[|r.history.undo| - 1] == TimelineState(s.segments)
    ensures Bounded(s.history) ==> Bounded(r.history)
    ensures Valid(s) ==> Valid(r)
  {
    if Valid(s) then SaveFits(s.history, s.segments, s.durationMs); s.(history := Save(s.history, s.segments))
    else s.(history := Save(s.history, s.segments))
  }

  /** `undo`: restores the latest snapshot and clears both selections; with
      nothing to undo the state is unchanged. */
  function UndoEdit(s: State): (r: State)
    ensures |s.history.undo| == 0 ==> r == s
    ensures |s.history.undo| > 0 ==>
              && r.segments == s.history.undo[|s.history.undo| - 1].segments
              && r.history.redo == s.history.redo + [TimelineState(s.segments)]
              && r.selectedIdx == -1 && r.selectedSet == {}
              && r == s.(segments := r.segments, history := r.history, selectedIdx := -1, selectedSet := {})
    ensures Bounded(s.history) ==> Bounded(r.history)
    ensures Valid(s) ==> Valid(r)
  {
    if |s.history.undo| == 0 then s
    else
      var step := Undo(s.history, s.segments);
      assert Valid(s) ==> Fits(step.segments, s.durationMs) && SnapshotsFit(step.stacks, s.durationMs) by {
        if Valid(s) {
          UndoFits(s.history, s.segments, s.durationMs);
        }
      }
      s.(segments := step.segments, history := step.stacks, selectedIdx := -1, selectedSet := {})
  }

  /** `redo`: restores the latest undone list; unlike undo it leaves the
      selection alone. */
  function RedoEdit(s: State): (r: State)
    ensures |s.history.redo| == 0 ==> r == s
    ensures |s.history.redo| > 0 ==>
              && r.segments == s.history.redo[|s.history.redo| - 1].segments
              && r.history.undo == s.history.undo + [TimelineState(s.segments)]
              && r == s.(segments := r.segments, history := r.history)
    ensures Bounded(s.history) ==> Bounded(r.history)
    ensures Valid(s) ==> Valid(r)
  {
    var step := Redo(s.history, s.segments);
    assert Valid(s) ==> Fits(step.segments, s.durationMs) && SnapshotsFit(step.stacks, s.durationMs) by {
      if Valid(s) {
        RedoFits(s.history, s.segments, s.durationMs);
      }
    }
    s.(segments := step.segments, history := step.stacks)
  }

  /** `splitAtPlayhead`: cuts the first splittable segment at the playhead,
      snapshotting first and selecting the new right-hand piece. When no
      segment can be split nothing happens, not even a snapshot. */
  function SplitAtPlayhead(s: State): (r: State)
    ensures SplitIndex(s.segments, s.playheadMs).None? ==> r == s
    ensures SplitIndex(s.segments, s.playheadMs).Some? ==>
              var i := SplitIndex(s.segments, s.playheadMs).value;
              && r.history == SaveState(s).history
              && r.segments == SplitAt(s.segments, i, s.playheadMs)
              && r.selectedIdx == i + 1
              && |r.segments| == |s.segments| + 1
    ensures r == s.(history := r.history, segments := r.segments, selectedIdx := r.selectedIdx)
    ensures TotalMs(r.segments) == TotalMs(s.segments)
    ensures Valid(s) ==> Valid(r)
  {
    match SplitIndex(s.segments, s.playheadMs)
    case None => s
    case Some(i) =>
      var segs := SplitAt(s.segments, i, s.playheadMs);
      assert Within(s.segments, s.durationMs) ==> Within(segs, s.durationMs) by {
        if Within(s.segments, s.durationMs) {
          forall j | 0 <= j < |segs|
            ensures 0 <= segs[j].startMs && segs[j].endMs <= s.durationMs
          {
            if j < i {
              assert segs[j] == segs[..i][j];
            } else if j > i + 1 {
              assert segs[j] == segs[i + 2..][j - i - 2];
            }
          }
        }
      }
      SaveState(s).(segments := segs, selectedIdx := i + 1)
  }

  /** `deleteSelectedSegment`: with a selection on the list, snapshots,
      removes exactly that segment, clears the selection and validates the
      playhead; otherwise nothing happens. */
  function DeleteSelectedSegment(s: State): (r: State)
    ensures !(0 <= s.selectedIdx < |s.segments|) ==> r == s
    ensures 0 <= s.selectedIdx < |s.segments| ==>
              && r.history == SaveState(s).history
              && r.segments == s.segments[..s.selectedIdx] + s.segments[s.selectedIdx + 1..]
              && r.selectedIdx == -1
              && r.playheadMs == ValidatePlayhead(r.segments, s.playheadMs)
    ensures 0 <= s.selectedIdx < |s.segments| ==>
              r == s.(history := r.history, segments := r.segments, selectedIdx := -1, playheadMs := r.playheadMs)
    ensures Valid(s) ==> Valid(r)
  {
    if 0 <= s.selectedIdx < |s.segments| then
      var segs := RemoveAt(s.segments, s.selectedIdx);
      KeepSingle(s.segments, s.selectedIdx);
      KeepOrdered(s.segments, {s.selectedIdx});
      assert Within(s.segments, s.durationMs) ==> Within(segs, s.durationMs) by {
        if Within(s.segments, s.durationMs) {
          forall j | 0 <= j < |segs|
            ensures 0 <= segs[j].startMs && segs[j].endMs <= s.durationMs
          {
            if j >= s.selectedIdx {
              assert segs[j] == s.segments[j + 1];
            } else {
              assert segs[j] == s.segments[..s.selectedIdx][j];
            }
          }
        }
      }
      SaveState(s).(segments := segs, selectedIdx := -1,
                    playheadMs := ValidatePlayhead(segs, s.playheadMs))
    else s
  }

  /** `validatePlayheadPosition` on the editor: only the playhead moves, and
      on a non-empty well-formed list it ends inside a segment. */
  function ValidatePlayheadPosition(s: State): (r: State)
    ensures r == s.(playheadMs := r.playheadMs)
    ensures WellFormed(s.segments) && |s.segments| > 0 ==>
              exists i :: 0 <= i < |r.segments| && Inside(r.segments[i], r.playheadMs)
    ensures |s.segments| == 0 ==> r == s
  {
    s.(playheadMs := ValidatePlayhead(s.segments, s.playheadMs))
  }
}

=== FILE: export.dfy ===
/** The export compiler (`copyTrimmedVideo`, `copyTrimmedAudio`,
    `copyTrimmedGif`, `copyTrimmedVideoMuted`, `generateClippedName`): from
    the editor state it derives the seek origin, one trim window per segment,
    an ffmpeg filter graph, the encoder settings and the output file name.
    The graph is a list of filter chains joined by pad labels rather than a
    string. Launching ffmpeg, the export directory and the clipboard are
    outside the model; the export lock is kept as a two-state machine
    around them. */
module Export {
  import opened Common
  import opened Paths
  import opened Segments
  import opened Editor

  // ------------------------------------------------------------ the graph

  /** A pad of the filter graph: one of the input file's streams, or a link
      label (`[filtered]`, `[cv]`, numbered ones such as `[v3]`). */
  datatype Pad = VideoIn | AudioIn(track: int) | Link(name: string) | Numbered(name: string, index: nat)

  predicate IsLink(p: Pad) {
    p.Link? || p.Numbered?
  }

  /** A trim window relative to the seek origin, in milliseconds. */
  datatype Window = Window(startMs: int, lengthMs: int)

  /** The filters the exporter uses, with the parameters it sets. */
  datatype Filter =
    | Copy
    | Split(outputs: nat)
    | CropPixels(w: int, h: int, x: int, y: int)
    | BoxBlur(radius: nat)
    /** `scale=iw/<divisor>:-1`. */
    | Shrink(divisor: nat)
    /** `scale=<w>:<h>:flags=neighbor`. */
    | ScaleNearest(w: int, h: int)
    | Overlay(x: int, y: int)
    /** `drawbox=...:color=black:t=fill`. */
    | FillBlack(x: int, y: int, w: int, h: int)
    /** `trim` + `setpts=PTS-STARTPTS`. */
    | Trim(window: Window)
    /** `atrim` + `asetpts=PTS-STARTPTS`. */
    | ATrim(window: Window)
    | Concat(n: nat, video: bool, audio: bool)
    /** The export crop, snapped by ffmpeg to even pixel sizes. */
    | CropFrame(rect: Rect)
    | SetSar
    | Fps(rate: nat)
    /** `scale=<width>:-1:flags=lanczos`. */
    | ScaleLanczos(width: nat)
    | PaletteGen
    | PaletteUse

  /** `[in...]filter,filter,...[out...]`. */
  datatype Chain = Chain(inputs: seq<Pad>, filters: seq<Filter>, outputs: seq<Pad>)

  /** The pads the chains consume, in graph order. */
  function Inputs(g: seq<Chain>): seq<Pad> {
    if |g| == 0 then [] else g[0].inputs + Inputs(g[1..])
  }

  /** The pads the chains produce, in graph order. */
  function Outputs(g: seq<Chain>): seq<Pad> {
    if |g| == 0 then [] else g[0].outputs + Outputs(g[1..])
  }

  /** The windows of the video (`audio` false) or audio trims of a filter
      list, in order. */
  function TrimsOf(fs: seq<Filter>, audio: bool): seq<Window> {
    if |fs| == 0 then []
    else
      (if !audio && fs[0].Trim? then [fs[0].window]
       else if audio && fs[0].ATrim? then [fs[0].window]
       else [])
      + TrimsOf(fs[1..], audio)
  }

  /** The trim windows of a whole graph, in graph order. */
  function Trims(g: seq<Chain>, audio: bool): seq<Window> {
    if |g| == 0 then [] else TrimsOf(g[0].filters, audio) + Trims(g[1..], audio)
  }

  lemma GraphAppend(a: seq<Chain>, b: seq<Chain>)
    ensures Inputs(a + b) == Inputs(a) + Inputs(b)
    ensures Outputs(a + b) == Outputs(a) + Outputs(b)
    ensures Trims(a + b, false) == Trims(a, false) + Trims(b, false)
    ensures Trims(a + b, true) == Trims(a, true) + Trims(b, true)
  {
    InputsAppend(a, b);
    OutputsAppend(a, b);
    TrimsAppend(a, b, false);
    TrimsAppend(a, b, true);
  }

  lemma {:induction false} InputsAppend(a: seq<Chain>, b: seq<Chain>)
    ensures Inputs(a + b) == Inputs(a) + Inputs(b)
  {
    if |a| == 0 {
      assert a + b == b;
    } else {
      assert (a + b)[0] == a[0] && (a + b)[1..] == a[1..] + b;
      InputsAppend(a[1..], b);
    }
  }

  lemma {:induction false} OutputsAppend(a: seq<Chain>, b: seq<Chain>)
    ensures Outputs(a + b) == Outputs(a) + Outputs(b)
  {
    if |a| == 0 {
      assert a + b == b;
    } else {
      assert (a + b)[0] == a[0] && (a + b)[1..] == a[1..] + b;
      OutputsAppend(a[1..], b);
    }
  }

  lemma {:induction false} TrimsAppend(a: seq<Chain>, b: seq<Chain>, audio: bool)
    ensures Trims(a + b, audio) == Trims(a, audio) + Trims(b, audio)
  {
    if |a| == 0 {
      assert a + b == b;
    } else {
      assert (a + b)[0] == a[0] && (a + b)[1..] == a[1..] + b;
      TrimsAppend(a[1..], b, audio);
    }
  }

  /** A chain list read one chain at a time. */
  lemma GraphSingle(c: Chain)
    ensures Inputs([c]) == c.inputs && Outputs([c]) == c.outputs
    ensures Trims([c], false) == TrimsOf(c.filters, false) && Trims([c], true) == TrimsOf(c.filters, true)
  {
    assert [c][1..] == [];
  }

  function Count(ps: seq<Pad>, p: Pad): nat {
    if |ps| == 0 then 0 else (if ps[0] == p then 1 else 0) + Count(ps[1..], p)
  }

  lemma {:induction false} CountAppend(a: seq<Pad>, b: seq<Pad>, p: Pad)
    ensures Count(a + b, p) == Count(a, p) + Count(b, p)
  {
    if |a| == 0 {
      assert a + b == b;
    } else {
      assert (a + b)[1..] == a[1..] + b;
      CountAppend(a[1..], b, p);
    }
  }

  /** ffmpeg links each output label to at most one input: a graph is only
      accepted if no link label is consumed twice. */
  ghost predicate SingleUse(g: seq<Chain>) {
    forall p :: IsLink(p) ==> Count(Inputs(g), p) <= 1
  }

  // ---------------------------------------------------- seek and windows

  /** The pre-roll before the first segment that the input seek leaves. */
  const PreRollMs: int := 500

  /** The input seek of the video, audio and muted exports:
      `max(0, firstStart - 0.5 s)`. */
  function SeekMs(segs: seq<Segment>): (r: int)
    requires |segs| > 0
    ensures r >= 0
    ensures segs[0].startMs >= 0 ==> r <= segs[0].startMs && segs[0].startMs - r <= PreRollMs
    ensures segs[0].startMs >= PreRollMs ==> segs[0].startMs - r == PreRollMs
    ensures segs[0].startMs < PreRollMs ==> r == 0
  {
    Max(0, segs[0].startMs - PreRollMs)
  }

  /** One window per segment, measured from the seek origin and clamped at
      zero, lasting the segment's length. */
  function Windows(segs: seq<Segment>, seekMs: int): (r: seq<Window>)
    ensures |r| == |segs|
    ensures forall i :: 0 <= i < |r| ==> r[i].startMs >= 0 && r[i].lengthMs == segs[i].Length()
  {
    seq(|segs|, i requires 0 <= i < |segs| => Window(Max(0, segs[i].startMs - seekMs), segs[i].Length()))
  }

  /** The sum of the window lengths. */
  function SpanMs(ws: seq<Window>): int {
    if |ws| == 0 then 0 else ws[0].lengthMs + SpanMs(ws[1..])
  }

  /** On a valid list, adding the seek origin back to each window gives
      exactly its segment: nothing is clipped and nothing shifts. */
  lemma WindowsLocateSegments(segs: seq<Segment>, durationMs: int, i: int)
    requires Ordered(segs) && Within(segs, durationMs)
    requires 0 <= i < |segs|
    ensures var seek := SeekMs(segs);
            var w := Windows(segs, seek)[i];
            && seek + w.startMs == segs[i].startMs
            && seek + w.startMs + w.lengthMs == segs[i].endMs
  {
    if i > 0 {
      OrderedPairwise(segs, 0, i);
    }
  }

  /** The windows together last as long as the edited timeline. */
  lemma {:induction false} WindowsSpan(segs: seq<Segment>, seekMs: int)
    ensures SpanMs(Windows(segs, seekMs)) == TotalMs(segs)
    decreases |segs|
  {
    if |segs| > 0 {
      var ws := Windows(segs, seekMs);
      var rest := Windows(segs[1..], seekMs);
      assert ws[1..] == rest by {
        forall k | 0 <= k < |rest|
          ensures ws[1..][k] == rest[k]
        {
          assert segs[1..][k] == segs[k + 1];
        }
      }
      WindowsSpan(segs[1..], seekMs);
    }
  }

  // --------------------------------------------------- per-segment chains

  /** Where a segment's video trim reads from: the input stream (muted),
      the one `[filtered]` label (video, as written), or its own output of a
      `split` (video, corrected). */
  datatype VideoSource = NoVideo | FromInput | FromShared | FromFan

  function SourcePad(src: VideoSource, i: nat): Pad {
    match src
    case FromShared => Link("filtered")
    case FromFan => Numbered("f", i)
    case _ => VideoIn
  }

  /** The trim chains of windows `ws`, numbered from `i`: per segment a
      video trim into `[v<i>]` and/or an audio trim of `track` into
      `[a<i>]`. */
  function SegmentChains(ws: seq<Window>, i: nat, video: VideoSource, audio: Option<int>): seq<Chain>
    decreases |ws|
  {
    if |ws| == 0 then []
    else SegmentHead(ws[0], i, video, audio) + SegmentChains(ws[1..], i + 1, video, audio)
  }

  function SegmentHead(w: Window, i: nat, video: VideoSource, audio: Option<int>): seq<Chain> {
    VideoTrimChain(w, i, video) + AudioTrimChain(w, i, audio)
  }

  function VideoTrimChain(w: Window, i: nat, video: VideoSource): seq<Chain> {
    if video == NoVideo then [] else [Chain([SourcePad(video, i)], [Trim(w)], [Numbered("v", i)])]
  }

  function AudioTrimChain(w: Window, i: nat, audio: Option<int>): seq<Chain> {
    if audio.None? then [] else [Chain([AudioIn(audio.value)], [ATrim(w)], [Numbered("a", i)])]
  }

  /** The concat filter's inputs for segments `i..n-1`, in index order:
      `[v<k>]` and/or `[a<k>]` per segment. */
  function ConcatPads(i: nat, n: nat, video: bool, audio: bool): seq<Pad>
    decreases n - i
  {
    if i >= n then []
    else (if video then [Numbered("v", i)] else []) + (if audio then [Numbered("a", i)] else [])
         + ConcatPads(i + 1, n, video, audio)
  }

  /** The outputs of a split into `[f<i>]..[f<n-1>]`. */
  function FanPads(i: nat, n: nat): seq<Pad>
    decreases n - i
  {
    if i >= n then [] else [Numbered("f", i)] + FanPads(i + 1, n)
  }

  lemma CountOne(x: Pad, p: Pad)
    ensures Count([x], p) == if x == p then 1 else 0
  {
    assert [x][1..] == [];
  }

  /** In a list without repeats every pad occurs at most once. */
  lemma {:induction false} CountDistinct(ps: seq<Pad>, p: Pad)
    requires forall i, j :: 0 <= i < j < |ps| ==> ps[i] != ps[j]
    ensures Count(ps, p) <= 1
    ensures p !in ps ==> Count(ps, p) == 0
  {
    if |ps| > 0 {
      CountDistinct(ps[1..], p);
      if ps[0] == p {
        assert p !in ps[1..] by {
          forall k | 0 <= k < |ps| - 1
            ensures ps[1..][k] != p
          {
            assert ps[1..][k] == ps[k + 1];
          }
        }
      }
    }
  }

  /** A filter list without trims contributes no windows. */
  lemma {:induction false} NoTrims(fs: seq<Filter>, audio: bool)
    requires forall k :: 0 <= k < |fs| ==> !fs[k].Trim? && !fs[k].ATrim?
    ensures TrimsOf(fs, audio) == []
  {
    if |fs| > 0 {
      NoTrims(fs[1..], audio);
    }
  }

  lemma GraphPair(a: Chain, b: Chain)
    ensures Inputs([a, b]) == a.inputs + b.inputs && Outputs([a, b]) == a.outputs + b.outputs
    ensures forall audio :: Trims([a, b], audio) == TrimsOf(a.filters, audio) + TrimsOf(b.filters, audio)
  {
    assert [a, b] == [a] + [b];
    GraphAppend([a], [b]);
    GraphSingle(a);
    GraphSingle(b);
  }

  lemma GraphTriple(a: Chain, b: Chain, c: Chain)
    ensures Inputs([a, b, c]) == a.inputs + b.inputs + c.inputs
    ensures Outputs([a, b, c]) == a.outputs + b.outputs + c.outputs
    ensures forall audio :: Trims([a, b, c], audio) == TrimsOf(a.filters, audio) + TrimsOf(b.filters, audio) + TrimsOf(c.filters, audio)
  {
    assert [a, b, c] == [a, b] + [c];
    GraphAppend([a, b], [c]);
    GraphPair(a, b);
    GraphSingle(c);
  }

  /** What one segment's chains consume. */
  lemma HeadInputs(w: Window, i: nat, video: VideoSource, audio: Option<int>)
    ensures Inputs(SegmentHead(w, i, video, audio))
            == (if video == NoVideo then [] else [SourcePad(video, i)])
             + (if audio.None? then [] else [AudioIn(audio.value)])
  {
    var v := VideoTrimChain(w, i, video);
    var a := AudioTrimChain(w, i, audio);
    InputsAppend(v, a);
    if video != NoVideo {
      assert v[1..] == [];
    }
    if audio.Some? {
      assert a[1..] == [];
    }
  }

  /** What one segment's chains produce. */
  lemma HeadOutputs(w: Window, i: nat, video: VideoSource, audio: Option<int>)
    ensures Outputs(SegmentHead(w, i, video, audio))
            == (if video == NoVideo then [] else [Numbered("v", i)])
             + (if audio.None? then [] else [Numbered("a", i)])
  {
    var v := VideoTrimChain(w, i, video);
    var a := AudioTrimChain(w, i, audio);
    OutputsAppend(v, a);
    if video != NoVideo {
      assert v[1..] == [];
    }
    if audio.Some? {
      assert a[1..] == [];
    }
  }

  /** One segment's trims of one stream. */
  lemma HeadTrims(w: Window, i: nat, video: VideoSource, audio: Option<int>, stream: bool)
    ensures Trims(SegmentHead(w, i, video, audio), stream) == if Trimmed(stream, video, audio) then [w] else []
  {
    var v := VideoTrimChain(w, i, video);
    var a := AudioTrimChain(w, i, audio);
    TrimsAppend(v, a, stream);
    assert [Trim(w)][1..] == [] && [ATrim(w)][1..] == [];
    assert TrimsOf([Trim(w)], stream) == if stream then [] else [w];
    assert TrimsOf([ATrim(w)], stream) == if stream then [w] else [];
    if video != NoVideo {
      assert v[1..] == [];
      assert Trims(v, stream) == TrimsOf([Trim(w)], stream);
    }
    if audio.Some? {
      assert a[1..] == [];
      assert Trims(a, stream) == TrimsOf([ATrim(w)], stream);
    }
  }

  /** The segment chains hold exactly the windows, in order, once per
      stream they trim. */
  lemma SegmentTrims(ws: seq<Window>, i: nat, video: VideoSource, audio: Option<int>)
    ensures Trims(SegmentChains(ws, i, video, audio), false) == (if video == NoVideo then [] else ws)
    ensures Trims(SegmentChains(ws, i, video, audio), true) == (if audio.None? then [] else ws)
  {
    SegmentStreamTrims(ws, i, video, audio, false);
    SegmentStreamTrims(ws, i, video, audio, true);
  }

  /** Whether the segment chains trim the given stream. */
  predicate Trimmed(stream: bool, video: VideoSource, audio: Option<int>) {
    if stream then audio.Some? else video != NoVideo
  }

  /** The windows one stream's trims hold: all of them when the stream is
      trimmed, none otherwise. */
  lemma {:induction false} SegmentStreamTrims(ws: seq<Window>, i: nat, video: VideoSource, audio: Option<int>, stream: bool)
    ensures Trims(SegmentChains(ws, i, video, audio), stream)
            == if Trimmed(stream, video, audio) then ws else []
    decreases |ws|
  {
    if |ws| > 0 {
      var head := SegmentHead(ws[0], i, video, audio);
      var tail := SegmentChains(ws[1..], i + 1, video, audio);
      SegmentChainsCons(ws, i, video, audio);
      TrimsAppend(head, tail, stream);
      HeadTrims(ws[0], i, video, audio, stream);
      SegmentStreamTrims(ws[1..], i + 1, video, audio, stream);
      ConsOrNothing(ws, Trimmed(stream, video, audio), Trims(head, stream), Trims(tail, stream));
    }
  }

  /** Gluing the head's share to the rest's share gives all or nothing. */
  lemma ConsOrNothing(ws: seq<Window>, on: bool, h: seq<Window>, t: seq<Window>)
    requires |ws| > 0
    requires h == (if on then [ws[0]] else [])
    requires t == (if on then ws[1..] else [])
    ensures h + t == if on then ws else []
  {
    if on {
      assert [ws[0]] + ws[1..] == ws;
    }
  }

  lemma SegmentChainsCons(ws: seq<Window>, i: nat, video: VideoSource, audio: Option<int>)
    requires |ws| > 0
    ensures SegmentChains(ws, i, video, audio)
            == SegmentHead(ws[0], i, video, audio) + SegmentChains(ws[1..], i + 1, video, audio)
  {
  }


  /** The trims produce exactly the pads the concat filter consumes, in
      the same order. */
  lemma {:induction false} SegmentOutputs(ws: seq<Window>, i: nat, video: VideoSource, audio: Option<int>)
    ensures Outputs(SegmentChains(ws, i, video, audio)) == ConcatPads(i, i + |ws|, video != NoVideo, audio.Some?)
    decreases |ws|
  {
    if |ws| > 0 {
      var head := SegmentHead(ws[0], i, video, audio);
      var tail := SegmentChains(ws[1..], i + 1, video, audio);
      SegmentChainsCons(ws, i, video, audio);
      HeadOutputs(ws[0], i, video, audio);
      OutputsAppend(head, tail);
      SegmentOutputs(ws[1..], i + 1, video, audio);
      assert i + 1 + |ws[1..]| == i + |ws|;
    }
  }

  /** How often the segment chains consume a link label: `[filtered]` once
      per segment when shared, each `[f<k>]` once when fanned out, nothing
      else. */
  lemma SegmentLinkUse(ws: seq<Window>, i: nat, video: VideoSource, audio: Option<int>, p: Pad)
    requires IsLink(p)
    ensures Count(Inputs(SegmentChains(ws, i, video, audio)), p)
            == (if video == FromShared && p == Link("filtered") then |ws| else 0)
             + (if video == FromFan && p.Numbered? && p.name == "f" && i <= p.index < i + |ws| then 1 else 0)
  {
    match video
    case FromShared => SharedLinkUse(ws, i, audio, p);
    case FromFan => FanLinkUse(ws, i, audio, p);
    case _ => PlainLinkUse(ws, i, video, audio, p);
  }

  /** Shared trims read `[filtered]` once per segment. */
  lemma {:induction false} SharedLinkUse(ws: seq<Window>, i: nat, audio: Option<int>, p: Pad)
    requires IsLink(p)
    ensures Count(Inputs(SegmentChains(ws, i, FromShared, audio)), p) == if p == Link("filtered") then |ws| else 0
    decreases |ws|
  {
    if |ws| > 0 {
      var head := SegmentHead(ws[0], i, FromShared, audio);
      var tail := SegmentChains(ws[1..], i + 1, FromShared, audio);
      SegmentChainsCons(ws, i, FromShared, audio);
      InputsAppend(head, tail);
      CountAppend(Inputs(head), Inputs(tail), p);
      HeadLinkUse(ws[0], i, FromShared, audio, p);
      SharedLinkUse(ws[1..], i + 1, audio, p);
    }
  }

  /** Fanned-out trims read each `[f<k>]` of their range once. */
  lemma {:induction false} FanLinkUse(ws: seq<Window>, i: nat, audio: Option<int>, p: Pad)
    requires IsLink(p)
    ensures Count(Inputs(SegmentChains(ws, i, FromFan, audio)), p)
            == if p.Numbered? && p.name == "f" && i <= p.index < i + |ws| then 1 else 0
    decreases |ws|
  {
    if |ws| > 0 {
      var head := SegmentHead(ws[0], i, FromFan, audio);
      var tail := SegmentChains(ws[1..], i + 1, FromFan, audio);
      SegmentChainsCons(ws, i, FromFan, audio);
      InputsAppend(head, tail);
      CountAppend(Inputs(head), Inputs(tail), p);
      HeadLinkUse(ws[0], i, FromFan, audio, p);
      FanLinkUse(ws[1..], i + 1, audio, p);
      assert p == Numbered("f", i) <==> p.Numbered? && p.name == "f" && p.index == i;
    }
  }

  /** Trims reading the input directly, or no video at all, consume no
      link label. */
  lemma {:induction false} PlainLinkUse(ws: seq<Window>, i: nat, video: VideoSource, audio: Option<int>, p: Pad)
    requires IsLink(p) && (video == NoVideo || video == FromInput)
    ensures Count(Inputs(SegmentChains(ws, i, video, audio)), p) == 0
    decreases |ws|
  {
    if |ws| > 0 {
      var head := SegmentHead(ws[0], i, video, audio);
      var tail := SegmentChains(ws[1..], i + 1, video, audio);
      SegmentChainsCons(ws, i, video, audio);
      InputsAppend(head, tail);
      CountAppend(Inputs(head), Inputs(tail), p);
      HeadLinkUse(ws[0], i, video, audio, p);
      PlainLinkUse(ws[1..], i + 1, video, audio, p);
    }
  }

  /** How often one segment's chains consume a link label. */
  lemma HeadLinkUse(w: Window, i: nat, video: VideoSource, audio: Option<int>, p: Pad)
    requires IsLink(p)
    ensures Count(Inputs(SegmentHead(w, i, video, audio)), p)
            == (if video == FromShared && p == Link("filtered") then 1 else 0)
             + (if video == FromFan && p == Numbered("f", i) then 1 else 0)
  {
    HeadInputs(w, i, video, audio);
    var v: seq<Pad> := if video == NoVideo then [] else [SourcePad(video, i)];
    var a: seq<Pad> := if audio.None? then [] else [AudioIn(audio.value)];
    CountAppend(v, a, p);
    if video != NoVideo {
      CountOne(SourcePad(video, i), p);
    }
    if audio.Some? {
      CountOne(AudioIn(audio.value), p);
    }
  }


  /** The concat inputs name each numbered pad of a segment in range once. */
  lemma {:induction false} ConcatPadsUse(i: nat, n: nat, video: bool, audio: bool, p: Pad)
    ensures Count(ConcatPads(i, n, video, audio), p)
            == (if p.Numbered? && i <= p.index < n && ((video && p.name == "v") || (audio && p.name == "a")) then 1 else 0)
    decreases n - i
  {
    if i < n {
      var v: seq<Pad> := if video then [Numbered("v", i)] else [];
      var a: seq<Pad> := if audio then [Numbered("a", i)] else [];
      CountAppend(v + a, ConcatPads(i + 1, n, video, audio), p);
      CountAppend(v, a, p);
      if video {
        CountOne(Numbered("v", i), p);
      }
      if audio {
        CountOne(Numbered("a", i), p);
      }
      ConcatPadsUse(i + 1, n, video, audio, p);
    }
  }

  // ------------------------------------------------------ privacy region

  /** A region in pixels: offset and size. */
  datatype Pixels = Pixels(x: int, y: int, w: int, h: int)

  /** `e` is an even count in the two-pixel window that `qRound(v) & ~1`
      lands in: the window reaches half a pixel above `v` and one and a half
      below it, with the open side depending on the sign of `v`. The window
      holds exactly one even number (`SnapUnique`). */
  predicate EvenSnap(v: real, e: int) {
    && e % 2 == 0
    && (v >= 0.0 ==> v - 1.5 < e as real <= v + 0.5)
    && (v < 0.0 ==> v - 1.5 <= e as real < v + 0.5)
  }

  /** `qRound(v) & ~1`: the even pixel count next to `v`. */
  function EvenPixel(v: real): (r: int)
    ensures EvenSnap(v, r)
  {
    ClearLowBit(QRound(v))
  }

  /** Two even counts in the same window are equal, so `EvenSnap` pins the
      pixel value. */
  lemma SnapUnique(v: real, a: int, b: int)
    requires EvenSnap(v, a) && EvenSnap(v, b)
    ensures a == b
  {
    if a < b {
      EvenGap(a, b);
    } else if b < a {
      EvenGap(b, a);
    }
  }

  lemma EvenGap(a: int, b: int)
    requires a % 2 == 0 && b % 2 == 0 && a < b
    ensures a + 2 <= b
  {
  }

  /** The export filter's region scaled to the video size, each number
      snapped to an even pixel count. */
  function RegionPixels(rect: Rect, width: int, height: int): (r: Pixels)
    ensures EvenSnap(width as real * rect.left, r.x)
    ensures EvenSnap(height as real * rect.top, r.y)
    ensures EvenSnap(width as real * (rect.right - rect.left), r.w)
    ensures EvenSnap(height as real * (rect.bottom - rect.top), r.h)
  {
    Pixels(EvenPixel(width as real * rect.left), EvenPixel(height as real * rect.top),
           EvenPixel(width as real * (rect.right - rect.left)),
           EvenPixel(height as real * (rect.bottom - rect.top)))
  }

  /** The video size the exporter assumes: the player's reported size, or
      1920x1080 when the player reports none. */
  function VideoSize(reported: Option<(int, int)>): (r: (int, int))
    ensures reported.Some? ==> r == reported.value
    ensures reported.None? ==> r == (1920, 1080)
  {
    if reported.Some? then reported.value else (1920, 1080)
  }

  /** What the `[m]` branch does to the region: blur it (mode 0) or
      pixelate it by shrinking 30-fold and scaling back (mode 1). */
  function Obscure(mode: int, px: Pixels): seq<Filter> {
    if mode == 0 then [CropPixels(px.w, px.h, px.x, px.y), BoxBlur(20)]
    else [CropPixels(px.w, px.h, px.x, px.y), Shrink(30), ScaleNearest(px.w, px.h)]
  }

  function ObscuredTag(mode: int): string {
    if mode == 0 then "bl" else "px"
  }

  /** Split the frame, obscure the region of one copy, overlay it back. */
  function OverlayMask(mode: int, px: Pixels): seq<Chain> {
    [Chain([VideoIn], [Split(2)], [Link("b"), Link("m")]),
     Chain([Link("m")], Obscure(mode, px), [Link(ObscuredTag(mode))]),
     Chain([Link("b"), Link(ObscuredTag(mode))], [Overlay(px.x, px.y)], [Link("filtered")])]
  }

  /** The chains that turn `[0:v]` into `[filtered]`: a plain copy when the
      filter is off, else blur (mode 0), pixelate (mode 1) or a solid black
      box (any other mode) over the region. */
  function MaskChains(f: ExportFilter, px: Pixels): (r: seq<Chain>)
    ensures |r| > 0 && r[0].inputs == [VideoIn] && r[|r| - 1].outputs == [Link("filtered")]
    ensures !f.enabled ==> |r| == 1 && r[0].filters == [Copy]
    ensures f.enabled && (f.mode == 0 || f.mode == 1) ==>
              && |r| == 3 && r[0].filters == [Split(2)] && r[1].filters == Obscure(f.mode, px)
              && r[2].filters == [Overlay(px.x, px.y)]
    ensures f.enabled && f.mode != 0 && f.mode != 1 ==> |r| == 1 && r[0].filters == [FillBlack(px.x, px.y, px.w, px.h)]
  {
    if !f.enabled then [Chain([VideoIn], [Copy], [Link("filtered")])]
    else if f.mode == 0 || f.mode == 1 then OverlayMask(f.mode, px)
    else [Chain([VideoIn], [FillBlack(px.x, px.y, px.w, px.h)], [Link("filtered")])]
  }

  /** Every mask reads the input video and ends in `[filtered]`. A disabled
      filter is a pass-through copy with no split and no overlay; modes 0
      and 1 split, obscure and overlay at the region's offset. */
  lemma MaskShape(f: ExportFilter, px: Pixels)
    ensures var r := MaskChains(f, px);
            && |r| > 0 && r[0].inputs == [VideoIn]
            && |Outputs(r)| > 0 && Outputs(r)[|Outputs(r)| - 1] == Link("filtered")
    ensures !f.enabled ==>
              var r := MaskChains(f, px);
              && Inputs(r) == [VideoIn] && Outputs(r) == [Link("filtered")]
              && forall c, k :: c in r && 0 <= k < |c.filters| ==> !c.filters[k].Split? && !c.filters[k].Overlay?
    ensures f.enabled && (f.mode == 0 || f.mode == 1) ==>
              var r := MaskChains(f, px);
              && |r| == 3 && Split(2) in r[0].filters && Overlay(px.x, px.y) in r[2].filters
              && (f.mode == 0 ==> BoxBlur(20) in r[1].filters)
              && (f.mode == 1 ==> Shrink(30) in r[1].filters && ScaleNearest(px.w, px.h) in r[1].filters)
    ensures f.enabled && f.mode != 0 && f.mode != 1 ==>
              MaskChains(f, px) == [Chain([VideoIn], [FillBlack(px.x, px.y, px.w, px.h)], [Link("filtered")])]
  {
    var r := MaskChains(f, px);
    if f.enabled && (f.mode == 0 || f.mode == 1) {
      var m := OverlayMask(f.mode, px);
      GraphTriple(m[0], m[1], m[2]);
      assert m == [m[0], m[1], m[2]];
    } else {
      GraphSingle(r[0]);
      assert r == [r[0]];
    }
  }

  /** The overlay mask consumes `[m]`, `[b]` and the obscured copy once each. */
  lemma OverlayMaskLinks(mode: int, px: Pixels, p: Pad)
    requires IsLink(p)
    ensures Count(Inputs(OverlayMask(mode, px)), p) <= 1
    ensures p.Numbered? || p == Link("filtered") || p == Link("cv") ==> Count(Inputs(OverlayMask(mode, px)), p) == 0
    ensures Trims(OverlayMask(mode, px), false) == [] && Trims(OverlayMask(mode, px), true) == []
  {
    OverlayMaskParts(mode, px);
    var tag := ObscuredTag(mode);
    var ins := [VideoIn, Link("m"), Link("b"), Link(tag)];
    MaskPadsDistinct(tag);
    CountDistinct(ins, p);
    if p.Numbered? || p == Link("filtered") || p == Link("cv") {
      NotMaskPad(tag, p);
    }
  }

  /** The labels the rest of the graph uses are none of the mask's inputs. */
  lemma NotMaskPad(tag: string, p: Pad)
    requires tag == "bl" || tag == "px"
    requires p.Numbered? || p == Link("filtered") || p == Link("cv")
    ensures p !in [VideoIn, Link("m"), Link("b"), Link(tag)]
  {
    assert |"filtered"| != |"m"| && |"filtered"| != |tag|;
    assert |"cv"| != |"m"| && "cv"[0] != tag[0];
  }

  lemma OverlayMaskParts(mode: int, px: Pixels)
    ensures Inputs(OverlayMask(mode, px)) == [VideoIn, Link("m"), Link("b"), Link(ObscuredTag(mode))]
    ensures Trims(OverlayMask(mode, px), false) == [] && Trims(OverlayMask(mode, px), true) == []
  {
    var m := OverlayMask(mode, px);
    GraphTriple(m[0], m[1], m[2]);
    assert m == [m[0], m[1], m[2]];
    MaskNoTrims(m[0].filters);
    MaskNoTrims(m[1].filters);
    MaskNoTrims(m[2].filters);
  }

  /** The overlay mask's input pads differ pairwise. */
  lemma MaskPadsDistinct(tag: string)
    requires tag == "bl" || tag == "px"
    ensures var ins := [VideoIn, Link("m"), Link("b"), Link(tag)];
            forall i, j :: 0 <= i < j < |ins| ==> ins[i] != ins[j]
  {
    assert "m"[0] != "b"[0] && |"m"| != |tag| && |"b"| != |tag|;
  }

  /** The mask consumes each of its own labels once and none of the labels
      the rest of the graph uses; it holds no trims. */
  lemma MaskLinks(f: ExportFilter, px: Pixels, p: Pad)
    requires IsLink(p)
    ensures Count(Inputs(MaskChains(f, px)), p) <= 1
    ensures p.Numbered? || p == Link("filtered") || p == Link("cv") ==> Count(Inputs(MaskChains(f, px)), p) == 0
    ensures Trims(MaskChains(f, px), false) == [] && Trims(MaskChains(f, px), true) == []
  {
    var r := MaskChains(f, px);
    if f.enabled && (f.mode == 0 || f.mode == 1) {
      OverlayMaskLinks(f.mode, px, p);
    } else {
      GraphSingle(r[0]);
      assert r == [r[0]];
      MaskNoTrims(r[0].filters);
      CountOne(VideoIn, p);
    }
  }

  lemma MaskNoTrims(fs: seq<Filter>)
    requires forall k :: 0 <= k < |fs| ==> !fs[k].Trim? && !fs[k].ATrim?
    ensures TrimsOf(fs, false) == [] && TrimsOf(fs, true) == []
  {
    NoTrims(fs, false);
    NoTrims(fs, true);
  }

  // ------------------------------------------------------------- graphs

  /** The two chains after the segment trims: the concat over `n` segments
      and, when there is video, the export crop. */
  function VideoTail(crop: Rect, n: nat): seq<Chain> {
    [Chain(ConcatPads(0, n, true, true), [Concat(n, true, true)], [Link("cv"), Link("outa")]),
     Chain([Link("cv")], [CropFrame(crop), SetSar], [Link("outv")])]
  }

  /** The graph of `copyTrimmedVideo` as written: every segment's video trim
      reads the one `[filtered]` label. */
  function VideoGraphAsWritten(f: ExportFilter, px: Pixels, crop: Rect, ws: seq<Window>, track: int): (r: seq<Chain>)
    ensures Trims(r, false) == ws && Trims(r, true) == ws
    ensures Count(Inputs(r), Link("filtered")) == |ws|
    ensures |ws| >= 2 ==> !SingleUse(r)
  {
    var g := MaskChains(f, px) + SegmentChains(ws, 0, FromShared, Some(track)) + VideoTail(crop, |ws|);
    VideoGraphAsWrittenTrims(f, px, crop, ws, track, g);
    VideoGraphReusesFiltered(f, px, crop, ws, track, g);
    g
  }

  /** The tail consumes the concat pads and `[cv]`, and trims nothing. */
  lemma VideoTailParts(crop: Rect, n: nat)
    ensures Inputs(VideoTail(crop, n)) == ConcatPads(0, n, true, true) + [Link("cv")]
    ensures Trims(VideoTail(crop, n), false) == [] && Trims(VideoTail(crop, n), true) == []
  {
    var t := VideoTail(crop, n);
    GraphPair(t[0], t[1]);
    NoTrims(t[0].filters, false);
    NoTrims(t[0].filters, true);
    NoTrims(t[1].filters, false);
    NoTrims(t[1].filters, true);
  }

  /** The tail consumes `[cv]` and each concat pad once. */
  lemma VideoTailUse(crop: Rect, n: nat, p: Pad)
    requires IsLink(p)
    ensures Count(Inputs(VideoTail(crop, n)), p)
            == (if p == Link("cv") then 1 else 0)
             + (if p.Numbered? && p.index < n && (p.name == "v" || p.name == "a") then 1 else 0)
  {
    VideoTailParts(crop, n);
    CountAppend(ConcatPads(0, n, true, true), [Link("cv")], p);
    CountOne(Link("cv"), p);
    ConcatPadsUse(0, n, true, true, p);
  }

  /** Counting a label over three consecutive parts of a graph. */
  lemma CountInputs3(a: seq<Chain>, b: seq<Chain>, c: seq<Chain>, p: Pad)
    ensures Count(Inputs(a + b + c), p) == Count(Inputs(a), p) + Count(Inputs(b), p) + Count(Inputs(c), p)
  {
    InputsAppend(a + b, c);
    InputsAppend(a, b);
    CountAppend(Inputs(a) + Inputs(b), Inputs(c), p);
    CountAppend(Inputs(a), Inputs(b), p);
  }

  /** With two or more segments the written video graph consumes
      `[filtered]` once per segment, so ffmpeg rejects it. */
  lemma VideoGraphReusesFiltered(f: ExportFilter, px: Pixels, crop: Rect, ws: seq<Window>, track: int, g: seq<Chain>)
    requires g == MaskChains(f, px) + SegmentChains(ws, 0, FromShared, Some(track)) + VideoTail(crop, |ws|)
    ensures Count(Inputs(g), Link("filtered")) == |ws|
    ensures |ws| >= 2 ==> !SingleUse(g)
  {
    var p := Link("filtered");
    CountInputs3(MaskChains(f, px), SegmentChains(ws, 0, FromShared, Some(track)), VideoTail(crop, |ws|), p);
    MaskLinks(f, px, p);
    SharedLinkUse(ws, 0, Some(track), p);
    VideoTailUse(crop, |ws|, p);
    assert |"filtered"| != |"cv"|;
  }

  /** The written video graph trims each window once per stream, in order,
      just like the corrected one: the two differ only in where the video
      trims read from. */
  lemma VideoGraphAsWrittenTrims(f: ExportFilter, px: Pixels, crop: Rect, ws: seq<Window>, track: int, g: seq<Chain>)
    requires g == MaskChains(f, px) + SegmentChains(ws, 0, FromShared, Some(track)) + VideoTail(crop, |ws|)
    ensures Trims(g, false) == ws && Trims(g, true) == ws
  {
    var mask := MaskChains(f, px);
    var segs := SegmentChains(ws, 0, FromShared, Some(track));
    var tail := VideoTail(crop, |ws|);
    MaskLinks(f, px, Link("filtered"));
    SegmentTrims(ws, 0, FromShared, Some(track));
    GraphAppend(mask, segs);
    assert Trims(mask + segs, false) == ws && Trims(mask + segs, true) == ws;
    VideoTailParts(crop, |ws|);
    GraphAppend(mask + segs, tail);
    assert Trims(g, false) == ws + [];
    assert Trims(g, true) == ws + [];
  }

  /** A two-segment timeline is enough to break the written video graph. */
  lemma TwoSegmentVideoGraphRejected()
    ensures !SingleUse(VideoGraphAsWritten(DefaultFilter, Pixels(0, 0, 0, 0), FullFrame,
                                           [Window(0, 1000), Window(2000, 500)], 0))
  {
  }

  /** The split that gives each segment its own copy of `[filtered]`. */
  function FanOut(n: nat): Chain {
    Chain([Link("filtered")], [Split(n)], FanPads(0, n))
  }

  /** The video graph with `[filtered]` split once per segment: each
      segment's video trim reads its own `[f<i>]`. */
  function VideoGraph(f: ExportFilter, px: Pixels, crop: Rect, ws: seq<Window>, track: int): (r: seq<Chain>)
    ensures |MaskChains(f, px)| <= |r| && r[..|MaskChains(f, px)|] == MaskChains(f, px)
  {
    var mask := MaskChains(f, px);
    var rest := [FanOut(|ws|)] + SegmentChains(ws, 0, FromFan, Some(track)) + VideoTail(crop, |ws|);
    assert mask + [FanOut(|ws|)] + SegmentChains(ws, 0, FromFan, Some(track)) + VideoTail(crop, |ws|) == mask + rest;
    assert (mask + rest)[..|mask|] == mask;
    mask + [FanOut(|ws|)] + SegmentChains(ws, 0, FromFan, Some(track)) + VideoTail(crop, |ws|)
  }

  /** The graph of `copyTrimmedAudio`: the audio trims and an audio-only
      concat. */
  function AudioGraph(ws: seq<Window>, track: int): (r: seq<Chain>)
    ensures Trims(r, false) == [] && Trims(r, true) == ws
    ensures SingleUse(r)
  {
    var g := SegmentChains(ws, 0, NoVideo, Some(track)) + [AudioConcat(|ws|)];
    AudioGraphTrims(ws, track, g);
    AudioGraphSingleUse(ws, track, g);
    g
  }

  /** The audio-only concat of `n` trimmed streams into `[outa]`. */
  function AudioConcat(n: nat): Chain {
    Chain(ConcatPads(0, n, false, true), [Concat(n, false, true)], [Link("outa")])
  }

  /** The two chains after the muted export's trims: a video-only concat
      and the export crop. */
  function MutedTail(crop: Rect, n: nat): seq<Chain> {
    [Chain(ConcatPads(0, n, true, false), [Concat(n, true, false)], [Link("cv")]),
     Chain([Link("cv")], [CropFrame(crop), SetSar], [Link("outv")])]
  }

  /** The graph of `copyTrimmedVideoMuted`: video trims straight from the
      input, then the concat and the export crop. No privacy region. */
  function MutedGraph(crop: Rect, ws: seq<Window>): (r: seq<Chain>)
    ensures Trims(r, false) == ws && Trims(r, true) == []
    ensures SingleUse(r)
  {
    var g := SegmentChains(ws, 0, FromInput, None) + MutedTail(crop, |ws|);
    MutedGraphTrims(crop, ws, g);
    MutedGraphSingleUse(crop, ws, g);
    g
  }

  /** The graph of `copyTrimmedGif`: crop, 12 fps, 480 px wide, and a
      palette generated from the clip itself. */
  function GifGraph(crop: Rect): (r: seq<Chain>)
    ensures Inputs(r) == [VideoIn, Link("s0"), Link("s1"), Link("p")]
    ensures SingleUse(r)
    ensures Trims(r, false) == [] && Trims(r, true) == []
  {
    var scale := Chain([VideoIn], [CropFrame(crop), Fps(12), ScaleLanczos(480), Split(2)], [Link("s0"), Link("s1")]);
    var gen := Chain([Link("s0")], [PaletteGen], [Link("p")]);
    var use := Chain([Link("s1"), Link("p")], [PaletteUse], []);
    GifGraphShape(scale, gen, use);
    [scale, gen, use]
  }

  /** The video graph trims each segment's window once for video and once
      for audio, in order. */
  lemma VideoGraphTrims(f: ExportFilter, px: Pixels, crop: Rect, ws: seq<Window>, track: int)
    ensures Trims(VideoGraph(f, px, crop, ws, track), false) == ws
    ensures Trims(VideoGraph(f, px, crop, ws, track), true) == ws
  {
    var g := VideoGraph(f, px, crop, ws, track);
    var mask := MaskChains(f, px);
    var fan := [FanOut(|ws|)];
    var segs := SegmentChains(ws, 0, FromFan, Some(track));
    var tail := VideoTail(crop, |ws|);
    assert g == (mask + fan) + segs + tail;
    GraphAppend(mask + fan + segs, tail);
    GraphAppend(mask + fan, segs);
    GraphAppend(mask, fan);
    GraphSingle(FanOut(|ws|));
    MaskNoTrims(FanOut(|ws|).filters);
    MaskLinks(f, px, Link("filtered"));
    VideoTailParts(crop, |ws|);
    SegmentTrims(ws, 0, FromFan, Some(track));
    assert Trims(mask + fan, false) == [] && Trims(mask + fan, true) == [];
    assert Trims(g, false) == [] + ws + [];
    assert Trims(g, true) == [] + ws + [];
  }

  /** No label of the corrected video graph is consumed twice. */
  lemma VideoGraphSingleUse(f: ExportFilter, px: Pixels, crop: Rect, ws: seq<Window>, track: int)
    ensures SingleUse(VideoGraph(f, px, crop, ws, track))
  {
    var g := VideoGraph(f, px, crop, ws, track);
    var mask := MaskChains(f, px);
    var fan := [FanOut(|ws|)];
    var segs := SegmentChains(ws, 0, FromFan, Some(track));
    var tail := VideoTail(crop, |ws|);
    assert g == (mask + fan) + segs + tail;
    GraphSingle(FanOut(|ws|));
    forall p | IsLink(p)
      ensures Count(Inputs(g), p) <= 1
    {
      CountInputs3(mask + fan, segs, tail, p);
      InputsAppend(mask, fan);
      CountAppend(Inputs(mask), Inputs(fan), p);
      CountOne(Link("filtered"), p);
      MaskLinks(f, px, p);
      FanLinkUse(ws, 0, Some(track), p);
      VideoTailUse(crop, |ws|, p);
      assert |"filtered"| != |"cv"| && "f" != "v" && "f" != "a";
    }
  }

  /** The audio graph trims each window once, audio only, in order. */
  lemma AudioGraphTrims(ws: seq<Window>, track: int, g: seq<Chain>)
    requires g == SegmentChains(ws, 0, NoVideo, Some(track)) + [AudioConcat(|ws|)]
    ensures Trims(g, false) == [] && Trims(g, true) == ws
  {
    var segs := SegmentChains(ws, 0, NoVideo, Some(track));
    AudioConcatTrims(|ws|);
    SegmentTrims(ws, 0, NoVideo, Some(track));
    GraphAppend(segs, [AudioConcat(|ws|)]);
    assert Trims(g, false) == [] + [];
    assert Trims(g, true) == ws + [];
  }

  /** The closing concat trims nothing. */
  lemma AudioConcatTrims(n: nat)
    ensures Trims([AudioConcat(n)], false) == [] && Trims([AudioConcat(n)], true) == []
  {
    GraphSingle(AudioConcat(n));
    MaskNoTrims(AudioConcat(n).filters);
  }

  /** No label of the audio graph is consumed twice. */
  lemma AudioGraphSingleUse(ws: seq<Window>, track: int, g: seq<Chain>)
    requires g == SegmentChains(ws, 0, NoVideo, Some(track)) + [AudioConcat(|ws|)]
    ensures SingleUse(g)
  {
    var segs := SegmentChains(ws, 0, NoVideo, Some(track));
    var last := AudioConcat(|ws|);
    GraphAppend(segs, [last]);
    GraphSingle(last);
    forall p | IsLink(p)
      ensures Count(Inputs(g), p) <= 1
    {
      CountAppend(Inputs(segs), last.inputs, p);
      SegmentLinkUse(ws, 0, NoVideo, Some(track), p);
      ConcatPadsUse(0, |ws|, false, true, p);
    }
  }

  /** The muted graph trims each window once, video only, in order. */
  lemma MutedGraphTrims(crop: Rect, ws: seq<Window>, g: seq<Chain>)
    requires g == SegmentChains(ws, 0, FromInput, None) + MutedTail(crop, |ws|)
    ensures Trims(g, false) == ws && Trims(g, true) == []
  {
    var segs := SegmentChains(ws, 0, FromInput, None);
    var tail := MutedTail(crop, |ws|);
    MutedTailTrims(crop, |ws|);
    SegmentTrims(ws, 0, FromInput, None);
    GraphAppend(segs, tail);
  }

  /** The muted tail trims nothing. */
  lemma MutedTailTrims(crop: Rect, n: nat)
    ensures Trims(MutedTail(crop, n), false) == [] && Trims(MutedTail(crop, n), true) == []
  {
    var tail := MutedTail(crop, n);
    GraphPair(tail[0], tail[1]);
    MaskNoTrims(tail[0].filters);
    MaskNoTrims(tail[1].filters);
  }

  /** No label of the muted graph is consumed twice. */
  lemma MutedGraphSingleUse(crop: Rect, ws: seq<Window>, g: seq<Chain>)
    requires g == SegmentChains(ws, 0, FromInput, None) + MutedTail(crop, |ws|)
    ensures SingleUse(g)
  {
    var segs := SegmentChains(ws, 0, FromInput, None);
    var tail := MutedTail(crop, |ws|);
    GraphAppend(segs, tail);
    GraphPair(tail[0], tail[1]);
    var cp := ConcatPads(0, |ws|, true, false);
    assert Inputs(tail) == cp + [Link("cv")];
    forall p | IsLink(p)
      ensures Count(Inputs(g), p) <= 1
    {
      CountAppend(Inputs(segs), cp + [Link("cv")], p);
      CountAppend(cp, [Link("cv")], p);
      CountOne(Link("cv"), p);
      SegmentLinkUse(ws, 0, FromInput, None, p);
      ConcatPadsUse(0, |ws|, true, false, p);
    }
  }

  /** Three trim-free chains reading the input, `[s0]`, and `[s1]` with
      `[p]` consume each label once and trim nothing. */
  lemma GifGraphShape(a: Chain, b: Chain, c: Chain)
    requires a.inputs == [VideoIn] && b.inputs == [Link("s0")] && c.inputs == [Link("s1"), Link("p")]
    requires forall k :: 0 <= k < |a.filters| ==> !a.filters[k].Trim? && !a.filters[k].ATrim?
    requires forall k :: 0 <= k < |b.filters| ==> !b.filters[k].Trim? && !b.filters[k].ATrim?
    requires forall k :: 0 <= k < |c.filters| ==> !c.filters[k].Trim? && !c.filters[k].ATrim?
    ensures Inputs([a, b, c]) == [VideoIn, Link("s0"), Link("s1"), Link("p")]
    ensures SingleUse([a, b, c])
    ensures Trims([a, b, c], false) == [] && Trims([a, b, c], true) == []
  {
    GraphTriple(a, b, c);
    MaskNoTrims(a.filters);
    MaskNoTrims(b.filters);
    MaskNoTrims(c.filters);
    GifPadsUsedOnce(Inputs([a, b, c]));
  }

  /** The GIF graph's four input pads differ pairwise, so none is used twice. */
  lemma GifPadsUsedOnce(ins: seq<Pad>)
    requires ins == [VideoIn, Link("s0"), Link("s1"), Link("p")]
    ensures forall p :: IsLink(p) ==> Count(ins, p) <= 1
  {
    assert "s0"[1] != "s1"[1] && |"s0"| != |"p"| && |"s1"| != |"p"|;
    assert forall i, j :: 0 <= i < j < |ins| ==> ins[i] != ins[j];
    forall p | IsLink(p)
      ensures Count(ins, p) <= 1
    {
      CountDistinct(ins, p);
    }
  }

  // ------------------------------------------------------------ bitrates

  /** The video export's size budget, 6.7 MiB, in bits. */
  const TargetBits: real := 6.7 * 1024.0 * 1024.0 * 8.0
  /** The audio stream's share of the budget, bits per second. */
  const AudioBitsPerSec: real := 32000.0

  /** `max(0.1, totalMs / 1000)`: the edited duration in seconds, floored at
      a tenth of a second. */
  function DurationSec(totalMs: int): (r: real)
    ensures r >= 0.1
    ensures r * 1000.0 >= totalMs as real
    ensures totalMs >= 100 ==> r * 1000.0 == totalMs as real
    ensures totalMs < 100 ==> r == 0.1
  {
    MaxReal(0.1, totalMs as real / 1000.0)
  }

  /** The video export's bitrate in kbit/s: what is left of the size budget
      per second after the audio, clamped to `[200, 12000]`. */
  function VideoBitrate(totalMs: int): (r: int)
    ensures 200 <= r <= 12000
    ensures r < 12000 ==> ((r + 1) as real * 1000.0 + AudioBitsPerSec) * DurationSec(totalMs) > TargetBits
  {
    var d := DurationSec(totalMs);
    var x := (TargetBits / d - AudioBitsPerSec) / 1000.0;
    var b := Bound(200, Trunc(x), 12000);
    if b < 12000 then
      BelowNextStep(x, b);
      OverBudget(TargetBits, d, AudioBitsPerSec, b + 1);
      b
    else b
  }

  /** A clamped value under its ceiling is at least the truncation, so the
      next integer lies above the unclamped value. */
  lemma BelowNextStep(x: real, b: int)
    requires Trunc(x) <= b
    ensures x < (b + 1) as real
  {
  }

  /** When the per-second share `(k / d - extra) / 1000` stays below `n`,
      `n` kbit/s plus `extra` over `d` seconds exceed `k`. */
  lemma OverBudget(k: real, d: real, extra: real, n: int)
    requires d > 0.0 && (k / d - extra) / 1000.0 < n as real
    ensures (n as real * 1000.0 + extra) * d > k
  {
    var y := n as real * 1000.0 + extra;
    assert k / d < y;
    assert (k / d) * d == k;
    MulBelow(k / d, y, d);
  }

  /** When the per-second share `k / d` stays below `n`, `n` over `d`
      seconds exceeds `k`. */
  lemma OverShare(k: real, d: real, n: int)
    requires d > 0.0 && k / d < n as real
    ensures n as real * d > k
  {
    assert (k / d) * d == k;
    MulBelow(k / d, n as real, d);
  }

  lemma MulBelow(a: real, b: real, d: real)
    requires a < b && d > 0.0
    ensures a * d < b * d
  {
  }

  /** Above the floor, the video stream plus the audio stream over the
      whole clip fit in the size budget. */
  lemma VideoBitrateFitsBudget(totalMs: int)
    ensures var b := VideoBitrate(totalMs);
            b > 200 ==> (b as real * 1000.0 + AudioBitsPerSec) * DurationSec(totalMs) <= TargetBits
  {
    var d := DurationSec(totalMs);
    var x := (TargetBits / d - AudioBitsPerSec) / 1000.0;
    var b := VideoBitrate(totalMs);
    if b > 200 {
      assert b <= Trunc(x);
      assert b as real <= x;
      assert b as real * 1000.0 + AudioBitsPerSec <= TargetBits / d;
      assert (TargetBits / d) * d == TargetBits;
    }
  }

  /** A longer clip never gets a higher video bitrate. */
  lemma VideoBitrateNonIncreasing(shorterMs: int, longerMs: int)
    requires shorterMs <= longerMs
    ensures VideoBitrate(longerMs) <= VideoBitrate(shorterMs)
  {
    var d1 := DurationSec(shorterMs);
    var d2 := DurationSec(longerMs);
    assert d1 <= d2;
    DivideByLarger(TargetBits, d1, d2);
    TruncMonotone((TargetBits / d2 - AudioBitsPerSec) / 1000.0, (TargetBits / d1 - AudioBitsPerSec) / 1000.0);
  }

  lemma DivideByLarger(k: real, d1: real, d2: real)
    requires k >= 0.0 && 0.0 < d1 <= d2
    ensures k / d2 <= k / d1
  {
    assert (k / d2) * d2 == k;
    assert (k / d1) * d1 == k;
  }

  /** A ten-second clip is encoded at 5588 kbit/s. */
  lemma VideoBitrateTenSeconds()
    ensures VideoBitrate(10000) == 5588
  {
    assert DurationSec(10000) == 10.0;
    assert (TargetBits / 10.0 - AudioBitsPerSec) / 1000.0 == 5588.3673600;
  }

  /** `-maxrate`: ten percent above the bitrate, truncated. */
  function MaxRate(kbps: int): (r: int)
    requires kbps >= 0
    ensures kbps <= r && r as real <= kbps as real * 1.1 < r as real + 1.0
  {
    Trunc(kbps as real * 1.1)
  }

  /** The muted export's size budget, `7.5 * 8192` kbit (7.5 MiB). */
  const MutedBudgetKbit: real := 7.5 * 8192.0

  /** The muted export's capped bitrate: the budget spread over the clip,
      clamped to `[200, 15000]`. */
  function MutedBitrate(totalMs: int): (r: int)
    ensures 200 <= r <= 15000
    ensures r < 15000 ==> (r + 1) as real * DurationSec(totalMs) > MutedBudgetKbit
  {
    var d := DurationSec(totalMs);
    var x := MutedBudgetKbit / d;
    var b := Bound(200, Trunc(x), 15000);
    if b < 15000 then
      BelowNextStep(x, b);
      OverShare(MutedBudgetKbit, d, b + 1);
      b
    else b
  }

  /** Above the floor, the capped muted stream fits its budget. */
  lemma MutedBitrateFitsBudget(totalMs: int)
    ensures var b := MutedBitrate(totalMs);
            b > 200 ==> b as real * DurationSec(totalMs) <= MutedBudgetKbit
  {
    var d := DurationSec(totalMs);
    var b := MutedBitrate(totalMs);
    if b > 200 {
      assert b as real <= MutedBudgetKbit / d;
      assert (MutedBudgetKbit / d) * d == MutedBudgetKbit;
    }
  }

  function SignInt(x: int): int {
    if x > 0 then 1 else if x < 0 then -1 else 0
  }

  function SignReal(x: real): int {
    if x > 0.0 then 1 else if x < 0.0 then -1 else 0
  }

  /** The area of the export crop as a fraction of the frame. */
  function CropArea(crop: Rect): real {
    (crop.right - crop.left) * (crop.bottom - crop.top)
  }

  const MiB: real := 1024.0 * 1024.0

  /** Whether the muted export's size estimate, the source size scaled by
      the kept fraction of time and of frame, exceeds 8 MiB. With a zero
      media duration the division yields an infinity or NaN: the test holds
      exactly when the result is plus infinity. */
  function EstimateExceeds(fileSize: int, totalMs: int, durationMs: int, crop: Rect): (r: bool)
    ensures durationMs > 0 ==>
              (r <==> fileSize as real * totalMs as real * CropArea(crop) > 8.0 * MiB * durationMs as real)
    ensures durationMs == 0 ==>
              (r <==> SignInt(fileSize) * SignInt(totalMs) * SignReal(CropArea(crop)) == 1)
  {
    if durationMs == 0 then SignInt(fileSize) * SignInt(totalMs) * SignReal(CropArea(crop)) == 1
    else
      var t := totalMs as real / durationMs as real;
      var e := fileSize as real * t * CropArea(crop);
      assert durationMs > 0 ==>
               (e / MiB > 8.0 <==> fileSize as real * totalMs as real * CropArea(crop) > 8.0 * MiB * durationMs as real) by {
        if durationMs > 0 {
          var d := durationMs as real;
          assert t * d == totalMs as real;
          assert e * d == fileSize as real * totalMs as real * CropArea(crop);
          assert e / MiB > 8.0 <==> e > 8.0 * MiB;
          assert e > 8.0 * MiB <==> e * d > 8.0 * MiB * d;
        }
      }
      e / MiB > 8.0
  }

  // ---------------------------------------------------------------- names

  /** `generateClippedName`: `<custom>.<ext>` when a custom name is set,
      else `(clip-<base>_clipped-<time>).<ext>`; the time of day is an
      input. */
  function ClippedName(customName: string, sourcePath: string, timeStr: string, ext: string): (r: string)
    ensures customName != "" ==> r == customName + "." + ext
    ensures customName == "" ==> r == "(clip-" + BaseName(sourcePath) + "_clipped-" + timeStr + ")." + ext
  {
    if customName != "" then customName + "." + ext
    else "(clip-" + BaseName(sourcePath) + "_clipped-" + timeStr + ")." + ext
  }

  /** Every generated name, also behind the `MUTED_` prefix, carries the
      requested extension. */
  lemma ClippedNameSuffix(customName: string, sourcePath: string, timeStr: string, ext: string, prefix: string)
    requires '/' !in ext && '.' !in ext
    ensures Suffix(prefix + ClippedName(customName, sourcePath, timeStr, ext)) == ext
  {
    var stem := if customName != "" then customName
                else "(clip-" + BaseName(sourcePath) + "_clipped-" + timeStr + ")";
    assert ClippedName(customName, sourcePath, timeStr, ext) == stem + "." + ext;
    SuffixBehindPrefix(prefix, stem, ext);
  }

  lemma SuffixBehindPrefix(prefix: string, stem: string, ext: string)
    requires '/' !in ext && '.' !in ext
    ensures Suffix(prefix + (stem + "." + ext)) == ext
  {
    assert prefix + (stem + "." + ext) == (prefix + stem) + "." + ext;
    SuffixOfDotted(prefix + stem, ext);
  }

  // ----------------------------------------------------------------- jobs

  /** The encoder settings of each export. */
  datatype Encoding =
    /** NVENC VBR with `-b:v`, `-maxrate` and `-bufsize`, AAC 32k mono. */
    | VideoVbr(bitrateKbps: int, maxrateKbps: int, bufsizeKbps: int)
    /** libmp3lame at 192k. */
    | Mp3
    | GifPalette
    /** NVENC at `-r 25` with a fixed bitrate, no audio. */
    | MutedCapped(bitrateKbps: int, fps: int)
    /** NVENC constant QP, no audio. */
    | MutedConstQp(qp: int)

  /** One ffmpeg run: output name, input seek, optional input duration
      limit, graph, encoder settings, and the total the progress popup
      measures against (none for audio). */
  datatype Job = Job(fileName: string, seekMs: int, limitMs: Option<int>, graph: seq<Chain>,
                     encoding: Encoding, progressTotalMs: Option<int>)

  function VideoJob(s: State, reported: Option<(int, int)>, timeStr: string): (r: Job)
    requires |s.segments| > 0
    ensures r.seekMs == SeekMs(s.segments) && r.limitMs.None?
    ensures Trims(r.graph, false) == Windows(s.segments, r.seekMs)
    ensures Trims(r.graph, true) == Windows(s.segments, r.seekMs)
    ensures SingleUse(r.graph)
    ensures r.encoding.VideoVbr?
    ensures 200 <= r.encoding.bitrateKbps <= 12000
    ensures r.encoding.bitrateKbps <= r.encoding.maxrateKbps && r.encoding.bufsizeKbps == 2 * r.encoding.bitrateKbps
    ensures var b := VideoBitrate(TotalMs(s.segments)); r.encoding == VideoVbr(b, MaxRate(b), 2 * b)
    ensures r.fileName == ClippedName(s.customName, s.sourcePath, timeStr, "mp4")
    ensures var size := VideoSize(reported);
            var mask := MaskChains(s.filter, RegionPixels(s.filter.rect, size.0, size.1));
            |mask| <= |r.graph| && r.graph[..|mask|] == mask
    ensures var size := VideoSize(reported);
            r.graph == VideoGraph(s.filter, RegionPixels(s.filter.rect, size.0, size.1), s.crop,
                                  Windows(s.segments, SeekMs(s.segments)), s.currentTrack)
    ensures r.progressTotalMs == Some(TotalMs(s.segments))
  {
    var seek := SeekMs(s.segments);
    var ws := Windows(s.segments, seek);
    var size := VideoSize(reported);
    var px := RegionPixels(s.filter.rect, size.0, size.1);
    var b := VideoBitrate(TotalMs(s.segments));
    VideoGraphTrims(s.filter, px, s.crop, ws, s.currentTrack);
    VideoGraphSingleUse(s.filter, px, s.crop, ws, s.currentTrack);
    Job(ClippedName(s.customName, s.sourcePath, timeStr, "mp4"), seek, None,
        VideoGraph(s.filter, px, s.crop, ws, s.currentTrack),
        VideoVbr(b, MaxRate(b), 2 * b), Some(TotalMs(s.segments)))
  }

  /** The video job as `copyTrimmedVideo` builds it. It differs from
      `VideoJob` only in its graph: every segment's video trim reads the
      one `[filtered]` label, so from two segments on the graph is not
      single-use and ffmpeg refuses it. */
  function VideoJobAsWritten(s: State, reported: Option<(int, int)>, timeStr: string): (r: Job)
    requires |s.segments| > 0
    ensures r.(graph := VideoJob(s, reported, timeStr).graph) == VideoJob(s, reported, timeStr)
    ensures Trims(r.graph, false) == Windows(s.segments, r.seekMs)
    ensures Trims(r.graph, true) == Windows(s.segments, r.seekMs)
    ensures Count(Inputs(r.graph), Link("filtered")) == |s.segments|
    ensures |s.segments| >= 2 ==> !SingleUse(r.graph)
  {
    var ws := Windows(s.segments, SeekMs(s.segments));
    var size := VideoSize(reported);
    var px := RegionPixels(s.filter.rect, size.0, size.1);
    VideoJob(s, reported, timeStr).(graph := VideoGraphAsWritten(s.filter, px, s.crop, ws, s.currentTrack))
  }

  function AudioJob(s: State, timeStr: string): (r: Job)
    requires |s.segments| > 0
    ensures r.seekMs == SeekMs(s.segments) && r.limitMs.None?
    ensures Trims(r.graph, false) == [] && Trims(r.graph, true) == Windows(s.segments, r.seekMs)
    ensures SingleUse(r.graph)
    ensures r.encoding == Mp3 && r.progressTotalMs.None?
    ensures r.fileName == ClippedName(s.customName, s.sourcePath, timeStr, "mp3")
    ensures r.graph == AudioGraph(Windows(s.segments, r.seekMs), s.currentTrack)
  {
    var seek := SeekMs(s.segments);
    var ws := Windows(s.segments, seek);
    Job(ClippedName(s.customName, s.sourcePath, timeStr, "mp3"), seek, None,
        AudioGraph(ws, s.currentTrack), Mp3, None)
  }

  /** The GIF covers only the first segment: it seeks straight to its start
      (no pre-roll) and reads just its length. */
  function GifJob(s: State, timeStr: string): (r: Job)
    requires |s.segments| > 0
    ensures r.seekMs == Max(0, s.segments[0].startMs)
    ensures r.limitMs == Some(s.segments[0].Length()) && r.progressTotalMs == r.limitMs
    ensures SingleUse(r.graph) && Trims(r.graph, false) == [] && Trims(r.graph, true) == []
    ensures r.encoding == GifPalette
    ensures r.fileName == ClippedName(s.customName, s.sourcePath, timeStr, "gif")
    ensures r.graph == GifGraph(s.crop)
  {
    Job(ClippedName(s.customName, s.sourcePath, timeStr, "gif"), Max(0, s.segments[0].startMs),
        Some(s.segments[0].Length()), GifGraph(s.crop), GifPalette, Some(s.segments[0].Length()))
  }

  /** The muted export caps the bitrate at 25 fps when the estimate exceeds
      8 MiB and encodes at constant QP 23 otherwise. */
  function MutedJob(s: State, timeStr: string): (r: Job)
    requires |s.segments| > 0
    ensures r.seekMs == SeekMs(s.segments) && r.limitMs.None?
    ensures Trims(r.graph, false) == Windows(s.segments, r.seekMs) && Trims(r.graph, true) == []
    ensures SingleUse(r.graph)
    ensures |r.fileName| >= 6 && r.fileName[..6] == "MUTED_"
    ensures r.fileName == "MUTED_" + ClippedName(s.customName, s.sourcePath, timeStr, "mp4")
    ensures r.graph == MutedGraph(s.crop, Windows(s.segments, r.seekMs))
    ensures EstimateExceeds(s.fileSize, TotalMs(s.segments), s.durationMs, s.crop) ==>
              r.encoding == MutedCapped(MutedBitrate(TotalMs(s.segments)), 25)
    ensures EstimateExceeds(s.fileSize, TotalMs(s.segments), s.durationMs, s.crop) ==>
              r.encoding.MutedCapped? && r.encoding.fps == 25 && 200 <= r.encoding.bitrateKbps <= 15000
    ensures !EstimateExceeds(s.fileSize, TotalMs(s.segments), s.durationMs, s.crop) ==>
              r.encoding == MutedConstQp(23)
    ensures r.progressTotalMs == Some(TotalMs(s.segments))
  {
    var seek := SeekMs(s.segments);
    var ws := Windows(s.segments, seek);
    var total := TotalMs(s.segments);
    Job("MUTED_" + ClippedName(s.customName, s.sourcePath, timeStr, "mp4"), seek, None,
        MutedGraph(s.crop, ws),
        if EstimateExceeds(s.fileSize, total, s.durationMs, s.crop) then MutedCapped(MutedBitrate(total), 25)
        else MutedConstQp(23),
        Some(total))
  }

  /** The job an export of `kind` runs. Every compiled graph consumes each
      label once; all but the GIF seek with pre-roll; all but the audio
      export report progress. */
  function Compile(s: State, kind: ExportKind, reported: Option<(int, int)>, timeStr: string): (r: Job)
    requires |s.segments| > 0
    ensures SingleUse(r.graph)
    ensures kind != GifExport ==> r.seekMs == SeekMs(s.segments) && r.limitMs.None?
    ensures kind == GifExport ==> r.limitMs == Some(s.segments[0].Length())
    ensures r.progressTotalMs.None? <==> kind == AudioExport
    ensures kind == VideoExport ==> r.encoding.VideoVbr?
    ensures kind == AudioExport ==> r.encoding == Mp3
    ensures kind == GifExport ==> r.encoding == GifPalette
    ensures kind == MutedExport ==> r.encoding.MutedCapped? || r.encoding.MutedConstQp?
  {
    match kind
    case VideoExport => VideoJob(s, reported, timeStr)
    case AudioExport => AudioJob(s, timeStr)
    case GifExport => GifJob(s, timeStr)
    case MutedExport => MutedJob(s, timeStr)
  }

  // ------------------------------------------------------------ the lock

  /** Whether an export of `kind` may start: there must be segments, and
      all but the GIF export also wait for a running export to finish. */
  predicate Accepts(s: State, kind: ExportKind)
    ensures Accepts(s, kind) ==> |s.segments| > 0
    ensures |s.segments| > 0 && !s.exporting ==> Accepts(s, kind)
    ensures kind == GifExport ==> (Accepts(s, kind) <==> |s.segments| > 0)
    ensures kind != GifExport && s.exporting ==> !Accepts(s, kind)
  {
    |s.segments| > 0 && (kind == GifExport || !s.exporting)
  }

  /** Starting an export: a refused request changes nothing; an accepted
      one sets the export lock (except for the GIF export, which ignores
      it) and yields the compiled job. */
  function Begin(s: State, kind: ExportKind, reported: Option<(int, int)>, timeStr: string): (r: (State, Option<Job>))
    ensures r.1.Some? <==> Accepts(s, kind)
    ensures !Accepts(s, kind) ==> r.0 == s
    ensures r.0 == s.(exporting := r.0.exporting)
    ensures Accepts(s, kind) && kind != GifExport ==> r.0.exporting
    ensures kind == GifExport ==> r.0.exporting == s.exporting
    ensures r.1.Some? ==> |s.segments| > 0 && r.1.value == Compile(s, kind, reported, timeStr)
  {
    if !Accepts(s, kind) then (s, None)
    else (s.(exporting := s.exporting || kind != GifExport), Some(Compile(s, kind, reported, timeStr)))
  }

  /** What the user is told when ffmpeg exits. */
  datatype Outcome = Delivered | Failed

  /** The finish handler: all but the GIF export release the lock whatever
      the exit code and report failure on a non-zero one; the GIF export
      always reports a copied file and leaves the lock alone. */
  function Finish(s: State, kind: ExportKind, exitCode: int): (r: (State, Outcome))
    ensures kind != GifExport ==> r.0 == s.(exporting := false) && (r.1 == Delivered <==> exitCode == 0)
    ensures kind == GifExport ==> r == (s, Delivered)
  {
    if kind == GifExport then (s, Delivered)
    else (s.(exporting := false), if exitCode == 0 then Delivered else Failed)
  }

  /** While a video, audio or muted export runs, every other such request
      is refused; once it finishes, they are accepted again. */
  lemma LockCycle(s: State, kind: ExportKind, other: ExportKind, reported: Option<(int, int)>,
                  timeStr: string, exitCode: int)
    requires Accepts(s, kind) && kind != GifExport && other != GifExport
    ensures var started := Begin(s, kind, reported, timeStr).0;
            && Begin(started, other, reported, timeStr) == (started, None)
            && Accepts(Finish(started, kind, exitCode).0, other)
  {
  }

  /** The GIF export runs whenever there are segments, lock or no lock. */
  lemma GifIgnoresLock(s: State, reported: Option<(int, int)>, timeStr: string)
    requires |s.segments| > 0 && s.exporting
    ensures Begin(s, GifExport, reported, timeStr).1.Some?
    ensures Begin(s, GifExport, reported, timeStr).0 == s
  {
  }
}

=== FILE: history.dfy ===
/** The editor's linear undo/redo history (`saveState`, `undo`, `redo`):
    two stacks of whole-list snapshots with a fixed capacity. */
module History {
  import opened Segments

  /** `MAX_STACK_SIZE`. */
  const MaxStackSize: nat := 50

  /** `TimelineState`: a snapshot holds the segment list and nothing else;
      selection, playhead and crop are not part of the history. */
  datatype TimelineState = TimelineState(segments: seq<Segment>)

  /** The two stacks; the top of each is its last element. */
  datatype Stacks = Stacks(undo: seq<TimelineState>, redo: seq<TimelineState>)

  const Empty: Stacks := Stacks([], [])

  /** The combined depth never exceeds the capacity. */
  predicate Bounded(h: Stacks) {
    |h.undo| + |h.redo| <= MaxStackSize
  }

  /** A timeline the editor may show: ordered and inside the media. */
  predicate Fits(segs: seq<Segment>, durationMs: int) {
    Ordered(segs) && Within(segs, durationMs)
  }

  /** Every snapshot on either stack fits the media. */
  predicate SnapshotsFit(h: Stacks, durationMs: int) {
    && (forall k :: 0 <= k < |h.undo| ==> Fits(h.undo[k].segments, durationMs))
    && (forall k :: 0 <= k < |h.redo| ==> Fits(h.redo[k].segments, durationMs))
  }

  /** `saveState`: push the current list onto undo, evict the oldest entry
      only when that overflows the capacity, and discard the redo branch. */
  function Save(h: Stacks, current: seq<Segment>): (r: Stacks)
    ensures |r.undo| > 0 && r.undo[|r.undo| - 1] == TimelineState(current)
    ensures |h.undo| < MaxStackSize ==> r.undo == h.undo + [TimelineState(current)]
    ensures |h.undo| >= MaxStackSize ==> r.undo == h.undo[1..] + [TimelineState(current)]
    ensures r.redo == []
    ensures Bounded(h) ==> Bounded(r)
  {
    var pushed := h.undo + [TimelineState(current)];
    Stacks(if |pushed| > MaxStackSize then pushed[1..] else pushed, [])
  }

  /** Result of an undo or redo: the new stacks and the restored list. */
  datatype Step = Step(stacks: Stacks, segments: seq<Segment>)

  /** `undo`: nothing happens on an empty undo stack; otherwise the current
      list moves onto redo and the latest undo entry comes back. */
  function Undo(h: Stacks, current: seq<Segment>): (r: Step)
    ensures |h.undo| == 0 ==> r == Step(h, current)
    ensures |h.undo| > 0 ==>
              && r.segments == h.undo[|h.undo| - 1].segments
              && r.stacks.undo == h.undo[..|h.undo| - 1]
              && r.stacks.redo == h.redo + [TimelineState(current)]
    ensures Bounded(h) ==> Bounded(r.stacks)
  {
    if |h.undo| == 0 then Step(h, current)
    else
      var top := h.undo[|h.undo| - 1];
      Step(Stacks(h.undo[..|h.undo| - 1], h.redo + [TimelineState(current)]), top.segments)
  }

  /** `redo`: the mirror image of `Undo`. */
  function Redo(h: Stacks, current: seq<Segment>): (r: Step)
    ensures |h.redo| == 0 ==> r == Step(h, current)
    ensures |h.redo| > 0 ==>
              && r.segments == h.redo[|h.redo| - 1].segments
              && r.stacks.redo == h.redo[..|h.redo| - 1]
              && r.stacks.undo == h.undo + [TimelineState(current)]
    ensures Bounded(h) ==> Bounded(r.stacks)
  {
    if |h.redo| == 0 then Step(h, current)
    else
      var top := h.redo[|h.redo| - 1];
      Step(Stacks(h.undo + [TimelineState(current)], h.redo[..|h.redo| - 1]), top.segments)
  }

  /** Save, change the list, undo: the pre-change list is back. Redo after
      that brings the changed list back. Holds at full capacity too, since
      eviction only drops the oldest entry. */
  lemma SaveUndoRedo(h: Stacks, before: seq<Segment>, after: seq<Segment>)
    ensures Undo(Save(h, before), after).segments == before
    ensures var u := Undo(Save(h, before), after);
            Redo(u.stacks, u.segments).segments == after
  {
  }

  /** Undo followed by redo is the identity on the list and on the stacks. */
  lemma UndoRedoInverse(h: Stacks, current: seq<Segment>)
    requires |h.undo| > 0
    ensures var u := Undo(h, current);
            Redo(u.stacks, u.segments) == Step(h, current)
  {
    var u := Undo(h, current);
    assert u.stacks.undo + [h.undo[|h.undo| - 1]] == h.undo;
  }

  /** Saving the same list twice leaves it on top of undo twice. */
  lemma SaveTwice(h: Stacks, current: seq<Segment>)
    ensures var u := Save(Save(h, current), current).undo;
            && |u| >= 2
            && u[|u| - 1] == TimelineState(current)
            && u[|u| - 2] == TimelineState(current)
  {
    var once := Save(h, current);
    var u := Save(once, current).undo;
    if |once.undo| < MaxStackSize {
      assert u == once.undo + [TimelineState(current)];
    } else {
      assert u == once.undo[1..] + [TimelineState(current)];
    }
  }

  /** The history only ever holds timelines that fit the media: saving a
      fitting list keeps it so, and undo and redo restore a fitting list. */
  lemma SaveFits(h: Stacks, current: seq<Segment>, durationMs: int)
    requires SnapshotsFit(h, durationMs) && Fits(current, durationMs)
    ensures SnapshotsFit(Save(h, current), durationMs)
  {
  }

  lemma UndoFits(h: Stacks, current: seq<Segment>, durationMs: int)
    requires SnapshotsFit(h, durationMs) && Fits(current, durationMs)
    ensures SnapshotsFit(Undo(h, current).stacks, durationMs)
    ensures Fits(Undo(h, current).segments, durationMs)
  {
  }

  lemma RedoFits(h: Stacks, current: seq<Segment>, durationMs: int)
    requires SnapshotsFit(h, durationMs) && Fits(current, durationMs)
    ensures SnapshotsFit(Redo(h, current).stacks, durationMs)
    ensures Fits(Redo(h, current).segments, durationMs)
  {
  }

  /** A history request as the editor issues it. */
  datatype Op = SaveOp | UndoOp | RedoOp | Edit(segments: seq<Segment>)

  /** Replays a sequence of requests; `Edit` stands for any mutation of the
      live list that does not touch the history. */
  function Run(h: Stacks, current: seq<Segment>, ops: seq<Op>): Step
    decreases |ops|
  {
    if |ops| == 0 then Step(h, current)
    else
      var next := match ops[0]
        case SaveOp => Step(Save(h, current), current)
        case UndoOp => Undo(h, current)
        case RedoOp => Redo(h, current)
        case Edit(s) => Step(h, s);
      Run(next.stacks, next.segments, ops[1..])
  }

  /** Starting from any bounded history (empty stacks in particular), no
      sequence of saves, undos, redos and edits takes the combined depth
      above the capacity. */
  lemma {:induction false} RunKeepsBound(h: Stacks, current: seq<Segment>, ops: seq<Op>)
    requires Bounded(h)
    ensures Bounded(Run(h, current, ops).stacks)
    decreases |ops|
  {
    if |ops| > 0 {
      match ops[0]
      case SaveOp => RunKeepsBound(Save(h, current), current, ops[1..]);
      case UndoOp =>
        var u := Undo(h, current);
        RunKeepsBound(u.stacks, u.segments, ops[1..]);
      case RedoOp =>
        var u := Redo(h, current);
        RunKeepsBound(u.stacks, u.segments, ops[1..]);
      case Edit(s) => RunKeepsBound(h, s, ops[1..]);
    }
  }
}

=== FILE: keyboard.dfy ===
/** The timeline's keyboard shortcuts (`keyPressEvent`): playhead stepping,
    undo and redo, export requests, playback toggling, the split key,
    deleting the selection and cycling the audio track. Exports and playback
    belong to other components: the handler only requests them. */
module Keyboard {
  import opened Common
  import opened Text
  import opened Segments
  import opened History
  import opened Timeline
  import opened Editor

  datatype Key =
    | KeyQ | Key0 | KeyW | KeyLeft | KeyRight | KeyZ | KeyG | KeyC
    | KeySpace | KeyS | KeyDelete | KeyBackspace | KeyA | OtherKey(code: int)

  /** What a key press did beyond the state change: the notification or
      request it raised. */
  datatype KeyOutcome =
    | Replay
    | PlayheadMoved
    | Undone
    | Redone
    | ExportRequested(kind: ExportKind)
    | PlaybackToggled
    | SplitRequested
    | Deleted(count: nat)
    | TrackChanged(name: string)
    | Ignored
    | PassedOn

  /** The long and short playhead steps. */
  const LongStepMs: nat := 2000
  const ShortStepMs: nat := 16

  /** `trackNames`: the labels of the first six audio tracks. */
  const TrackNames: seq<string> := [
    "All audio", "All discord audio + mic", "Only discord audio",
    "Chromium + mic", "WEBRTC VoiceEngine + mic", "everything excluding discord"]

  /** The label announced for a track: its name when it has one, else
      "Track n" counting from one. */
  function TrackLabel(track: int): (r: string)
    ensures 0 <= track < |TrackNames| ==> r == TrackNames[track]
    ensures track >= |TrackNames| ==> r == "Track " + Decimal(track + 1)
  {
    if track < |TrackNames| then (if track >= 0 then TrackNames[track] else "")
    else "Track " + Decimal(track + 1)
  }

  /** The export a shortcut requests: ctrl+G a GIF, ctrl+shift+C the audio,
      ctrl+C the video, muted with alt. */
  function ExportShortcut(key: Key, mods: Modifiers): (r: Option<ExportKind>)
    ensures r.Some? ==> mods.ctrl && (key == KeyG || key == KeyC)
    ensures mods.ctrl && key == KeyG ==> r == Some(GifExport)
    ensures mods.ctrl && key == KeyC && mods.shift ==> r == Some(AudioExport)
    ensures mods.ctrl && key == KeyC && !mods.shift ==> r == Some(if mods.alt then MutedExport else VideoExport)
  {
    if mods.ctrl && key == KeyG then Some(GifExport)
    else if mods.ctrl && mods.shift && key == KeyC then Some(AudioExport)
    else if mods.ctrl && key == KeyC then Some(if mods.alt then MutedExport else VideoExport)
    else None
  }

  /** The alt+A track cycle: the next track, wrapping to the first, when
      there is more than one track; otherwise nothing. */
  function NextTrack(current: int, total: int): (r: int)
    ensures total <= 1 ==> r == current
    ensures total > 1 && 0 <= current < total - 1 ==> r == current + 1
    ensures total > 1 && current == total - 1 ==> r == 0
    ensures total > 1 && 0 <= current ==> 0 <= r < total
  {
    if total > 1 then TruncMod(current + 1, total) else current
  }

  /** `k` presses of alt+A. */
  function Iterate(current: int, total: int, k: nat): int {
    if k == 0 then current else NextTrack(Iterate(current, total, k - 1), total)
  }

  lemma {:induction false} IterateAdd(current: int, total: int, a: nat, b: nat)
    ensures Iterate(current, total, a + b) == Iterate(Iterate(current, total, a), total, b)
    decreases b
  {
    if b > 0 {
      IterateAdd(current, total, a, b - 1);
    }
  }

  /** Below the last track each press moves one track up. */
  lemma {:induction false} IterateClimbs(current: int, total: int, k: nat)
    requires total > 1 && 0 <= current && current + k < total
    ensures Iterate(current, total, k) == current + k
  {
    if k > 0 {
      IterateClimbs(current, total, k - 1);
    }
  }

  /** Pressing alt+A as many times as there are tracks comes back to the
      track it started from. */
  lemma FullCycle(current: int, total: int)
    requires total > 1 && 0 <= current < total
    ensures Iterate(current, total, total as nat) == current
  {
    var up := total - 1 - current;
    IterateClimbs(current, total, up);
    IterateAdd(current, total, up, current + 1);
    IterateAdd(total - 1, total, 1, current);
    assert Iterate(total - 1, total, 1) == 0;
    IterateClimbs(0, total, current);
  }

  /** The delete key: every selected position still on the list is
      removed, the rest keep their order, both selections are cleared and no
      snapshot is taken. Selected positions past the end are ignored, but
      still counted in the notification. */
  function DeleteSelection(s: State): (r: (State, KeyOutcome))
    ensures Targets(s.selectedSet, s.selectedIdx) == {} ==> r == (s, Ignored)
    ensures Targets(s.selectedSet, s.selectedIdx) != {} ==>
              && r.0 == s.(segments := Keep(s.segments, Targets(s.selectedSet, s.selectedIdx)),
                           selectedSet := {}, selectedIdx := -1)
              && r.1 == Deleted(|Targets(s.selectedSet, s.selectedIdx)|)
    ensures r.0.history == s.history
    ensures Valid(s) ==> Valid(r.0)
  {
    var targets := Targets(s.selectedSet, s.selectedIdx);
    if targets == {} then (s, Ignored)
    else
      KeepOrdered(s.segments, targets);
      assert Within(s.segments, s.durationMs) ==> Within(Keep(s.segments, targets), s.durationMs) by {
        if Within(s.segments, s.durationMs) {
          KeepWithin(s.segments, targets, s.durationMs);
        }
      }
      (s.(segments := Keep(s.segments, targets), selectedSet := {}, selectedIdx := -1), Deleted(|targets|))
  }

  /** Alt+A: the next audio track, announced by its label, when there is
      more than one track. */
  function CycleTrack(s: State): (r: (State, KeyOutcome))
    ensures r.0 == s.(currentTrack := NextTrack(s.currentTrack, s.totalTracks))
    ensures s.totalTracks > 1 ==> r.1 == TrackChanged(TrackLabel(r.0.currentTrack))
    ensures s.totalTracks <= 1 ==> r == (s, Ignored)
  {
    var next := NextTrack(s.currentTrack, s.totalTracks);
    (s.(currentTrack := next), if s.totalTracks > 1 then TrackChanged(TrackLabel(next)) else Ignored)
  }

  /** The keys that move the playhead. */
  predicate IsStepKey(key: Key) {
    key == KeyQ || key == Key0 || key == KeyW || key == KeyLeft || key == KeyRight
  }

  /** Q/0, W, Left and Right: the playhead steps back (floored at zero) or
      forward (capped at the duration). */
  function StepKey(s: State, key: Key): (r: (State, KeyOutcome))
    requires IsStepKey(key)
    ensures r.0 == s.(playheadMs := r.0.playheadMs)
    ensures r.1 == if key == KeyQ || key == Key0 then Replay else PlayheadMoved
    ensures key == KeyQ || key == Key0 ==> r.0.playheadMs == Max(0, s.playheadMs - LongStepMs)
    ensures key == KeyW ==> r.0.playheadMs == Min(s.durationMs, s.playheadMs + LongStepMs)
    ensures key == KeyLeft ==> r.0.playheadMs == Max(0, s.playheadMs - ShortStepMs)
    ensures key == KeyRight ==> r.0.playheadMs == Min(s.durationMs, s.playheadMs + ShortStepMs)
  {
    match key
    case KeyW => (s.(playheadMs := StepForward(s.playheadMs, LongStepMs, s.durationMs)), PlayheadMoved)
    case KeyLeft => (s.(playheadMs := StepBack(s.playheadMs, ShortStepMs)), PlayheadMoved)
    case KeyRight => (s.(playheadMs := StepForward(s.playheadMs, ShortStepMs, s.durationMs)), PlayheadMoved)
    case _ => (s.(playheadMs := StepBack(s.playheadMs, LongStepMs)), Replay)
  }

  /** `keyPressEvent`. The branches are tried in the source's order, so for
      instance ctrl+Z undoes before any other ctrl binding is considered,
      and the S key splits whatever modifiers are held. */
  function KeyPress(s: State, key: Key, mods: Modifiers): (r: (State, KeyOutcome))
    ensures IsStepKey(key) ==> r == StepKey(s, key)
    ensures key == KeyZ && mods.ctrl ==> r == if mods.shift then (RedoEdit(s), Redone) else (UndoEdit(s), Undone)
    ensures (key == KeyG || key == KeyC) && mods.ctrl ==> r == (s, ExportRequested(ExportShortcut(key, mods).value))
    ensures key == KeySpace ==> r == (s, PlaybackToggled)
    ensures key == KeyS ==> r == (SplitAtPlayhead(SaveState(s)), SplitRequested)
    ensures key == KeyDelete || key == KeyBackspace ==> r == DeleteSelection(s)
    ensures key == KeyA && mods.alt ==> r == CycleTrack(s)
    ensures key.OtherKey? || (key == KeyA && !mods.alt) || ((key == KeyZ || key == KeyG || key == KeyC) && !mods.ctrl) ==> r == (s, PassedOn)
  {
    if IsStepKey(key) then StepKey(s, key)
    else if mods.ctrl && !mods.shift && key == KeyZ then (UndoEdit(s), Undone)
    else if mods.ctrl && mods.shift && key == KeyZ then (RedoEdit(s), Redone)
    else if ExportShortcut(key, mods).Some? then (s, ExportRequested(ExportShortcut(key, mods).value))
    else if key == KeySpace then (s, PlaybackToggled)
    else if key == KeyS then (SplitAtPlayhead(SaveState(s)), SplitRequested)
    else if key == KeyDelete || key == KeyBackspace then DeleteSelection(s)
    else if mods.alt && key == KeyA then CycleTrack(s)
    else (s, PassedOn)
  }

  /** No shortcut breaks the editing invariants. */
  lemma KeyPressKeepsValid(s: State, key: Key, mods: Modifiers)
    requires Valid(s)
    ensures Valid(KeyPress(s, key, mods).0)
  {
    var r := KeyPress(s, key, mods);
    if IsStepKey(key) {
      assert r.0.segments == s.segments && r.0.history == s.history;
    } else if key == KeyZ && mods.ctrl {
    } else if key == KeyS {
      assert Valid(SaveState(s));
    } else if key == KeyDelete || key == KeyBackspace {
    } else {
      assert r.0.segments == s.segments && r.0.history == s.history && r.0.durationMs == s.durationMs;
    }
  }

  /** The S key snapshots before trying to split, so the redo branch is gone
      even when the playhead is too close to every boundary to split. */
  lemma SplitKeyClearsRedo(s: State)
    ensures KeyPress(s, KeyS, Modifiers(false, false, false)).0.history.redo == []
  {
  }

  /** After a split with the S key the history holds the pre-split list
      twice: the first undo restores it, and so does the second. */
  lemma SplitKeySnapshotsTwice(s: State)
    requires SplitIndex(s.segments, s.playheadMs).Some?
    ensures var split := KeyPress(s, KeyS, Modifiers(false, false, false)).0;
            var once := UndoEdit(split);
            && once.segments == s.segments
            && UndoEdit(once).segments == s.segments
  {
    var saved := SaveState(s);
    var split := SplitAtPlayhead(saved);
    assert KeyPress(s, KeyS, Modifiers(false, false, false)).0 == split;
    assert saved.history == Save(s.history, s.segments);
    assert split.history == Save(saved.history, s.segments);
    SaveTwice(s.history, s.segments);
    UndoTwiceRestores(split, s.segments);
  }

  /** Two undos from a history whose top two snapshots hold `c` both
      restore `c`. */
  lemma UndoTwiceRestores(t: State, c: seq<Segment>)
    requires var u := t.history.undo;
             |u| >= 2 && u[|u| - 1] == TimelineState(c) && u[|u| - 2] == TimelineState(c)
    ensures UndoEdit(t).segments == c && UndoEdit(UndoEdit(t)).segments == c
  {
    var u := t.history.undo;
    var once := UndoEdit(t);
    assert once.history.undo == u[..|u| - 1];
  }

  /** Deleting the selection takes no snapshot: a following undo goes back
      past the deletion to whatever the last snapshot held. */
  lemma DeleteKeyKeepsHistory(s: State)
    requires Targets(s.selectedSet, s.selectedIdx) != {}
    ensures KeyPress(s, KeyDelete, Modifiers(false, false, false)).0.history == s.history
  {
  }

  /** Ctrl+Z then ctrl+shift+Z restores the list when there was something
      to undo. */
  lemma UndoThenRedoKeys(s: State)
    requires |s.history.undo| > 0
    ensures var undone := KeyPress(s, KeyZ, Modifiers(false, true, false)).0;
            var redone := KeyPress(undone, KeyZ, Modifiers(true, true, false)).0;
            redone.segments == s.segments && redone.history == s.history
  {
    UndoRedoInverse(s.history, s.segments);
  }
}

=== FILE: mainwindow.dfy ===
/** The main window's glue between the player, the timeline and the crop
    preview: the export-name sanitiser, the playback position handler that
    keeps playback inside the edit, the duration forwarding guard and the
    reset-crop button. */
module MainWindow {
  import opened Common
  import opened Text
  import opened Segments
  import opened Timeline
  import opened Editor
  import opened MediaLoader
  import opened Regions

  // ------------------------------------------------------------ export name

  /** The custom export name typed by the user: trimmed, with every space
      turned into `_`. */
  function Sanitize(text: string): (r: string)
    ensures ' ' !in r
    ensures |r| > 0 ==> !IsSpace(r[0]) && !IsSpace(r[|r| - 1])
    ensures exists i, j :: TrimmedSlice(text, i, j) && r == ReplaceChar(text[i..j], ' ', '_')
  {
    TrimBounds(text);
    var i := TrimStart(text);
    var j := TrimEnd(text);
    var r := ReplaceChar(text[i..j], ' ', '_');
    assert ' ' !in r by {
      forall k | 0 <= k < |r| ensures r[k] != ' ' { }
    }
    r
  }

  /** A name with no surrounding whitespace is its own trim. */
  lemma TrimClean(s: string)
    requires |s| > 0 ==> !IsSpace(s[0]) && !IsSpace(s[|s| - 1])
    ensures Trim(s) == s
  {
    if |s| > 0 {
      TrimAround("", s, "");
      assert "" + s + "" == s;
    }
  }

  /** Trimming strips exactly the whitespace around a core that neither
      starts nor ends with whitespace. */
  lemma TrimAround(pre: string, core: string, post: string)
    requires forall k :: 0 <= k < |pre| ==> IsSpace(pre[k])
    requires forall k :: 0 <= k < |post| ==> IsSpace(post[k])
    requires |core| > 0 && !IsSpace(core[0]) && !IsSpace(core[|core| - 1])
    ensures Trim(pre + core + post) == core
  {
    var s := pre + core + post;
    var i := |pre|;
    forall k | 0 <= k < i
      ensures IsSpace(s[k])
    {
      assert s[k] == pre[k];
    }
    assert s[i] == core[0];
    LeadingSpaceIs(s, i);
    var rest := s[i..];
    assert rest == core + post;
    var n := |post|;
    forall k | |rest| - n <= k < |rest|
      ensures IsSpace(rest[k])
    {
      assert rest[k] == post[k - |core|];
    }
    assert rest[|rest| - n - 1] == core[|core| - 1];
    TrailingSpaceIs(rest, n);
    assert s[i..|s| - n] == core;
  }

  lemma LeadingSpaceIs(s: string, n: nat)
    requires n < |s| && !IsSpace(s[n])
    requires forall k :: 0 <= k < n ==> IsSpace(s[k])
    ensures LeadingSpace(s) == n
  {
  }

  lemma TrailingSpaceIs(s: string, n: nat)
    requires n < |s| && !IsSpace(s[|s| - n - 1])
    requires forall k :: |s| - n <= k < |s| ==> IsSpace(s[k])
    ensures TrailingSpace(s) == n
  {
  }

  /** Replacing a character that does not occur changes nothing. */
  lemma ReplaceAbsent(s: string, from: char, to: char)
    requires from !in s
    ensures ReplaceChar(s, from, to) == s
  {
    var r := ReplaceChar(s, from, to);
    forall k | 0 <= k < |s|
      ensures r[k] == s[k]
    {
      assert s[k] != from;
    }
  }

  /** Sanitising an already sanitised name changes nothing, so retyping the
      shown name keeps it. */
  lemma SanitizeIdempotent(text: string)
    ensures Sanitize(Sanitize(text)) == Sanitize(text)
  {
    var s := Sanitize(text);
    TrimClean(s);
    ReplaceAbsent(s, ' ', '_');
    assert Sanitize(s) == ReplaceChar(Trim(s), ' ', '_');
  }

  /** Inner words survive with `_` between them. */
  lemma SanitizeExample()
    ensures Sanitize("  my clip ") == "my_clip"
  {
    TrimExample();
    ReplaceExample();
  }

  lemma TrimExample()
    ensures Trim("  my clip ") == "my clip"
  {
    var core := "my clip";
    assert "  my clip " == "  " + core + " ";
    assert !IsSpace(core[0]) && !IsSpace(core[|core| - 1]);
    TrimAround("  ", core, " ");
  }

  lemma ReplaceExample()
    ensures ReplaceChar("my clip", ' ', '_') == "my_clip"
  {
    var r := ReplaceChar("my clip", ' ', '_');
    assert r[0] == 'm' && r[1] == 'y' && r[2] == '_' && r[3] == 'c';
    assert r[4] == 'l' && r[5] == 'i' && r[6] == 'p';
  }

  // --------------------------------------------------------------- playback

  /** `positionChanged` while the player runs or not: the timeline takes the
      reported position; when playing, the playhead is validated into a
      segment and the player is sent to where it should be. The second
      component is the position the player is finally told to seek to, if
      any. */
  function PositionChanged(s: State, pos: int, playing: bool): (r: (State, Option<int>))
    ensures r.0 == s.(playheadMs := r.0.playheadMs)
    ensures !playing ==> r.0.playheadMs == pos && r.1 == None
    ensures playing ==> r.0 == ValidatePlayheadPosition(s.(playheadMs := pos))
    ensures playing && r.0.playheadMs >= EndLimit(s.segments, s.durationMs) ==>
              r.1 == Some(StartLimit(s.segments))
    ensures playing && r.0.playheadMs < EndLimit(s.segments, s.durationMs) ==>
              r.1 == (if r.0.playheadMs != pos then Some(r.0.playheadMs) else None)
  {
    var at := s.(playheadMs := pos);
    if !playing then (at, None)
    else
      var v := ValidatePlayheadPosition(at);
      var seek := if v.playheadMs != pos then Some(v.playheadMs) else None;
      var seek' := if v.playheadMs >= EndLimit(v.segments, v.durationMs) then Some(StartLimit(v.segments)) else seek;
      (v, seek')
  }

  /** Where the player is after the handler: the seek target, or the
      reported position when there is none. */
  function PlayerAt(pos: int, seek: Option<int>): int {
    if seek.Some? then seek.value else pos
  }

  /** On an ordered, non-empty timeline playback never leaves the edit:
      after the handler the player and the playhead agree, at a position
      inside some segment, and so below the end limit. */
  lemma PlaybackStaysInSegments(s: State, pos: int)
    requires Ordered(s.segments) && |s.segments| > 0
    ensures var r := PositionChanged(s, pos, true);
            && PlayerAt(pos, r.1) == r.0.playheadMs
            && (exists i :: 0 <= i < |s.segments| && Inside(s.segments[i], r.0.playheadMs))
            && StartLimit(s.segments) <= r.0.playheadMs < EndLimit(s.segments, s.durationMs)
  {
    var r := PositionChanged(s, pos, true);
    var i :| 0 <= i < |s.segments| && Inside(s.segments[i], r.0.playheadMs);
    LimitsEnclose(s.segments, s.durationMs, i);
  }

  /** With no segments the position is left alone, and reaching the media's
      end sends the player back to the beginning. */
  lemma PlaybackWrapsWithoutSegments(s: State, pos: int)
    requires s.segments == [] && pos >= s.durationMs
    ensures PositionChanged(s, pos, true) == (s.(playheadMs := pos), Some(0))
  {
  }

  // --------------------------------------------------------------- duration

  /** `durationChanged`: only a positive duration reaches the timeline. */
  function DurationChanged(s: State, d: int): (r: State)
    ensures d <= 0 ==> r == s
    ensures d > 0 ==> r == SetDuration(s, d)
    ensures r.durationMs == s.durationMs || r.durationMs > 0
  {
    if d > 0 then SetDuration(s, d) else s
  }

  /** Feeds a sequence of reported durations to the handler. */
  function Durations(s: State, ds: seq<int>): State
    decreases |ds|
  {
    if |ds| == 0 then s else Durations(DurationChanged(s, ds[0]), ds[1..])
  }

  /** Whatever the player reports, the timeline's duration is its starting
      value or the last positive duration reported. */
  lemma {:induction false} DurationsKeepLastPositive(s: State, ds: seq<int>)
    ensures var r := Durations(s, ds);
            || (r.durationMs == s.durationMs && forall k :: 0 <= k < |ds| ==> ds[k] <= 0)
            || (exists k :: 0 <= k < |ds| && ds[k] > 0 && r.durationMs == ds[k]
                  && forall m :: k < m < |ds| ==> ds[m] <= 0)
    decreases |ds|
  {
    if |ds| > 0 {
      var next := DurationChanged(s, ds[0]);
      DurationsKeepLastPositive(next, ds[1..]);
      var r := Durations(next, ds[1..]);
      assert r == Durations(s, ds);
      if r.durationMs == next.durationMs && forall k :: 0 <= k < |ds[1..]| ==> ds[1..][k] <= 0 {
        if ds[0] > 0 {
          assert r.durationMs == ds[0];
          assert forall m :: 0 < m < |ds| ==> ds[m] == ds[1..][m - 1];
        } else {
          assert forall k :: 0 <= k < |ds| ==> k == 0 || ds[k] == ds[1..][k - 1];
        }
      } else {
        var k :| 0 <= k < |ds[1..]| && ds[1..][k] > 0 && r.durationMs == ds[1..][k]
                  && forall m :: k < m < |ds[1..]| ==> ds[1..][m] <= 0;
        assert ds[k + 1] == ds[1..][k];
        assert forall m :: k + 1 < m < |ds| ==> ds[m] == ds[1..][m - 1];
      }
    }
  }

  // ------------------------------------------------------------- reset crop

  /** The reset button: the preview's crop goes back to its initial
      rectangle and the timeline's top and bottom follow it; the timeline's
      left and right are not touched. */
  function ResetCrop(preview: RegionEditor, timeline: State): (r: (RegionEditor, State))
    ensures r.0 == preview.(crop := Regions.Initial().crop)
    ensures r.1 == timeline.(crop := r.1.crop)
    ensures r.1.crop.left == timeline.crop.left && r.1.crop.right == timeline.crop.right
    ensures r.1.crop.top == r.0.crop.top && r.1.crop.bottom == r.0.crop.bottom
  {
    (preview.(crop := Rect(0.0, 0.03, 1.0, 0.96)),
     timeline.(crop := timeline.crop.(top := 0.03, bottom := 0.96)))
  }

  /** Pressing reset twice is the same as pressing it once. */
  lemma ResetCropIdempotent(preview: RegionEditor, timeline: State)
    ensures var r := ResetCrop(preview, timeline);
            ResetCrop(r.0, r.1) == r
  {
  }
}

=== FILE: medialoader.dfy ===
/** Loading a media file into the editor (`setMediaSource`, `setDuration`)
    and the thumbnail cache fed by the frame grabber (`processVideoFrame`).
    The file size and the probe's output are inputs: the file system and the
    probe process are outside the model. */
module MediaLoader {
  import opened Common
  import opened Segments
  import opened History
  import opened Editor
  import opened Audio

  /** The placeholder segment a freshly loaded file starts with, until the
      real duration is known. */
  const PlaceholderMs: int := 1000

  /** `setMediaSource`: forgets the previous file's thumbnails and history,
      resets view and playhead, records the file size, re-counts the audio
      tracks and starts from one placeholder segment. The multi-selection is
      not cleared, and neither is the media duration. */
  function SetMediaSource(s: State, path: string, fileSize: int, probeOutput: string): (r: State)
    ensures r.segments == [NewSegment(0, PlaceholderMs)]
    ensures r.history == Empty && r.thumbnails == map[]
    ensures r.zoom == 1.0 && r.scroll == 0 && r.selectedIdx == -1 && r.playheadMs == 0 && !r.exporting
    ensures r.sourcePath == path && r.fileSize == fileSize
    ensures r.totalTracks == TrackCount(probeOutput) && r.totalTracks >= 1 && r.currentTrack == 0
    ensures r.selectedSet == s.selectedSet && r.durationMs == s.durationMs && r.crop == s.crop
    ensures s.durationMs >= PlaceholderMs ==> Valid(r)
  {
    var cleared := s.(sourcePath := path, thumbnails := map[], history := Empty,
                      zoom := 1.0, scroll := 0, selectedIdx := -1, playheadMs := 0,
                      exporting := false, fileSize := fileSize,
                      segments := [NewSegment(0, PlaceholderMs)]);
    DetectAudioTracks(cleared, probeOutput)
  }

  /** `setDuration`: records the media duration and resets the view; the
      first segment is stretched to the full duration, or created when the
      list is empty. Later segments are left as they are. */
  function SetDuration(s: State, durationMs: int): (r: State)
    ensures r.durationMs == durationMs && r.zoom == 1.0 && r.scroll == 0
    ensures |s.segments| == 0 ==> r.segments == [NewSegment(0, durationMs)]
    ensures |s.segments| > 0 ==>
              && |r.segments| == |s.segments|
              && r.segments[0] == s.segments[0].(endMs := durationMs)
              && r.segments[1..] == s.segments[1..]
    ensures r == s.(durationMs := durationMs, zoom := 1.0, scroll := 0, segments := r.segments)
  {
    var segs := if |s.segments| == 0 then [NewSegment(0, durationMs)]
                else [s.segments[0].(endMs := durationMs)] + s.segments[1..];
    s.(durationMs := durationMs, zoom := 1.0, scroll := 0, segments := segs)
  }

  /** Loading a file and then learning its duration leaves exactly one
      segment spanning the whole media, an empty history, and a valid
      editor. */
  lemma LoadThenDuration(s: State, path: string, fileSize: int, probeOutput: string, durationMs: int)
    requires durationMs > 0
    ensures var r := SetDuration(SetMediaSource(s, path, fileSize, probeOutput), durationMs);
            && r.segments == [NewSegment(0, durationMs)]
            && TotalMs(r.segments) == durationMs
            && r.history == Empty
            && Valid(r)
  {
    var r := SetDuration(SetMediaSource(s, path, fileSize, probeOutput), durationMs);
    assert r.segments == [NewSegment(0, durationMs)];
    assert TotalMs(r.segments[1..]) == 0;
  }

  /** A duration shorter than the placeholder of an already edited list can
      leave the second segment past the new end: `setDuration` alone does
      not keep the list ordered. */
  lemma SetDurationCanBreakOrder()
    ensures var s := Initial().(segments := [NewSegment(0, 500), NewSegment(600, 900)]);
            Ordered(s.segments) && !Ordered(SetDuration(s, 700).segments)
  {
    var s := Initial().(segments := [NewSegment(0, 500), NewSegment(600, 900)]);
    var r := SetDuration(s, 700);
    assert r.segments[0].endMs == 700 && r.segments[1].startMs == 600;
  }

  /** `processVideoFrame`: a valid frame is cached under the whole second of
      the grabber's position (rounded toward zero), unless that second
      already has a thumbnail. */
  function CacheFrame(cache: map<int, Image>, frameValid: bool, positionMs: int, frame: Image): (r: map<int, Image>)
    ensures !frameValid ==> r == cache
    ensures var sec := TruncDiv(positionMs, 1000);
            && (sec in cache ==> r == cache)
            && (frameValid && sec !in cache ==> r == cache[sec := frame])
    ensures cache.Keys <= r.Keys
    ensures forall k :: k in cache ==> r[k] == cache[k]
  {
    var sec := TruncDiv(positionMs, 1000);
    if frameValid && sec !in cache then cache[sec := frame] else cache
  }

  /** A cached thumbnail is never replaced: caching any further frames
      leaves every existing entry as it was. */
  lemma {:induction false} CacheKeepsFirst(cache: map<int, Image>, frames: seq<(bool, int, Image)>, sec: int)
    requires sec in cache
    ensures sec in CacheAll(cache, frames) && CacheAll(cache, frames)[sec] == cache[sec]
    decreases |frames|
  {
    if |frames| > 0 {
      var next := CacheFrame(cache, frames[0].0, frames[0].1, frames[0].2);
      CacheKeepsFirst(next, frames[1..], sec);
    }
  }

  /** Feeds a run of grabbed frames through the cache in order. */
  function CacheAll(cache: map<int, Image>, frames: seq<(bool, int, Image)>): map<int, Image>
    decreases |frames|
  {
    if |frames| == 0 then cache
    else CacheAll(CacheFrame(cache, frames[0].0, frames[0].1, frames[0].2), frames[1..])
  }

  /** Frames anywhere in the same second share one thumbnail slot, also at
      negative positions, where the truncating division keeps -0.5 s in
      second 0. */
  lemma CacheSecondExample(cache: map<int, Image>, a: Image, b: Image)
    requires 0 !in cache
    ensures CacheFrame(CacheFrame(cache, true, 999, a), true, -500, b) == cache[0 := a]
  {
  }
}

=== FILE: mouse.dfy ===
/** The timeline's pointer handling (`mousePressEvent`, `mouseMoveEvent`,
    `mouseReleaseEvent`): hit-testing, click and ctrl-click selection,
    rubber-band selection, edge grabbing and dragging, and the snapshot a
    finished drag takes. Positions arrive already converted: the pointer's
    media time in ms and its position in content pixels, and every
    segment's edges in content pixels. */
module Mouse {
  import opened Common
  import opened Segments
  import opened History
  import opened Timeline
  import opened Editor

  datatype Button = NoButton | LeftButton | RightButton | MiddleButton

  /** A segment's two edges on screen, in content pixels. */
  datatype EdgePx = EdgePx(startPx: int, endPx: int)

  /** How close, in pixels, the pointer must be to grab an edge. */
  const GrabTolerancePx: int := 12

  predicate Near(x: int, edgePx: int) {
    Abs(x - edgePx) < GrabTolerancePx
  }

  predicate NearEither(x: int, e: EdgePx) {
    Near(x, e.startPx) || Near(x, e.endPx)
  }

  /** The edge a press grabs: the first segment with either edge in reach;
      at that segment the start edge is tried before the end edge. */
  function GrabEdge(edges: seq<EdgePx>, x: int): (r: Option<(nat, Edge)>)
    ensures r.Some? ==> r.value.0 < |edges| && r.value.1 != NoEdge
    ensures r.Some? && r.value.1 == StartEdge ==> Near(x, edges[r.value.0].startPx)
    ensures r.Some? && r.value.1 == EndEdge ==>
              !Near(x, edges[r.value.0].startPx) && Near(x, edges[r.value.0].endPx)
    ensures r.Some? ==> forall j :: 0 <= j < r.value.0 ==> !NearEither(x, edges[j])
    ensures r.None? <==> forall j :: 0 <= j < |edges| ==> !NearEither(x, edges[j])
  {
    match FindFirst(edges, (e: EdgePx) => NearEither(x, e))
    case None => None
    case Some(i) => Some((i, if Near(x, edges[i].startPx) then StartEdge else EndEdge))
  }

  /** The selection after a press that grabbed no edge: a ctrl-click
      toggles the hit segment in the multi-selection and drops the single
      selection; a plain click makes it the single selection and empties
      the multi-selection; a miss clears both. */
  function ClickSelect(s: State, hit: Option<nat>, ctrl: bool): (r: State)
    ensures r == s.(selectedIdx := r.selectedIdx, selectedSet := r.selectedSet)
    ensures hit.None? ==> r.selectedIdx == -1 && r.selectedSet == {}
    ensures hit.Some? && ctrl ==>
              && r.selectedIdx == -1
              && (forall k :: k in r.selectedSet <==> (k in s.selectedSet) != (k == hit.value))
    ensures hit.Some? && !ctrl ==> r.selectedIdx == hit.value && r.selectedSet == {}
  {
    match hit
    case None => s.(selectedIdx := -1, selectedSet := {})
    case Some(i) =>
      if ctrl then
        s.(selectedSet := if i in s.selectedSet then s.selectedSet - {i} else s.selectedSet + {i},
           selectedIdx := -1)
      else s.(selectedSet := {}, selectedIdx := i)
  }

  /** An edge grab names a segment on the list. */
  predicate GrabOnList(s: State) {
    s.activeEdge != NoEdge ==> 0 <= s.activeIdx < |s.segments|
  }

  /** `mousePressEvent`. Without media or segments nothing happens.
      Otherwise any grab and scrub ends first; then a right press starts a
      rubber band remembering the current selection, a shift-left press
      past the sidebar moves the playhead, a press near an edge grabs it
      and selects its segment, and any other press selects by hit-test. */
  function Press(s: State, button: Button, mods: Modifiers, clickMs: int, x: int, pastSidebar: bool, edges: seq<EdgePx>): (r: State)
    requires |edges| == |s.segments|
    ensures s.durationMs <= 0 || |s.segments| == 0 ==> r == s
    ensures r.segments == s.segments && r.history == s.history && r.durationMs == s.durationMs
    ensures GrabOnList(s) ==> GrabOnList(r)
    ensures s.durationMs > 0 && |s.segments| > 0 ==> GrabOnList(r) && !r.scrubbing
    ensures s.durationMs > 0 && |s.segments| > 0 && button == RightButton ==>
              r == s.(selecting := true, preSelect := Targets(s.selectedSet, s.selectedIdx),
                      activeEdge := NoEdge, activeIdx := -1, scrubbing := false)
    ensures s.durationMs > 0 && |s.segments| > 0 && button != RightButton && mods.shift && button == LeftButton && pastSidebar ==>
              && r.playheadMs == Bound(0, clickMs, s.durationMs) && 0 <= r.playheadMs <= s.durationMs
              && r.selectedIdx == s.selectedIdx && r.selectedSet == s.selectedSet
              && r.activeEdge == NoEdge
    ensures s.durationMs > 0 && |s.segments| > 0 && r.activeEdge != NoEdge ==>
              r.selectedIdx == r.activeIdx && GrabEdge(edges, x) == Some((r.activeIdx as nat, r.activeEdge))
    ensures s.durationMs > 0 && |s.segments| > 0 && button != RightButton
            && !(mods.shift && button == LeftButton && pastSidebar) && GrabEdge(edges, x).Some? ==>
              var grab := GrabEdge(edges, x).value;
              && r.activeEdge == grab.1 && r.activeIdx == grab.0 && r.selectedIdx == grab.0
              && r.selectedSet == s.selectedSet && r.playheadMs == s.playheadMs && r.selecting == s.selecting
    ensures s.durationMs > 0 && |s.segments| > 0 && button != RightButton
            && !(mods.shift && button == LeftButton && pastSidebar) && GrabEdge(edges, x).None? ==>
              r == ClickSelect(s.(activeEdge := NoEdge, activeIdx := -1, scrubbing := false),
                               HitTest(s.segments, clickMs), mods.ctrl)
  {
    if s.durationMs <= 0 || |s.segments| == 0 then s
    else
      var released := s.(activeEdge := NoEdge, activeIdx := -1, scrubbing := false);
      if button == RightButton then
        released.(selecting := true, preSelect := Targets(s.selectedSet, s.selectedIdx))
      else if mods.shift && button == LeftButton && pastSidebar then
        released.(playheadMs := Bound(0, clickMs, s.durationMs))
      else
        match GrabEdge(edges, x)
        case Some(grab) => released.(activeEdge := grab.1, activeIdx := grab.0, selectedIdx := grab.0)
        case None => ClickSelect(released, HitTest(s.segments, clickMs), mods.ctrl)
  }

  /** A plain left click inside a segment, away from every edge, selects
      the first segment containing the click time. */
  lemma PlainClickSelects(s: State, clickMs: int, x: int, edges: seq<EdgePx>)
    requires |edges| == |s.segments| && s.durationMs > 0
    requires GrabEdge(edges, x).None?
    requires exists j :: 0 <= j < |s.segments| && s.segments[j].startMs <= clickMs <= s.segments[j].endMs
    ensures var r := Press(s, LeftButton, Modifiers(false, false, false), clickMs, x, true, edges);
            && 0 <= r.selectedIdx < |r.segments|
            && r.segments[r.selectedIdx].startMs <= clickMs <= r.segments[r.selectedIdx].endMs
            && (forall j :: 0 <= j < r.selectedIdx ==> !(r.segments[j].startMs <= clickMs <= r.segments[j].endMs))
            && r.selectedSet == {}
  {
  }

  /** Two ctrl-clicks on the same spot leave the multi-selection as it
      was: the toggle is its own inverse. */
  lemma CtrlClickTwice(s: State, clickMs: int, x: int, edges: seq<EdgePx>)
    requires |edges| == |s.segments| && s.durationMs > 0 && |s.segments| > 0
    requires GrabEdge(edges, x).None? && HitTest(s.segments, clickMs).Some?
    ensures var ctrl := Modifiers(false, true, false);
            var once := Press(s, LeftButton, ctrl, clickMs, x, true, edges);
            Press(once, LeftButton, ctrl, clickMs, x, true, edges).selectedSet == s.selectedSet
  {
    var ctrl := Modifiers(false, true, false);
    var once := Press(s, LeftButton, ctrl, clickMs, x, true, edges);
    var twice := Press(once, LeftButton, ctrl, clickMs, x, true, edges);
    assert forall k :: k in twice.selectedSet <==> k in s.selectedSet;
  }

  // ---------------------------------------------------------- rubber band

  /** The segments whose on-screen extent meets the band strictly. */
  function Overlapping(edges: seq<EdgePx>, selStart: int, selEnd: int): (r: set<int>)
    ensures forall i :: i in r <==> 0 <= i < |edges| && edges[i].endPx > selStart && edges[i].startPx < selEnd
  {
    set i | 0 <= i < |edges| && edges[i].endPx > selStart && edges[i].startPx < selEnd
  }

  /** The members of exactly one of the two sets. */
  function SymDiff(a: set<int>, b: set<int>): (r: set<int>)
    ensures forall k :: k in r <==> (k in a) != (k in b)
  {
    (a - b) + (b - a)
  }

  /** The band loop over the segments, as written: each overlapping segment
      is added, or with ctrl toggled against the remembered selection. */
  function BandLoop(edges: seq<EdgePx>, selStart: int, selEnd: int, ctrl: bool, pre: set<int>, i: nat, batch: set<int>): set<int>
    requires i <= |edges|
    decreases |edges| - i
  {
    if i == |edges| then batch
    else
      var hit := edges[i].endPx > selStart && edges[i].startPx < selEnd;
      var next := if !hit then batch
                  else if ctrl && i in pre then batch - {i}
                  else batch + {i};
      BandLoop(edges, selStart, selEnd, ctrl, pre, i + 1, next)
  }

  /** The overlapping segments before position `i`. */
  function OverlappingBelow(edges: seq<EdgePx>, selStart: int, selEnd: int, i: nat): set<int>
    requires i <= |edges|
  {
    set k | 0 <= k < i && edges[k].endPx > selStart && edges[k].startPx < selEnd
  }

  function BandSoFar(edges: seq<EdgePx>, selStart: int, selEnd: int, ctrl: bool, pre: set<int>, i: nat): set<int>
    requires i <= |edges|
  {
    if ctrl then SymDiff(pre, OverlappingBelow(edges, selStart, selEnd, i))
    else OverlappingBelow(edges, selStart, selEnd, i)
  }

  lemma {:induction false} BandLoopMeaning(edges: seq<EdgePx>, selStart: int, selEnd: int, ctrl: bool, pre: set<int>, i: nat)
    requires i <= |edges|
    ensures BandLoop(edges, selStart, selEnd, ctrl, pre, i, BandSoFar(edges, selStart, selEnd, ctrl, pre, i))
         == BandSoFar(edges, selStart, selEnd, ctrl, pre, |edges|)
    decreases |edges| - i
  {
    if i < |edges| {
      var batch := BandSoFar(edges, selStart, selEnd, ctrl, pre, i);
      var hit := edges[i].endPx > selStart && edges[i].startPx < selEnd;
      var next := if !hit then batch
                  else if ctrl && i in pre then batch - {i}
                  else batch + {i};
      var below := OverlappingBelow(edges, selStart, selEnd, i);
      var below' := OverlappingBelow(edges, selStart, selEnd, i + 1);
      assert i !in below;
      if hit {
        assert below' == below + {i};
      } else {
        assert below' == below;
      }
      assert next == BandSoFar(edges, selStart, selEnd, ctrl, pre, i + 1);
      BandLoopMeaning(edges, selStart, selEnd, ctrl, pre, i + 1);
    }
  }

  /** The rubber-band selection: without ctrl exactly the overlapping
      segments; with ctrl the remembered selection with the overlapping
      segments toggled. */
  function RubberBand(edges: seq<EdgePx>, selStart: int, selEnd: int, ctrl: bool, pre: set<int>): (r: set<int>)
    ensures !ctrl ==> r == Overlapping(edges, selStart, selEnd)
    ensures ctrl ==> r == SymDiff(pre, Overlapping(edges, selStart, selEnd))
  {
    assert OverlappingBelow(edges, selStart, selEnd, 0) == {};
    assert OverlappingBelow(edges, selStart, selEnd, |edges|) == Overlapping(edges, selStart, selEnd);
    assert SymDiff(pre, {}) == pre;
    BandLoopMeaning(edges, selStart, selEnd, ctrl, pre, 0);
    BandLoop(edges, selStart, selEnd, ctrl, pre, 0, if ctrl then pre else {})
  }

  // ----------------------------------------------------------------- move

  /** A drag of the active edge that leaves room for the minimum length
      against the neighbour it is clamped to. */
  predicate DragFits(s: State)
    requires GrabOnList(s)
  {
    && (s.activeEdge == StartEdge ==>
          MinStart(s.segments, s.activeIdx) <= s.segments[s.activeIdx].endMs - MinLengthMs)
    && (s.activeEdge == EndEdge ==>
          s.segments[s.activeIdx].startMs + MinLengthMs <= MaxEnd(s.segments, s.activeIdx, s.durationMs))
  }

  /** `mouseMoveEvent`, by priority: an open rubber band reselects; a
      shift-left drag past the sidebar moves the playhead; with no button
      held only the cursor changes; a grabbed edge is dragged; a scrub moves
      the playhead into the timeline. `anchorX` is where the band began. */
  function Move(s: State, held: set<Button>, mods: Modifiers, timeMs: int, pastSidebar: bool,
                anchorX: int, x: int, edges: seq<EdgePx>): (r: State)
    requires GrabOnList(s)
    ensures r.history == s.history && r.durationMs == s.durationMs && |r.segments| == |s.segments|
    ensures s.selecting ==>
              r == s.(selectedSet := RubberBand(edges, Min(anchorX, x), Max(anchorX, x), mods.ctrl, s.preSelect),
                      selectedIdx := -1)
    ensures !s.selecting && mods.shift && LeftButton in held && pastSidebar ==>
              r == s.(playheadMs := Bound(0, timeMs, s.durationMs))
    ensures !s.selecting && !(mods.shift && LeftButton in held && pastSidebar) && held == {} ==> r == s
    ensures !s.selecting && !(mods.shift && LeftButton in held && pastSidebar) && held != {} && s.activeEdge != NoEdge ==>
              r == s.(segments := Drag(s.segments, s.activeIdx, s.activeEdge, timeMs, s.durationMs))
    ensures r.segments != s.segments ==> s.activeEdge != NoEdge && r.segments == Drag(s.segments, s.activeIdx, s.activeEdge, timeMs, s.durationMs)
    ensures Valid(s) && DragFits(s) ==> Valid(r)
  {
    if s.selecting then
      s.(selectedSet := RubberBand(edges, Min(anchorX, x), Max(anchorX, x), mods.ctrl, s.preSelect),
         selectedIdx := -1)
    else if mods.shift && LeftButton in held && pastSidebar then
      s.(playheadMs := Bound(0, timeMs, s.durationMs))
    else if held == {} then s
    else if s.activeEdge != NoEdge && s.activeIdx != -1 then
      var segs := Drag(s.segments, s.activeIdx, s.activeEdge, timeMs, s.durationMs);
      assert Valid(s) && DragFits(s) ==> Ordered(segs) && Within(segs, s.durationMs) by {
        if Valid(s) && DragFits(s) {
          DragKeepsOrdered(s.segments, s.activeIdx, s.activeEdge, timeMs, s.durationMs);
        }
      }
      s.(segments := segs)
    else if s.scrubbing && LeftButton in held then
      s.(playheadMs := ValidatePlayhead(s.segments, Bound(0, timeMs, s.durationMs)))
    else s
  }

  // -------------------------------------------------------------- release

  /** `mouseReleaseEvent`: a finished edge drag is snapshotted (the list as
      it is after the drag); a right release closes the rubber band; the
      grab and scrub end. */
  function Release(s: State, button: Button): (r: State)
    ensures s.activeEdge != NoEdge ==> r.history == SaveState(s).history
    ensures s.activeEdge == NoEdge ==> r.history == s.history
    ensures r.selecting == (s.selecting && button != RightButton)
    ensures r.activeEdge == NoEdge && r.activeIdx == -1 && !r.scrubbing
    ensures r == s.(history := r.history, selecting := r.selecting, activeEdge := NoEdge, activeIdx := -1, scrubbing := false)
  {
    var saved := if s.activeEdge != NoEdge then SaveState(s) else s;
    var closed := if button == RightButton then saved.(selecting := false) else saved;
    closed.(activeEdge := NoEdge, activeIdx := -1, scrubbing := false)
  }

  /** Because the snapshot is taken after the drag, the first undo after a
      drag restores the dragged list itself: the drag is not undone. */
  lemma UndoAfterDragKeepsDrag(s: State, button: Button)
    requires s.activeEdge != NoEdge
    ensures UndoEdit(Release(s, button)).segments == s.segments
  {
  }

  /** A whole drag gesture: grab an edge, drag it, let go. The list changes
      only at the grabbed segment, the grabbed edge lands where the clamp
      puts it, and a valid editor stays valid when the drag fits. */
  lemma DragGesture(s: State, clickMs: int, x: int, edges: seq<EdgePx>, timeMs: int, x2: int)
    requires |edges| == |s.segments| && s.durationMs > 0 && |s.segments| > 0
    requires !s.selecting
    requires GrabEdge(edges, x).Some?
    ensures var pressed := Press(s, LeftButton, Modifiers(false, false, false), clickMs, x, true, edges);
            var moved := Move(pressed, {LeftButton}, Modifiers(false, false, false), timeMs, true, x, x2, edges);
            var r := Release(moved, LeftButton);
            && var i := GrabEdge(edges, x).value.0;
            && r.segments == Drag(s.segments, i, GrabEdge(edges, x).value.1, timeMs, s.durationMs)
            && r.selectedIdx == i
            && r.history == Save(s.history, r.segments)
            && (Valid(s) && DragFits(pressed) ==> Valid(r))
  {
  }
}

=== FILE: paths.dfy ===
/** The parts of a local file path the editor reads through `QFileInfo`:
    the file name, its base name and its suffix. Paths use `/` as the
    separator, as `QUrl::toLocalFile` produces them. */
module Paths {
  import opened Text

  /** `QFileInfo::fileName`: everything after the last `/`. */
  function FileName(path: string): (r: string)
    ensures '/' !in r
    ensures |r| <= |path| && path[|path| - |r|..] == r
    ensures |r| < |path| ==> path[|path| - |r| - 1] == '/'
  {
    path[LastIndexOf(path, '/') + 1..]
  }

  /** `QFileInfo::baseName`: the file name up to its first `.`. */
  function BaseName(path: string): (r: string)
    ensures '.' !in r && '/' !in r
    ensures var name := FileName(path);
            |r| <= |name| && name[..|r|] == r && (|r| < |name| ==> name[|r|] == '.')
  {
    var name := FileName(path);
    var k := IndexOf(name, '.');
    if k == -1 then name else name[..k]
  }

  /** `QFileInfo::suffix`: the file name after its last `.`, empty when it
      has none. */
  function Suffix(path: string): (r: string)
    ensures '.' !in r && '/' !in r
    ensures var name := FileName(path);
            |r| <= |name| && name[|name| - |r|..] == r
    ensures '.' !in FileName(path) ==> r == ""
  {
    var name := FileName(path);
    var k := LastIndexOf(name, '.');
    if k == -1 then "" else name[k + 1..]
  }

  /** Splitting a path built from a directory, a dot-free base name and a
      dot-free extension gives those parts back. */
  lemma PathParts(dir: string, base: string, ext: string)
    requires '/' !in base && '.' !in base && '/' !in ext && '.' !in ext
    ensures FileName(dir + "/" + base + "." + ext) == base + "." + ext
    ensures BaseName(dir + "/" + base + "." + ext) == base
    ensures Suffix(dir + "/" + base + "." + ext) == ext
  {
    var path := dir + "/" + base + "." + ext;
    var name := base + "." + ext;
    assert path == (dir + "/") + name;
    assert path[|dir|] == '/';
    var k := LastIndexOf(path, '/');
    assert k == |dir| by {
      assert '/' !in path[|dir| + 1..] by {
        assert path[|dir| + 1..] == name;
      }
    }
    assert path[k + 1..] == name;
    assert name[|base|] == '.';
    assert IndexOf(name, '.') == |base| by {
      assert name[..|base|] == base;
    }
    assert LastIndexOf(name, '.') == |base| by {
      assert name[|base| + 1..] == ext;
    }
  }

  /** Whatever precedes it, a name ending in `.ext`, for an extension with
      no `.` and no `/`, has suffix `ext`. */
  lemma SuffixOfDotted(stem: string, ext: string)
    requires '/' !in ext && '.' !in ext
    ensures Suffix(stem + "." + ext) == ext
  {
    var path := stem + "." + ext;
    var name := FileName(path);
    DottedName(stem, ext);
    var m := |name| - |ext| - 1;
    SuffixAfterLastDot(path, m);
  }

  /** The suffix is what follows the file name's last `.`. */
  lemma SuffixAfterLastDot(path: string, m: nat)
    requires var name := FileName(path);
             m < |name| && name[m] == '.' && '.' !in name[m + 1..]
    ensures Suffix(path) == FileName(path)[m + 1..]
  {
    var name := FileName(path);
    LastIndexAt(name, '.', m);
    var k := LastIndexOf(name, '.');
    assert k == m;
    assert Suffix(path) == (if k == -1 then "" else name[k + 1..]);
  }

  /** The file name of `stem.ext` ends in `.ext`. */
  lemma DottedName(stem: string, ext: string)
    requires '/' !in ext
    ensures var name := FileName(stem + "." + ext);
            && |name| >= |ext| + 1
            && name[|name| - |ext| - 1] == '.'
            && name[|name| - |ext|..] == ext
  {
    var path := stem + "." + ext;
    var n := |stem|;
    DottedTail(stem, ext);
    LastIndexBefore(path, '/', n);
    var k := LastIndexOf(path, '/');
    var name := path[k + 1..];
    assert FileName(path) == name;
    assert name[n - k - 1] == path[n];
    assert name[n - k..] == path[n + 1..];
  }

  lemma DottedTail(stem: string, ext: string)
    requires '/' !in ext
    ensures var path := stem + "." + ext;
            path[|stem|] == '.' && path[|stem| + 1..] == ext && '/' !in path[|stem|..]
  {
    var path := stem + "." + ext;
    assert path[|stem|..] == "." + ext;
  }

  /** The last `c` is at `i` when `s[i]` is `c` and none follows it. */
  lemma LastIndexAt(s: string, c: char, i: nat)
    requires i < |s| && s[i] == c && c !in s[i + 1..]
    ensures LastIndexOf(s, c) == i
  {
    NoneAfter(s, c, i);
  }

  /** No `c` from `i` on puts the last `c` before `i`. */
  lemma LastIndexBefore(s: string, c: char, i: nat)
    requires i <= |s| && c !in s[i..]
    ensures LastIndexOf(s, c) < i
  {
    NoneAfter(s, c, i - 1);
  }

  /** A `c` not among `s[k + 1..]` occurs at no position after `k`. */
  lemma NoneAfter(s: string, c: char, k: int)
    requires -1 <= k < |s| && c !in s[k + 1..]
    ensures forall j :: k < j < |s| ==> s[j] != c
  {
    forall j | k < j < |s|
      ensures s[j] != c
    {
      assert s[j] == s[k + 1..][j - k - 1];
    }
  }

}

=== FILE: preview.dfy ===
/** The hover preview of a clip: a filmstrip of ten frames side by side,
    of which the frame under the pointer is shown. */
module Preview {
  import opened Common

  /** The number of frames in a filmstrip. */
  const FrameCount: int := 10

  /** A loaded filmstrip image's size in pixels. */
  datatype Strip = Strip(width: nat, height: nat)

  /** A rectangle cut out of the filmstrip. */
  datatype Slice = Slice(x: int, y: int, width: int, height: int)

  datatype Label = Label(
    /** The filmstrip, `None` while it is a null pixmap. */
    strip: Option<Strip>,
    hovered: bool,
    /** The part of the filmstrip on display, if any. */
    shown: Option<Slice>)

  /** The slice holding frame `index`: a tenth of the strip's width, rounded
      down, at `index` such widths from the left, at full height. */
  function SliceOf(strip: Strip, index: int): (r: Slice)
    ensures r.y == 0 && r.height == strip.height
    ensures 0 <= r.width && FrameCount * r.width <= strip.width < FrameCount * (r.width + 1)
    ensures r.x == index * r.width
  {
    var frameWidth := strip.width / FrameCount;
    Slice(index * frameWidth, 0, frameWidth, strip.height)
  }

  /** The slice of an existing frame lies inside the strip. */
  lemma SliceWithin(strip: Strip, index: int)
    requires 0 <= index < FrameCount
    ensures var s := SliceOf(strip, index);
            0 <= s.x && s.x + s.width <= strip.width
  {
    var s := SliceOf(strip, index);
    var w := s.width;
    assert s.x + w == (index + 1) * w;
    assert (index + 1) * w <= FrameCount * w by {
      ScaleLe(index + 1, FrameCount, w);
    }
  }

  lemma ScaleLe(a: int, b: int, w: int)
    requires a <= b && w >= 0
    ensures a * w <= b * w
  {
    assert b * w - a * w == (b - a) * w;
  }

  /** Neighbouring frames' slices meet without overlapping. */
  lemma SlicesTile(strip: Strip, index: int)
    ensures SliceOf(strip, index).x + SliceOf(strip, index).width == SliceOf(strip, index + 1).x
  {
    var w := SliceOf(strip, index).width;
    assert (index + 1) * w == index * w + w;
  }

  /** `updatePreview`: nothing happens without a filmstrip; otherwise the
      slice of frame `index` is shown. */
  function UpdatePreview(l: Label, index: int): (r: Label)
    ensures l.strip.None? ==> r == l
    ensures l.strip.Some? ==> r == l.(shown := Some(SliceOf(l.strip.value, index)))
  {
    match l.strip
    case None => l
    case Some(strip) => l.(shown := Some(SliceOf(strip, index)))
  }

  /** The frame under a pointer at `x` in a label `width` pixels wide: the
      pointer's tenth of the width, clamped to the frames that exist. */
  function FrameIndex(x: int, width: int): (r: int)
    requires width > 0
    ensures 0 <= r < FrameCount
    ensures 0 <= x < width ==> r * width <= x * FrameCount < (r + 1) * width
    ensures x < 0 ==> r == 0
    ensures x >= width ==> r == FrameCount - 1
  {
    var q := TruncDiv(x * FrameCount, width);
    IndexBounds(x, width, q);
    Bound(0, q, FrameCount - 1)
  }

  /** Bounds on the raw quotient: below 0 only left of the label, inside
      the frame range over the label, and at least the last frame right of
      it. */
  lemma IndexBounds(x: int, width: int, q: int)
    requires width > 0 && q == TruncDiv(x * FrameCount, width)
    ensures x < 0 ==> q <= 0
    ensures 0 <= x < width ==> 0 <= q < FrameCount && q * width <= x * FrameCount < (q + 1) * width
    ensures x >= width ==> q >= FrameCount
  {
    var a := x * FrameCount;
    if 0 <= x {
      assert 0 <= a - q * width < width;
      assert (q + 1) * width == q * width + width;
      if x < width {
        assert a < FrameCount * width;
        if q >= FrameCount {
          ScaleLe(FrameCount, q, width);
          assert false;
        }
      } else {
        assert a >= FrameCount * width;
        if q < FrameCount {
          ScaleLe(q + 1, FrameCount, width);
          assert false;
        }
      }
    }
  }

  /** `enterEvent`: the hover starts; the strip and the frame on display
      stay as they were. */
  function Enter(l: Label): (r: Label)
    ensures r.hovered && r.strip == l.strip && r.shown == l.shown
  {
    l.(hovered := true)
  }

  /** `leaveEvent`: the hover ends and the first frame is shown again. */
  function Leave(l: Label): (r: Label)
    ensures !r.hovered && r.strip == l.strip
    ensures l.strip.Some? ==> r.shown == Some(SliceOf(l.strip.value, 0))
    ensures l.strip.None? ==> r.shown == l.shown
  {
    UpdatePreview(l.(hovered := false), 0)
  }

  /** `mouseMoveEvent` with the pointer at `x` in a label `width` pixels
      wide: only a hovered label with a filmstrip changes. */
  function Move(l: Label, x: int, width: int): (r: Label)
    requires width > 0
    ensures !l.hovered || l.strip.None? ==> r == l
    ensures r.strip == l.strip && r.hovered == l.hovered
  {
    if l.hovered && l.strip.Some? then UpdatePreview(l, FrameIndex(x, width)) else l
  }

  /** Moving over a hovered label shows the frame of the pointer's tenth,
      and that slice lies inside the filmstrip. */
  lemma MoveShowsPointedFrame(l: Label, x: int, width: int)
    requires width > 0 && l.hovered && l.strip.Some?
    ensures var r := Move(l, x, width);
            exists i :: && 0 <= i < FrameCount
                        && r.shown == Some(SliceOf(l.strip.value, i))
                        && (0 <= x < width ==> i * width <= x * FrameCount < (i + 1) * width)
    ensures var s := Move(l, x, width).shown.value;
            0 <= s.x && s.x + s.width <= l.strip.value.width
  {
    var i := FrameIndex(x, width);
    SliceWithin(l.strip.value, i);
  }
}

=== FILE: progress.dfy ===
/** The export progress popup (`showProgressNotification`): each chunk of
    ffmpeg's `-progress` output is searched for `out_time_us=<digits>`, and
    the popup's bar is set to the share of the edited duration reached so
    far; when ffmpeg exits the popup closes and the outcome is reported. */
module Progress {
  import opened Common
  import opened Text
  import opened Export

  /** The key the pattern `out_time_us=(\d+)` looks for. */
  const Key: string := "out_time_us="

  /** The largest `qint64`. */
  const MaxInt64: int := 0x7FFF_FFFF_FFFF_FFFF

  /** Whether the pattern matches at position `k`: the key, then at least
      one decimal digit. */
  predicate MatchAt(data: string, k: int) {
    0 <= k && k + |Key| < |data| && data[k..k + |Key|] == Key && IsDigit(data[k + |Key|])
  }

  /** The leftmost match at or after `from`. */
  function FirstMatch(data: string, from: nat): (r: Option<nat>)
    ensures r.Some? ==> from <= r.value && MatchAt(data, r.value)
    ensures r.Some? ==> forall k :: from <= k < r.value ==> !MatchAt(data, k)
    ensures r.None? ==> forall k :: from <= k ==> !MatchAt(data, k)
    decreases |data| - from
  {
    if from + |Key| >= |data| then None
    else if MatchAt(data, from) then Some(from)
    else FirstMatch(data, from + 1)
  }

  /** How many decimal digits `s` starts with: `\d+` takes them all. */
  function DigitRun(s: string): (n: nat)
    ensures n <= |s|
    ensures forall k :: 0 <= k < n ==> IsDigit(s[k])
    ensures n < |s| ==> !IsDigit(s[n])
  {
    if |s| == 0 || !IsDigit(s[0]) then 0 else 1 + DigitRun(s[1..])
  }

  /** `QString::toLongLong` of a digit run: its value, or 0 when it does not
      fit in a `qint64`. */
  function ToLongLong(digits: string): (r: int)
    requires forall k :: 0 <= k < |digits| ==> IsDigit(digits[k])
    ensures 0 <= r <= MaxInt64
    ensures DigitsValue(digits) <= MaxInt64 ==> r == DigitsValue(digits)
    ensures DigitsValue(digits) > MaxInt64 ==> r == 0
  {
    var v := DigitsValue(digits);
    if v <= MaxInt64 then v else 0
  }

  /** `k` is the leftmost match of the pattern. */
  predicate Leftmost(data: string, k: int) {
    MatchAt(data, k) && forall j :: 0 <= j < k ==> !MatchAt(data, j)
  }

  /** The digits the pattern captures when it matches at `k`. */
  function DigitsAfter(data: string, k: nat): (d: string)
    requires k + |Key| <= |data|
    ensures forall j :: 0 <= j < |d| ==> IsDigit(d[j])
  {
    var rest := data[k + |Key|..];
    rest[..DigitRun(rest)]
  }

  /** The `out_time_us` value of a chunk: the digits of its first match,
      wherever in the chunk it lies. */
  function CapturedUs(data: string): (r: Option<int>)
    ensures r.Some? <==> exists k :: MatchAt(data, k)
    ensures r.Some? ==> 0 <= r.value <= MaxInt64
    ensures forall k :: Leftmost(data, k) ==> r == Some(ToLongLong(DigitsAfter(data, k)))
  {
    LeftmostIsFirst(data);
    match FirstMatch(data, 0)
    case None => None
    case Some(k) =>
      var rest := data[k + |Key|..];
      Some(ToLongLong(rest[..DigitRun(rest)]))
  }

  /** The bar value for `us` microseconds into an edit of `totalMs`
      milliseconds: the truncated percentage, clamped to `[0, 100]`. */
  function Percent(us: int, totalMs: int): (r: int)
    requires totalMs > 0
    ensures 0 <= r <= 100
  {
    Bound(0, Trunc((us as real / 1000.0) / totalMs as real * 100.0), 100)
  }

  /** The exact percentage `us / (10 * totalMs)`. */
  lemma PercentScale(us: int, totalMs: int)
    requires totalMs > 0
    ensures (us as real / 1000.0) / totalMs as real * 100.0 * (10 * totalMs) as real == us as real
  {
    var u := us as real;
    var t := totalMs as real;
    var q := (u / 1000.0) / t;
    assert q * t == u / 1000.0;
    assert (10 * totalMs) as real == 10.0 * t;
    assert q * 100.0 * (10.0 * t) == (q * t) * 1000.0;
    assert (u / 1000.0) * 1000.0 == u;
  }

  /** Before the end, the bar shows the whole percentage reached:
      `r` percent means at least `r` and less than `r + 1` hundredths of the
      edited duration have been written. */
  lemma PercentMeaning(us: int, totalMs: int)
    requires totalMs > 0 && 0 <= us < 1000 * totalMs
    ensures var r := Percent(us, totalMs);
            r * 10 * totalMs <= us < (r + 1) * 10 * totalMs
  {
    var x := (us as real / 1000.0) / totalMs as real * 100.0;
    var m := 10 * totalMs;
    var k := m as real;
    PercentScale(us, totalMs);
    var r := Trunc(x);
    PercentBelowFull(x, k, us, m);
    assert Percent(us, totalMs) == r;
    ScaleBounds(r, x, k, us);
    IntBoundsFromReal(r, m, us);
    TenTimes(r, totalMs);
    TenTimes(r + 1, totalMs);
  }

  lemma TenTimes(a: int, b: int)
    ensures a * 10 * b == a * (10 * b)
  {
  }

  lemma IntBoundsFromReal(r: int, m: int, us: int)
    requires r as real * m as real <= us as real < (r as real + 1.0) * m as real
    ensures r * m <= us < (r + 1) * m
  {
    CastProduct(r, m);
    CastProduct(r + 1, m);
  }


  lemma PercentBelowFull(x: real, k: real, us: int, m: int)
    requires k == m as real && m > 0 && x * k == us as real && 0 <= us < 100 * m
    ensures 0.0 <= x < 100.0
  {
    if x >= 100.0 {
      assert false;
    }
    if x < 0.0 {
      assert false;
    }
  }

  lemma ScaleBounds(r: int, x: real, k: real, us: int)
    requires k > 0.0 && r as real <= x < r as real + 1.0 && x * k == us as real
    ensures r as real * k <= us as real
    ensures us as real < (r as real + 1.0) * k
  {
    var rr := r as real;
    var lo := x - rr;
    var hi := rr + 1.0 - x;
    assert lo * k >= 0.0;
    assert hi * k > 0.0;
    assert x * k == rr * k + lo * k;
    assert (rr + 1.0) * k == x * k + hi * k;
  }

  lemma CastProduct(a: int, b: int)
    ensures (a * b) as real == a as real * b as real
  {
  }

  /** Once the written time reaches the edited duration the bar is full. */
  lemma PercentFull(us: int, totalMs: int)
    requires totalMs > 0 && us >= 1000 * totalMs
    ensures Percent(us, totalMs) == 100
  {
    var x := (us as real / 1000.0) / totalMs as real * 100.0;
    var k := (10 * totalMs) as real;
    PercentScale(us, totalMs);
    assert x >= 100.0;
  }

  /** Later times never show a smaller percentage. */
  lemma PercentMonotone(us: int, later: int, totalMs: int)
    requires totalMs > 0 && us <= later
    ensures Percent(us, totalMs) <= Percent(later, totalMs)
  {
    var t := totalMs as real;
    assert us as real / 1000.0 <= later as real / 1000.0;
    assert (us as real / 1000.0) / t <= (later as real / 1000.0) / t;
    TruncMonotone((us as real / 1000.0) / t * 100.0, (later as real / 1000.0) / t * 100.0);
  }

  /** The popup: its bar value and whether it is still shown. */
  datatype Popup = Popup(value: int, open: bool)

  /** The `readyRead` handler: a chunk with a match sets the bar; any other
      chunk leaves the popup as it was. */
  function OnOutput(p: Popup, data: string, totalMs: int): (r: Popup)
    requires totalMs > 0
    ensures (forall k :: !MatchAt(data, k)) ==> r == p
    ensures r.open == p.open
    ensures r != p ==> 0 <= r.value <= 100
    ensures CapturedUs(data).Some? ==> r == p.(value := Percent(CapturedUs(data).value, totalMs))
  {
    match CapturedUs(data)
    case None => p
    case Some(us) => p.(value := Percent(us, totalMs))
  }

  /** Feeds the chunks to the handler in order. */
  function RunOutput(p: Popup, chunks: seq<string>, totalMs: int): Popup
    requires totalMs > 0
    decreases |chunks|
  {
    if |chunks| == 0 then p else RunOutput(OnOutput(p, chunks[0], totalMs), chunks[1..], totalMs)
  }

  /** Whatever ffmpeg prints, the bar only ever takes values in
      `[0, 100]`: it keeps its starting value or holds a percentage. */
  lemma {:induction false} RunOutputInRange(p: Popup, chunks: seq<string>, totalMs: int)
    requires totalMs > 0
    ensures var r := RunOutput(p, chunks, totalMs);
            r.value == p.value || 0 <= r.value <= 100
    decreases |chunks|
  {
    if |chunks| > 0 {
      var next := OnOutput(p, chunks[0], totalMs);
      RunOutputInRange(next, chunks[1..], totalMs);
    }
  }

  /** Any match is the search's answer once no match lies to its left. */
  lemma LeftmostIsFirst(data: string)
    ensures forall k :: Leftmost(data, k) ==> FirstMatch(data, 0) == Some(k)
  {
    forall k | Leftmost(data, k)
      ensures FirstMatch(data, 0) == Some(k)
    {
      var f := FirstMatch(data, 0);
      assert f.Some?;
      assert !(f.value < k);
      assert !(k < f.value);
    }
  }

  /** Complete lines in front of the key: a chunk that starts with lines
      holding no match. */
  predicate LinesWithoutMatch(pre: string) {
    && (|pre| == 0 || pre[|pre| - 1] == '\n')
    && forall k :: 0 <= k < |pre| ==> !MatchAt(pre, k)
  }

  /** A progress line as ffmpeg writes it, after any lines without a match
      (`frame=`, `fps=`, `bitrate=`, ...) and followed by anything, reads
      back as the time it reports. */
  lemma CapturedLine(pre: string, us: nat, rest: string)
    requires us <= MaxInt64 && LinesWithoutMatch(pre)
    ensures CapturedUs(pre + Key + Decimal(us) + "\n" + rest) == Some(us)
  {
    var digits := Decimal(us);
    var data := pre + Key + digits + "\n" + rest;
    LineAfterPrefix(pre, digits, rest);
    forall j | 0 <= j < |pre|
      ensures !MatchAt(data, j)
    {
      NoMatchInPrefix(pre, data, j);
    }
    assert Leftmost(data, |pre|);
    CapturedAt(data, |pre|);
    DecimalRoundTrip(us);
  }

  /** The captured value at the leftmost match. */
  lemma CapturedAt(data: string, k: nat)
    requires Leftmost(data, k)
    ensures CapturedUs(data) == Some(ToLongLong(DigitsAfter(data, k)))
  {
  }

  /** After the prefix, the line matches and its digits are captured. */
  lemma LineAfterPrefix(pre: string, digits: string, rest: string)
    requires |digits| > 0 && forall k :: 0 <= k < |digits| ==> IsDigit(digits[k])
    ensures var data := pre + Key + digits + "\n" + rest;
            && MatchAt(data, |pre|)
            && DigitsAfter(data, |pre|) == digits
            && data[..|pre|] == pre
  {
    var data := pre + Key + digits + "\n" + rest;
    var n := |pre|;
    assert data[n..n + |Key|] == Key;
    assert data[n + |Key|] == digits[0];
    var tail := data[n + |Key|..];
    assert tail == digits + ("\n" + rest);
    DigitRunOfDigits(digits, "\n" + rest);
  }

  lemma KeyHasNoNewline()
    ensures forall i :: 0 <= i < |Key| ==> Key[i] != '\n'
  {
  }

  /** A match starting inside lines that hold none would have to cover
      their closing newline, which the key cannot contain, or find the key
      and its digit inside them. */
  lemma NoMatchInPrefix(pre: string, data: string, j: nat)
    requires LinesWithoutMatch(pre) && j < |pre| && |pre| <= |data| && data[..|pre|] == pre
    ensures !MatchAt(data, j)
  {
    var n := |pre|;
    KeyHasNoNewline();
    if j + |Key| < n {
      assert pre[j..j + |Key|] == data[j..j + |Key|];
      assert pre[j + |Key|] == data[j + |Key|];
      assert !MatchAt(pre, j);
    } else if j + |Key| <= |data| {
      assert data[n - 1] == pre[n - 1] == '\n';
      assert data[j..j + |Key|][n - 1 - j] == data[n - 1];
    }
  }

  /** Such a line moves the bar to the percentage of the reported time. */
  lemma ProgressLine(p: Popup, pre: string, us: nat, rest: string, totalMs: int)
    requires totalMs > 0 && us <= MaxInt64 && LinesWithoutMatch(pre)
    ensures OnOutput(p, pre + Key + Decimal(us) + "\n" + rest, totalMs) == p.(value := Percent(us, totalMs))
  {
    CapturedLine(pre, us, rest);
  }

  /** A digit run stops exactly where the digits do. */
  lemma {:induction false} DigitRunOfDigits(digits: string, rest: string)
    requires forall k :: 0 <= k < |digits| ==> IsDigit(digits[k])
    requires |rest| > 0 && !IsDigit(rest[0])
    ensures DigitRun(digits + rest) == |digits|
  {
    if |digits| > 0 {
      assert (digits + rest)[1..] == digits[1..] + rest;
      DigitRunOfDigits(digits[1..], rest);
    } else {
      assert digits + rest == rest;
    }
  }

  /** The `finished` handler: the popup closes whatever happened, and the
      message depends on the exit code alone. */
  function OnFinished(p: Popup, exitCode: int): (r: (Popup, Outcome))
    ensures !r.0.open && r.0.value == p.value
    ensures r.1 == Delivered <==> exitCode == 0
  {
    (p.(open := false), if exitCode == 0 then Delivered else Failed)
  }
}

=== FILE: regions.dfy ===
/** The preview's region editor (`VideoWithCropWidget`): the list of
    privacy filters drawn over the frame and the crop rectangle, edited by
    adding and deleting filters and by dragging a corner or the middle of
    a rectangle. Rectangles are normalised to the displayed frame; pointer
    positions are widget pixels, mapped through the rectangle the frame is
    drawn in. */
module Regions {
  import opened Common

  /** How a filter hides its area: `0` blurs, `1` pixelates, anything else
      paints it solid black. */
  datatype FilterMode = Blur | Pixelate | SolidColor

  function ModeOf(mode: int): (m: FilterMode)
    ensures m == Blur <==> mode == 0
    ensures m == Pixelate <==> mode == 1
  {
    if mode == 0 then Blur else if mode == 1 then Pixelate else SolidColor
  }

  /** `FilterObject`: one privacy region and its mode. */
  datatype FilterObject = FilterObject(rect: Rect, mode: int)

  /** The part of a rectangle a press grabbed. */
  datatype Handle = NoHandle | Center | TopLeft | TopRight | BottomLeft | BottomRight

  /** The widget rectangle the frame is drawn in, in pixels. */
  datatype Frame = Frame(x: int, y: int, width: int, height: int)

  datatype RegionEditor = RegionEditor(
    filters: seq<FilterObject>,
    /** The selected filter, -1 for none. */
    selected: int,
    /** Whether edits go to the selected filter rather than the crop. */
    adjusting: bool,
    crop: Rect,
    active: Handle,
    /** The pointer's last normalised position, for middle drags. */
    lastX: real,
    lastY: real,
    /** Whether a video frame has arrived yet. */
    hasFrame: bool)

  /** The smallest width and height a corner drag leaves. */
  const MinGap: real := 0.02
  /** How close, in pixels, a press must be to grab a corner. */
  const CornerReachPx: int := 20

  /** Where a new filter appears. */
  const NewFilterRect: Rect := Rect(0.4, 0.4, 0.6, 0.6)
  /** The crop rectangle's initial value. */
  const InitialCrop: Rect := Rect(0.0, 0.03, 1.0, 0.96)

  function Initial(): (e: RegionEditor)
    ensures e.filters == [] && e.selected == -1 && !e.adjusting && e.active == NoHandle
    ensures e.crop == InitialCrop
  {
    RegionEditor([], -1, false, InitialCrop, NoHandle, 0.0, 0.0, false)
  }

  /** A rectangle inside the unit square, at least `MinGap` wide and high. */
  predicate Shaped(r: Rect) {
    && 0.0 <= r.left && r.left + MinGap <= r.right <= 1.0
    && 0.0 <= r.top && r.top + MinGap <= r.bottom <= 1.0
  }

  /** The invariant the editor keeps: every rectangle is shaped, and a
      grab while adjusting names a filter on the list. */
  predicate Valid(e: RegionEditor) {
    && Shaped(e.crop)
    && (forall k :: 0 <= k < |e.filters| ==> Shaped(e.filters[k].rect))
    && (e.active != NoHandle && e.adjusting ==> 0 <= e.selected < |e.filters|)
  }

  lemma InitialValid()
    ensures Valid(Initial())
  {
  }

  /** `addFilter`: a new filter of the given mode in the middle of the
      frame, selected and in adjust mode. */
  function AddFilter(e: RegionEditor, mode: int): (r: RegionEditor)
    ensures r.filters == e.filters + [FilterObject(NewFilterRect, mode)]
    ensures r.selected == |e.filters| && r.adjusting
    ensures r == e.(filters := r.filters, selected := r.selected, adjusting := true)
    ensures Valid(e) ==> Valid(r)
  {
    e.(filters := e.filters + [FilterObject(NewFilterRect, mode)], selected := |e.filters|, adjusting := true)
  }

  /** The Delete or Backspace key: in adjust mode with a filter selected,
      that filter is removed and adjust mode ends; otherwise nothing. */
  function DeleteKey(e: RegionEditor, isDeleteKey: bool): (r: RegionEditor)
    ensures isDeleteKey && e.adjusting && 0 <= e.selected < |e.filters| ==>
              && r.filters == e.filters[..e.selected] + e.filters[e.selected + 1..]
              && r.selected == -1 && !r.adjusting
              && r == e.(filters := r.filters, selected := -1, adjusting := false)
    ensures !(isDeleteKey && e.adjusting && 0 <= e.selected < |e.filters|) ==> r == e
    ensures Valid(e) ==> Valid(r)
  {
    if isDeleteKey && e.adjusting && 0 <= e.selected < |e.filters| then
      var kept := e.filters[..e.selected] + e.filters[e.selected + 1..];
      assert forall k :: 0 <= k < |kept| ==> kept[k] == e.filters[if k < e.selected then k else k + 1];
      e.(filters := kept, selected := -1, adjusting := false)
    else e
  }

  /** Adding a filter and deleting it straight away gives the filter list
      back. */
  lemma AddThenDelete(e: RegionEditor, mode: int)
    ensures DeleteKey(AddFilter(e, mode), true).filters == e.filters
  {
    var added := AddFilter(e, mode);
    assert added.filters[..|e.filters|] == e.filters;
  }

  // ------------------------------------------------------------- hit-test

  /** A pixel position inside the frame, for a normalised coordinate: the
      sum is truncated toward zero, as the C++ conversion to `int` does. */
  function ToPixel(origin: int, extent: int, t: real): int {
    Trunc(origin as real + t * extent as real)
  }

  /** Strictly less than the reach from a corner, by Euclidean distance. */
  predicate NearCorner(px: int, py: int, cx: int, cy: int) {
    (px - cx) * (px - cx) + (py - cy) * (py - cy) < CornerReachPx * CornerReachPx
  }

  /** The part of `r` a press at `(px, py)` grabs: the corners in the order
      top-left, top-right, bottom-left, bottom-right, then the strict
      interior. */
  function HandleAt(r: Rect, f: Frame, px: int, py: int): (h: Handle)
    ensures h == Center ==>
              ToPixel(f.x, f.width, r.left) < px < ToPixel(f.x, f.width, r.right)
              && ToPixel(f.y, f.height, r.top) < py < ToPixel(f.y, f.height, r.bottom)
    ensures h == TopLeft <==> NearCorner(px, py, ToPixel(f.x, f.width, r.left), ToPixel(f.y, f.height, r.top))
    ensures var hL, hR := ToPixel(f.x, f.width, r.left), ToPixel(f.x, f.width, r.right);
            var hT := ToPixel(f.y, f.height, r.top);
            h == TopRight <==> !NearCorner(px, py, hL, hT) && NearCorner(px, py, hR, hT)
    ensures var hL, hR := ToPixel(f.x, f.width, r.left), ToPixel(f.x, f.width, r.right);
            var hT, hB := ToPixel(f.y, f.height, r.top), ToPixel(f.y, f.height, r.bottom);
            h == BottomLeft <==> !NearCorner(px, py, hL, hT) && !NearCorner(px, py, hR, hT) && NearCorner(px, py, hL, hB)
    ensures var hL, hR := ToPixel(f.x, f.width, r.left), ToPixel(f.x, f.width, r.right);
            var hT, hB := ToPixel(f.y, f.height, r.top), ToPixel(f.y, f.height, r.bottom);
            h == BottomRight <==> !NearCorner(px, py, hL, hT) && !NearCorner(px, py, hR, hT)
                                  && !NearCorner(px, py, hL, hB) && NearCorner(px, py, hR, hB)
    ensures var hL, hR := ToPixel(f.x, f.width, r.left), ToPixel(f.x, f.width, r.right);
            var hT, hB := ToPixel(f.y, f.height, r.top), ToPixel(f.y, f.height, r.bottom);
            var nearAny := NearCorner(px, py, hL, hT) || NearCorner(px, py, hR, hT)
                           || NearCorner(px, py, hL, hB) || NearCorner(px, py, hR, hB);
            && (h in {TopLeft, TopRight, BottomLeft, BottomRight} <==> nearAny)
            && (h == NoHandle <==> !nearAny && !(hL < px < hR && hT < py < hB))
  {
    var hL := ToPixel(f.x, f.width, r.left);
    var hR := ToPixel(f.x, f.width, r.right);
    var hT := ToPixel(f.y, f.height, r.top);
    var hB := ToPixel(f.y, f.height, r.bottom);
    if NearCorner(px, py, hL, hT) then TopLeft
    else if NearCorner(px, py, hR, hT) then TopRight
    else if NearCorner(px, py, hL, hB) then BottomLeft
    else if NearCorner(px, py, hR, hB) then BottomRight
    else if hL < px < hR && hT < py < hB then Center
    else NoHandle
  }

  /** The topmost filter among the first `n` that a press grabs: the search
      runs from the last filter down, so the one drawn on top wins. */
  function TopmostHit(filters: seq<FilterObject>, f: Frame, px: int, py: int, n: nat): (r: Option<nat>)
    requires n <= |filters|
    ensures r.Some? ==> r.value < n && HandleAt(filters[r.value].rect, f, px, py) != NoHandle
    ensures r.Some? ==> forall j :: r.value < j < n ==> HandleAt(filters[j].rect, f, px, py) == NoHandle
    ensures r.None? <==> forall j :: 0 <= j < n ==> HandleAt(filters[j].rect, f, px, py) == NoHandle
  {
    if n == 0 then None
    else if HandleAt(filters[n - 1].rect, f, px, py) != NoHandle then Some(n - 1)
    else TopmostHit(filters, f, px, py, n - 1)
  }

  /** The pointer position normalised to the frame (not clamped). */
  function Normalise(p: int, origin: int, extent: int): real
    requires extent > 0
  {
    (p - origin) as real / extent as real
  }

  /** `mousePressEvent`: before the first frame nothing happens. A filter
      grab selects it and enters adjust mode; otherwise a crop grab leaves
      adjust mode; a press on the background releases the grab and drops
      the selection but keeps the mode. */
  function Press(e: RegionEditor, f: Frame, px: int, py: int): (r: RegionEditor)
    requires f.width > 0 && f.height > 0
    ensures !e.hasFrame ==> r == e
    ensures r.filters == e.filters && r.crop == e.crop
    ensures e.hasFrame ==>
              match TopmostHit(e.filters, f, px, py, |e.filters|)
              case Some(i) =>
                && r.selected == i && r.adjusting
                && r.active == HandleAt(e.filters[i].rect, f, px, py)
              case None =>
                && r.selected == -1
                && r.active == HandleAt(e.crop, f, px, py)
                && (r.active != NoHandle ==> !r.adjusting)
                && (r.active == NoHandle ==> r.adjusting == e.adjusting)
    ensures Valid(e) ==> Valid(r)
  {
    if !e.hasFrame then e
    else
      var x := Normalise(px, f.x, f.width);
      var y := Normalise(py, f.y, f.height);
      match TopmostHit(e.filters, f, px, py, |e.filters|)
      case Some(i) =>
        e.(active := HandleAt(e.filters[i].rect, f, px, py), selected := i, adjusting := true, lastX := x, lastY := y)
      case None =>
        var h := HandleAt(e.crop, f, px, py);
        if h == NoHandle then e.(active := NoHandle, selected := -1)
        else e.(active := h, selected := -1, adjusting := false, lastX := x, lastY := y)
  }

  // ---------------------------------------------------------------- drags

  /** Moving a grabbed rectangle to the clamped pointer `(x, y)`. A corner
      follows the pointer but stops `MinGap` short of the opposite edge; the
      middle moves by the pointer's travel since the last move, keeping its
      size and staying inside the unit square. */
  function DragRect(r: Rect, h: Handle, x: real, y: real, lastX: real, lastY: real): (d: Rect)
    ensures h == TopLeft ==> d == r.(left := MinReal(x, r.right - MinGap), top := MinReal(y, r.bottom - MinGap))
    ensures h == TopRight ==> d == r.(right := MaxReal(x, r.left + MinGap), top := MinReal(y, r.bottom - MinGap))
    ensures h == BottomLeft ==> d == r.(left := MinReal(x, r.right - MinGap), bottom := MaxReal(y, r.top + MinGap))
    ensures h == BottomRight ==> d == r.(right := MaxReal(x, r.left + MinGap), bottom := MaxReal(y, r.top + MinGap))
    ensures h in {TopLeft, BottomLeft} ==> d.left <= d.right - MinGap
    ensures h in {TopRight, BottomRight} ==> d.right >= d.left + MinGap
    ensures h in {TopLeft, TopRight} ==> d.top <= d.bottom - MinGap
    ensures h in {BottomLeft, BottomRight} ==> d.bottom >= d.top + MinGap
    ensures h == Center ==>
              && d.right - d.left == r.right - r.left && d.bottom - d.top == r.bottom - r.top
              && 0.0 <= d.left && 0.0 <= d.top
              && (r.right - r.left <= 1.0 ==> d.right <= 1.0)
              && (r.bottom - r.top <= 1.0 ==> d.bottom <= 1.0)
    ensures h == NoHandle ==> d == r
    ensures Shaped(r) && 0.0 <= x <= 1.0 && 0.0 <= y <= 1.0 ==> Shaped(d)
  {
    match h
    case NoHandle => r
    case TopLeft => r.(left := MinReal(x, r.right - MinGap), top := MinReal(y, r.bottom - MinGap))
    case TopRight => r.(right := MaxReal(x, r.left + MinGap), top := MinReal(y, r.bottom - MinGap))
    case BottomLeft => r.(left := MinReal(x, r.right - MinGap), bottom := MaxReal(y, r.top + MinGap))
    case BottomRight => r.(right := MaxReal(x, r.left + MinGap), bottom := MaxReal(y, r.top + MinGap))
    case Center =>
      var w := r.right - r.left;
      var hgt := r.bottom - r.top;
      var left := BoundReal(0.0, r.left + (x - lastX), 1.0 - w);
      var top := BoundReal(0.0, r.top + (y - lastY), 1.0 - hgt);
      Rect(left, top, left + w, top + hgt)
  }

  /** `mouseMoveEvent`: without a grab or a frame nothing happens. The
      pointer is clamped into the frame, then the grabbed part of the
      selected filter (in adjust mode) or of the crop moves. Only a middle
      drag remembers the pointer. */
  function Move(e: RegionEditor, f: Frame, px: int, py: int): (r: RegionEditor)
    requires f.width > 0 && f.height > 0
    requires e.active != NoHandle && e.adjusting ==> 0 <= e.selected < |e.filters|
    ensures e.active == NoHandle || !e.hasFrame ==> r == e
    ensures e.active != NoHandle && e.hasFrame ==>
              var x := BoundReal(0.0, Normalise(px, f.x, f.width), 1.0);
              var y := BoundReal(0.0, Normalise(py, f.y, f.height), 1.0);
              && (e.adjusting ==>
                    && r.crop == e.crop && |r.filters| == |e.filters|
                    && r.filters[e.selected] == e.filters[e.selected].(rect := DragRect(e.filters[e.selected].rect, e.active, x, y, e.lastX, e.lastY))
                    && (forall k :: 0 <= k < |e.filters| && k != e.selected ==> r.filters[k] == e.filters[k]))
              && (!e.adjusting ==>
                    r.filters == e.filters && r.crop == DragRect(e.crop, e.active, x, y, e.lastX, e.lastY))
              && (e.active == Center ==> r.lastX == x && r.lastY == y)
              && (e.active != Center ==> r.lastX == e.lastX && r.lastY == e.lastY)
    ensures r.selected == e.selected && r.adjusting == e.adjusting && r.active == e.active
    ensures Valid(e) ==> Valid(r)
  {
    if e.active == NoHandle || !e.hasFrame then e
    else
      var x := BoundReal(0.0, Normalise(px, f.x, f.width), 1.0);
      var y := BoundReal(0.0, Normalise(py, f.y, f.height), 1.0);
      var moved := if e.adjusting
                   then e.(filters := e.filters[e.selected := e.filters[e.selected].(rect := DragRect(e.filters[e.selected].rect, e.active, x, y, e.lastX, e.lastY))])
                   else e.(crop := DragRect(e.crop, e.active, x, y, e.lastX, e.lastY));
      if e.active == Center then moved.(lastX := x, lastY := y) else moved
  }

  /** `mouseReleaseEvent`: the grab ends. */
  function Release(e: RegionEditor): (r: RegionEditor)
    ensures r == e.(active := NoHandle)
    ensures Valid(e) ==> Valid(r)
  {
    e.(active := NoHandle)
  }

  /** The events the region editor receives. */
  datatype Event =
    | AddEvent(mode: int)
    | DeleteEvent(isDeleteKey: bool)
    | PressEvent(px: int, py: int)
    | MoveEvent(mx: int, my: int)
    | ReleaseEvent
    | FrameEvent

  /** One event; every handler keeps the invariant. */
  function Apply(e: RegionEditor, f: Frame, ev: Event): (r: RegionEditor)
    requires f.width > 0 && f.height > 0
    requires Valid(e)
    ensures Valid(r)
  {
    match ev
    case AddEvent(mode) => AddFilter(e, mode)
    case DeleteEvent(k) => DeleteKey(e, k)
    case PressEvent(px, py) => Press(e, f, px, py)
    case MoveEvent(px, py) => Move(e, f, px, py)
    case ReleaseEvent => Release(e)
    case FrameEvent => e.(hasFrame := true)
  }

  /** From the initial editor, any sequence of additions, deletions,
      presses, drags and releases keeps every filter and the crop inside the
      frame and at least `MinGap` wide and high. */
  lemma {:induction false} EventsKeepShape(e: RegionEditor, f: Frame, events: seq<Event>)
    requires f.width > 0 && f.height > 0
    requires Valid(e)
    ensures Valid(Run(e, f, events))
    ensures Shaped(Run(e, f, events).crop)
    decreases |events|
  {
    if |events| > 0 {
      EventsKeepShape(Apply(e, f, events[0]), f, events[1..]);
    }
  }

  function Run(e: RegionEditor, f: Frame, events: seq<Event>): RegionEditor
    requires f.width > 0 && f.height > 0
    requires Valid(e)
    decreases |events|
  {
    if |events| == 0 then e
    else
      Run(Apply(e, f, events[0]), f, events[1..])
  }
}

=== FILE: segments.dfy ===
/** The timeline's kept intervals (`TimelineWidget::Segment`) and the facts
    about a whole segment list that the editing operations keep. */
module Segments {
  import opened Common

  /** One kept interval of the source media, in milliseconds, with its
      per-clip volume, pitch and mute flag. */
  datatype Segment = Segment(startMs: int, endMs: int, volume: real, pitch: real, muted: bool)
  {
    function Length(): int { endMs - startMs }
  }

  /** A segment built from its two bounds alone, as the brace initialisers
      in the editor do: the remaining fields take their declared defaults. */
  function NewSegment(startMs: int, endMs: int): (s: Segment)
    ensures s.startMs == startMs && s.endMs == endMs
    ensures s.volume == 1.0 && s.pitch == 1.0 && !s.muted
  {
    Segment(startMs, endMs, 1.0, 1.0, false)
  }

  /** Every segment is a non-empty interval. */
  predicate WellFormed(segs: seq<Segment>) {
    forall i :: 0 <= i < |segs| ==> segs[i].startMs < segs[i].endMs
  }

  /** The timeline invariant: non-empty intervals, each ending no later than
      the next one starts. */
  predicate Ordered(segs: seq<Segment>) {
    && WellFormed(segs)
    && forall i :: 0 <= i < |segs| - 1 ==> segs[i].endMs <= segs[i + 1].startMs
  }

  /** Every segment lies inside the media, `[0, durationMs]`. */
  predicate Within(segs: seq<Segment>, durationMs: int) {
    forall i :: 0 <= i < |segs| ==> 0 <= segs[i].startMs && segs[i].endMs <= durationMs
  }

  /** The neighbour rule extends to any two positions of an ordered list. */
  lemma {:induction false} OrderedPairwise(segs: seq<Segment>, i: int, j: int)
    requires Ordered(segs)
    requires 0 <= i < j < |segs|
    ensures segs[i].endMs <= segs[j].startMs
    decreases j - i
  {
    if j > i + 1 {
      OrderedPairwise(segs, i, j - 1);
      assert segs[j - 1].startMs < segs[j - 1].endMs;
    }
  }

  /** A non-empty segment ending before an ordered list starts can be put
      in front of it. */
  lemma ConsOrdered(x: Segment, rest: seq<Segment>)
    requires x.startMs < x.endMs && Ordered(rest)
    requires |rest| > 0 ==> x.endMs <= rest[0].startMs
    ensures Ordered([x] + rest)
  {
    var r := [x] + rest;
    forall i | 0 <= i < |r|
      ensures r[i].startMs < r[i].endMs
    {
      if i > 0 {
        assert r[i] == rest[i - 1];
      }
    }
    forall i | 0 <= i < |r| - 1
      ensures r[i].endMs <= r[i + 1].startMs
    {
      if i > 0 {
        assert r[i] == rest[i - 1] && r[i + 1] == rest[i];
      }
    }
  }

  /** Sum of the segment lengths: the edited duration in milliseconds.
      When no segment is inverted it is never negative and no shorter than
      any one segment. */
  function TotalMs(segs: seq<Segment>): (r: int)
    ensures NoneInverted(segs) ==> r >= 0 && NoneLonger(segs, r)
  {
    if |segs| == 0 then 0 else segs[0].Length() + TotalMs(segs[1..])
  }

  /** No segment ends before it starts. */
  predicate NoneInverted(segs: seq<Segment>) {
    forall k :: 0 <= k < |segs| ==> segs[k].startMs <= segs[k].endMs
  }

  /** No segment lasts longer than `bound`. */
  predicate NoneLonger(segs: seq<Segment>, bound: int) {
    forall k :: 0 <= k < |segs| ==> segs[k].Length() <= bound
  }

  lemma {:induction false} TotalMsAppend(a: seq<Segment>, b: seq<Segment>)
    ensures TotalMs(a + b) == TotalMs(a) + TotalMs(b)
  {
    if |a| == 0 {
      assert a + b == b;
    } else {
      assert (a + b)[1..] == a[1..] + b;
      TotalMsAppend(a[1..], b);
    }
  }

  /** A list of non-empty intervals has a positive edited duration, at
      least one millisecond per segment. */
  lemma {:induction false} TotalMsOfWellFormed(segs: seq<Segment>)
    requires WellFormed(segs)
    ensures TotalMs(segs) >= |segs|
  {
    if |segs| > 0 {
      TotalMsOfWellFormed(segs[1..]);
    }
  }

  /** `getTotalSegmentsDuration`: the edited duration in seconds, never less
      than one second. */
  function TotalSeconds(segs: seq<Segment>): (r: real)
    ensures r >= 1.0
    ensures r >= TotalMs(segs) as real / 1000.0
    ensures TotalMs(segs) >= 1000 ==> r * 1000.0 == TotalMs(segs) as real
    ensures TotalMs(segs) < 1000 ==> r == 1.0
  {
    MaxReal(1.0, TotalMs(segs) as real / 1000.0)
  }

  /** `getStartLimit`: where playback of the edited region begins. */
  function StartLimit(segs: seq<Segment>): (r: int)
    ensures |segs| == 0 ==> r == 0
    ensures |segs| > 0 ==> r == segs[0].startMs
  {
    if |segs| == 0 then 0 else segs[0].startMs
  }

  /** `getEndLimit`: where playback of the edited region ends, the media
      duration when there are no segments. */
  function EndLimit(segs: seq<Segment>, durationMs: int): (r: int)
    ensures |segs| == 0 ==> r == durationMs
    ensures |segs| > 0 ==> r == segs[|segs| - 1].endMs
  {
    if |segs| == 0 then durationMs else segs[|segs| - 1].endMs
  }

  /** Every segment of an ordered list lies between the two limits. */
  lemma LimitsEnclose(segs: seq<Segment>, durationMs: int, i: int)
    requires Ordered(segs)
    requires 0 <= i < |segs|
    ensures StartLimit(segs) <= segs[i].startMs < segs[i].endMs <= EndLimit(segs, durationMs)
  {
    if i > 0 {
      OrderedPairwise(segs, 0, i);
    }
    if i < |segs| - 1 {
      OrderedPairwise(segs, i, |segs| - 1);
    }
  }
}

=== FILE: text.dfy ===
/** The few `QString` operations the editor uses: whitespace trimming,
    character replacement, ASCII lower-casing and decimal numbers. */
module Text {

  /** `QChar::isSpace`: the Unicode separators plus the ASCII control
      characters TAB, LF, VT, FF, CR and NEL. */
  predicate IsSpace(c: char) {
    || ('\t' <= c <= '\r')
    || c == ' '
    || c == '\U{0085}'
    || c == '\U{00A0}'
    || c == '\U{1680}'
    || ('\U{2000}' <= c <= '\U{200A}')
    || c == '\U{2028}'
    || c == '\U{2029}'
    || c == '\U{202F}'
    || c == '\U{205F}'
    || c == '\U{3000}'
  }

  /** Number of leading whitespace characters of `s`. */
  function LeadingSpace(s: string): (n: nat)
    ensures n <= |s|
    ensures forall i :: 0 <= i < n ==> IsSpace(s[i])
    ensures n < |s| ==> !IsSpace(s[n])
  {
    if |s| > 0 && IsSpace(s[0]) then 1 + LeadingSpace(s[1..]) else 0
  }

  /** Number of trailing whitespace characters of `s`. */
  function TrailingSpace(s: string): (n: nat)
    ensures n <= |s|
    ensures forall i :: |s| - n <= i < |s| ==> IsSpace(s[i])
    ensures n < |s| ==> !IsSpace(s[|s| - n - 1])
  {
    if |s| > 0 && IsSpace(s[|s| - 1]) then 1 + TrailingSpace(s[..|s| - 1]) else 0
  }

  /** `s[i..j]` is what trimming keeps: everything cut away is whitespace,
      and a non-empty slice neither starts nor ends with whitespace, so no
      more could be cut. */
  predicate TrimmedSlice(s: string, i: int, j: int) {
    && 0 <= i <= j <= |s|
    && (forall k :: 0 <= k < i ==> IsSpace(s[k]))
    && (forall k :: j <= k < |s| ==> IsSpace(s[k]))
    && (i < j ==> !IsSpace(s[i]) && !IsSpace(s[j - 1]))
  }

  /** `QString::trimmed`: whitespace removed from both ends, all of it and
      nothing else. */
  function Trim(s: string): (r: string)
    ensures exists i, j :: TrimmedSlice(s, i, j) && r == s[i..j]
    ensures |r| > 0 ==> !IsSpace(r[0]) && !IsSpace(r[|r| - 1])
  {
    TrimBounds(s);
    s[TrimStart(s)..TrimEnd(s)]
  }

  /** Where the trimmed slice starts: after the leading whitespace. */
  function TrimStart(s: string): nat {
    LeadingSpace(s)
  }

  /** Where the trimmed slice ends: before the trailing whitespace of what
      follows its start. */
  function TrimEnd(s: string): int {
    var i := LeadingSpace(s);
    |s| - TrailingSpace(s[i..])
  }

  /** The two ends delimit the trimmed slice. */
  lemma TrimBounds(s: string)
    ensures TrimmedSlice(s, TrimStart(s), TrimEnd(s))
  {
    var i := LeadingSpace(s);
    var t := s[i..];
    var n := TrailingSpace(t);
    forall k | |s| - n <= k < |s|
      ensures IsSpace(s[k])
    {
      assert s[k] == t[k - i];
    }
    if i < |s| - n {
      assert s[|s| - n - 1] == t[|t| - n - 1];
    }
  }

  /** `QString::replace(from, to)` for a single character. */
  function ReplaceChar(s: string, from: char, to: char): (r: string)
    ensures |r| == |s|
    ensures forall k :: 0 <= k < |s| ==> r[k] == (if s[k] == from then to else s[k])
  {
    if |s| == 0 then [] else [if s[0] == from then to else s[0]] + ReplaceChar(s[1..], from, to)
  }

  /** The lower case of one character, for the characters whose lower case
      is an ASCII letter: the ASCII capitals and the Kelvin sign U+212A,
      which lowers to `k`. Every other character is left alone. */
  function LowerChar(c: char): char {
    if 'A' <= c <= 'Z' then (c as int + 32) as char
    else if c == '\U{212A}' then 'k'
    else c
  }

  /** `QString::toLower`, character by character (see `LowerChar`). */
  function ToLower(s: string): (r: string)
    ensures |r| == |s|
    ensures forall k :: 0 <= k < |s| ==> r[k] == LowerChar(s[k])
  {
    if |s| == 0 then [] else [LowerChar(s[0])] + ToLower(s[1..])
  }

  /** The position of the first occurrence of `c` in `s`, if any. */
  function IndexOf(s: string, c: char): (r: int)
    ensures -1 <= r < |s|
    ensures r >= 0 ==> s[r] == c && c !in s[..r]
    ensures r == -1 <==> c !in s
  {
    if |s| == 0 then -1
    else if s[0] == c then 0
    else var k := IndexOf(s[1..], c); if k == -1 then -1 else k + 1
  }

  /** The position of the last occurrence of `c` in `s`, if any. */
  function LastIndexOf(s: string, c: char): (r: int)
    ensures -1 <= r < |s|
    ensures r >= 0 ==> s[r] == c
    ensures forall j :: r < j < |s| ==> s[j] != c
  {
    if |s| == 0 then -1
    else if s[|s| - 1] == c then |s| - 1
    else LastIndexOf(s[..|s| - 1], c)
  }

  // ------------------------------------------------------- decimal numbers

  predicate IsDigit(c: char) {
    '0' <= c <= '9'
  }

  function DigitChar(d: nat): (c: char)
    requires d < 10
    ensures IsDigit(c) && c as int - '0' as int == d
  {
    ('0' as int + d) as char
  }

  /** `QString::number` of a non-negative integer: its decimal digits, with
      no leading zero. */
  function Decimal(n: nat): (r: string)
    ensures |r| > 0 && forall k :: 0 <= k < |r| ==> IsDigit(r[k])
    ensures |r| > 1 ==> r[0] != '0'
  {
    if n < 10 then [DigitChar(n)] else Decimal(n / 10) + [DigitChar(n % 10)]
  }

  function DigitOf(c: char): (d: nat)
    requires IsDigit(c)
    ensures d < 10 && DigitChar(d) == c
  {
    c as int - '0' as int
  }

  /** The value of a run of decimal digits, most significant first. */
  function DigitsValue(s: string): (v: nat)
    requires forall k :: 0 <= k < |s| ==> IsDigit(s[k])
  {
    if |s| == 0 then 0
    else DigitsValue(s[..|s| - 1]) * 10 + DigitOf(s[|s| - 1])
  }

  /** Printing a number and reading the digits back gives the number. */
  lemma {:induction false} DecimalRoundTrip(n: nat)
    ensures DigitsValue(Decimal(n)) == n
  {
    if n >= 10 {
      var r := Decimal(n);
      assert r[..|r| - 1] == Decimal(n / 10);
      DecimalRoundTrip(n / 10);
    }
  }
}

=== FILE: timeline.dfy ===
/** The pure list operations behind the timeline editor: split at the
    playhead, single and multi-delete, playhead validation and stepping,
    the hit-test and the edge-drag clamps. Times are milliseconds. */
module Timeline {
  import opened Common
  import opened Segments

  /** A split must fall strictly more than this far from both ends. */
  const SplitMarginMs: int := 200
  /** An edge drag keeps a segment at least this long (when it can). */
  const MinLengthMs: int := 100

  // ---------------------------------------------------------------- split

  predicate Splittable(s: Segment, pos: int) {
    s.startMs + SplitMarginMs < pos < s.endMs - SplitMarginMs
  }

  /** The segment `splitAtPlayhead` cuts: the first one the position lies
      in with the margin to spare, if any. */
  function SplitIndex(segs: seq<Segment>, pos: int): (r: Option<nat>)
    ensures r.Some? ==> r.value < |segs| && Splittable(segs[r.value], pos)
    ensures r.Some? ==> forall j :: 0 <= j < r.value ==> !Splittable(segs[j], pos)
    ensures r.None? <==> forall j :: 0 <= j < |segs| ==> !Splittable(segs[j], pos)
  {
    FindFirst(segs, s => Splittable(s, pos))
  }

  /** Cuts segment `i` at `pos`: it keeps `[start, pos]` and its attributes,
      and a fresh default segment `[pos, oldEnd]` follows it. The edited
      duration and the timeline ordering are preserved. */
  function SplitAt(segs: seq<Segment>, i: nat, pos: int): (r: seq<Segment>)
    requires i < |segs| && Splittable(segs[i], pos)
    ensures |r| == |segs| + 1
    ensures r[..i] == segs[..i] && r[i + 2..] == segs[i + 1..]
    ensures r[i] == segs[i].(endMs := pos)
    ensures r[i + 1] == NewSegment(pos, segs[i].endMs)
    ensures TotalMs(r) == TotalMs(segs)
    ensures Ordered(segs) ==> Ordered(r)
  {
    var left := segs[i].(endMs := pos);
    var right := NewSegment(pos, segs[i].endMs);
    var r := segs[..i] + [left, right] + segs[i + 1..];
    TotalMsAppend(segs[..i] + [left, right], segs[i + 1..]);
    TotalMsAppend(segs[..i], [left, right]);
    TotalMsAppend(segs[..i], [segs[i]]);
    TotalMsAppend(segs[..i] + [segs[i]], segs[i + 1..]);
    assert segs[..i] + [segs[i]] + segs[i + 1..] == segs;
    assert r[..i] == segs[..i];
    assert r[i + 2..] == segs[i + 1..];
    SplitOrdered(segs, i, pos, r);
    r
  }

  /** Cutting one segment in two keeps the timeline ordered. */
  lemma SplitOrdered(segs: seq<Segment>, i: nat, pos: int, r: seq<Segment>)
    requires i < |segs| && Splittable(segs[i], pos)
    requires r == segs[..i] + [segs[i].(endMs := pos), NewSegment(pos, segs[i].endMs)] + segs[i + 1..]
    ensures Ordered(segs) ==> Ordered(r)
  {
    if !Ordered(segs) {
      return;
    }
    forall k | 0 <= k < |r|
      ensures r[k].startMs < r[k].endMs
    {
      if k < i {
        assert r[k] == segs[k];
      } else if k > i + 1 {
        assert r[k] == segs[k - 1];
      }
    }
    forall k | 0 <= k < |r| - 1
      ensures r[k].endMs <= r[k + 1].startMs
    {
      if k < i {
        assert r[k] == segs[k];
        assert r[k + 1] == if k + 1 < i then segs[k + 1] else r[i];
      } else if k > i {
        assert r[k] == if k == i + 1 then r[i + 1] else segs[k - 1];
        assert r[k + 1] == segs[k];
      }
    }
  }

  /** `TimelineWidget` splits at the playhead: the first splittable segment
      is cut there; elsewhere nothing changes. */
  lemma SplitExample()
    ensures SplitIndex([NewSegment(0, 10000)], 5000) == Some(0)
    ensures SplitAt([NewSegment(0, 10000)], 0, 5000) == [NewSegment(0, 5000), NewSegment(5000, 10000)]
    ensures SplitIndex([NewSegment(0, 10000)], 200) == None
    ensures SplitIndex([NewSegment(0, 10000)], 9800) == None
  {
    assert !Splittable(NewSegment(0, 10000), 200);
    assert !Splittable(NewSegment(0, 10000), 9800);
  }

  // --------------------------------------------------------------- delete

  /** `removeAt(i)`: the list without position `i`. */
  function RemoveAt(segs: seq<Segment>, i: nat): (r: seq<Segment>)
    requires i < |segs|
    ensures |r| == |segs| - 1
    ensures r[..i] == segs[..i] && r[i..] == segs[i + 1..]
    ensures TotalMs(r) == TotalMs(segs) - segs[i].Length()
  {
    TotalMsAppend(segs[..i], segs[i + 1..]);
    TotalMsAppend(segs[..i], [segs[i]]);
    TotalMsAppend(segs[..i] + [segs[i]], segs[i + 1..]);
    assert segs[..i] + [segs[i]] + segs[i + 1..] == segs;
    segs[..i] + segs[i + 1..]
  }

  /** The elements of `s` whose positions, counted from `base`, are not in
      `del`, in their original order. */
  function KeepFrom(s: seq<Segment>, del: set<int>, base: int): seq<Segment>
    decreases |s|
  {
    if |s| == 0 then []
    else (if base in del then [] else [s[0]]) + KeepFrom(s[1..], del, base + 1)
  }

  /** The list minus the positions in `del`, order kept; positions outside
      the list are ignored. */
  function Keep(s: seq<Segment>, del: set<int>): seq<Segment> {
    KeepFrom(s, del, 0)
  }

  /** Only the positions the list actually has matter. */
  lemma {:induction false} KeepFromLocal(s: seq<Segment>, d1: set<int>, d2: set<int>, base: int)
    requires forall k :: base <= k < base + |s| ==> (k in d1 <==> k in d2)
    ensures KeepFrom(s, d1, base) == KeepFrom(s, d2, base)
    decreases |s|
  {
    if |s| > 0 {
      KeepFromLocal(s[1..], d1, d2, base + 1);
    }
  }

  /** A prefix containing no deleted position is kept whole. */
  lemma {:induction false} KeepFromPrefix(s: seq<Segment>, del: set<int>, base: int, j: nat)
    requires j <= |s|
    requires forall k :: base <= k < base + j ==> k !in del
    ensures KeepFrom(s, del, base) == s[..j] + KeepFrom(s[j..], del, base + j)
    decreases j
  {
    if j > 0 {
      KeepFromPrefix(s[1..], del, base + 1, j - 1);
      assert s[1..][j - 1..] == s[j..];
      assert [s[0]] + s[1..][..j - 1] == s[..j];
    }
  }

  /** Positions off the list are ignored; deleting nothing keeps everything. */
  lemma KeepNothing(s: seq<Segment>, del: set<int>)
    requires forall k :: 0 <= k < |s| ==> k !in del
    ensures Keep(s, del) == s
  {
    KeepFromPrefix(s, del, 0, |s|);
    assert s[|s|..] == [];
  }

  /** Deleting the one position `i` is `RemoveAt(i)`. */
  lemma KeepSingle(s: seq<Segment>, i: nat)
    requires i < |s|
    ensures Keep(s, {i}) == RemoveAt(s, i)
  {
    KeepFromPrefix(s, {i}, 0, i);
    var tail := s[i..];
    assert KeepFrom(tail, {i}, i) == KeepFrom(tail[1..], {i}, i + 1);
    KeepFromLocal(tail[1..], {i}, {}, i + 1);
    KeepFromPrefix(tail[1..], {}, i + 1, |tail[1..]|);
    assert tail[1..] == s[i + 1..];
    assert tail[1..][|tail[1..]|..] == [];
  }

  /** The kept elements are exactly the elements at undeleted positions. */
  lemma {:induction false} KeepFromMembers(s: seq<Segment>, del: set<int>, base: int, x: Segment)
    ensures x in KeepFrom(s, del, base) <==> exists i :: 0 <= i < |s| && base + i !in del && s[i] == x
    decreases |s|
  {
    if |s| > 0 {
      KeepFromMembers(s[1..], del, base + 1, x);
      if x in KeepFrom(s, del, base) {
        if !(base !in del && s[0] == x) {
          assert x in KeepFrom(s[1..], del, base + 1);
          var i :| 0 <= i < |s[1..]| && base + 1 + i !in del && s[1..][i] == x;
          assert s[i + 1] == x;
        }
      } else {
        forall i | 0 <= i < |s| && base + i !in del
          ensures s[i] != x
        {
          if i > 0 {
            assert s[1..][i - 1] == s[i];
          }
        }
      }
    }
  }

  /** Deleting positions keeps the timeline ordered, and the first kept
      segment starts no earlier than the first segment did. */
  lemma {:induction false} KeepFromOrdered(s: seq<Segment>, del: set<int>, base: int)
    requires Ordered(s)
    ensures Ordered(KeepFrom(s, del, base))
    ensures |KeepFrom(s, del, base)| > 0 ==> KeepFrom(s, del, base)[0].startMs >= s[0].startMs
    decreases |s|
  {
    if |s| > 0 {
      var rest := KeepFrom(s[1..], del, base + 1);
      KeepFromOrdered(s[1..], del, base + 1);
      if |rest| > 0 {
        assert rest[0].startMs >= s[1].startMs >= s[0].endMs;
      }
      if base !in del {
        ConsOrdered(s[0], rest);
      }
    }
  }

  /** Deleting positions keeps every remaining segment inside the media. */
  lemma KeepWithin(s: seq<Segment>, del: set<int>, durationMs: int)
    requires Within(s, durationMs)
    ensures Within(Keep(s, del), durationMs)
  {
    var r := Keep(s, del);
    forall j | 0 <= j < |r|
      ensures 0 <= r[j].startMs && r[j].endMs <= durationMs
    {
      KeepFromMembers(s, del, 0, r[j]);
    }
  }

  /** Multi-delete keeps the timeline invariant. */
  lemma KeepOrdered(s: seq<Segment>, del: set<int>)
    ensures Ordered(s) ==> Ordered(Keep(s, del))
  {
    if Ordered(s) {
      KeepFromOrdered(s, del, 0);
    }
  }

  /** One round of the Delete loop: every position erased so far lies above
      `m`, so position `m` of the current list still holds `segs[m]`, and
      erasing it there erases it from the original list. */
  lemma EraseHighestStep(segs: seq<Segment>, done: set<int>, m: int)
    requires 0 <= m < |segs|
    requires forall b :: b in done ==> m < b
    ensures var r := Keep(segs, done);
            m < |r| && r[..m] + r[m + 1..] == Keep(segs, done + {m})
  {
    var rest := KeepFrom(segs[m + 1..], done, m + 1);
    KeepAround(segs, done, m);
    KeepAbove(segs, done, m);
    KeepFromLocal(segs[m + 1..], done, done + {m}, m + 1);
    var r := Keep(segs, done);
    assert r == segs[..m] + ([segs[m]] + rest);
    assert r[..m] == segs[..m];
    assert r[m + 1..] == rest;
  }

  /** Before position `m` is erased, the list kept so far is the untouched
      prefix, `segs[m]`, and what is kept above `m`. */
  lemma KeepAround(segs: seq<Segment>, done: set<int>, m: int)
    requires 0 <= m < |segs|
    requires forall b :: b in done ==> m < b
    ensures Keep(segs, done) == segs[..m] + ([segs[m]] + KeepFrom(segs[m + 1..], done, m + 1))
  {
    KeepFromPrefix(segs, done, 0, m);
    var tail := segs[m..];
    assert tail[0] == segs[m] && tail[1..] == segs[m + 1..];
    assert KeepFrom(tail, done, m) == [segs[m]] + KeepFrom(tail[1..], done, m + 1);
  }

  /** After it is erased, only the prefix and what is kept above `m` are
      left. */
  lemma KeepAbove(segs: seq<Segment>, done: set<int>, m: int)
    requires 0 <= m < |segs|
    requires forall b :: b in done ==> m < b
    ensures Keep(segs, done + {m}) == segs[..m] + KeepFrom(segs[m + 1..], done + {m}, m + 1)
  {
    KeepFromPrefix(segs, done + {m}, 0, m);
    var tail := segs[m..];
    assert tail[1..] == segs[m + 1..];
    assert KeepFrom(tail, done + {m}, m) == KeepFrom(tail[1..], done + {m}, m + 1);
  }

  /** The Delete key's loop. The source sorts the selected positions from
      the highest down and erases each one that is inside the list as it
      stands; positions off the list are skipped. Walking the list's own
      positions from the top down and erasing the selected ones does the
      same erasures in the same order. The result is the list minus those
      positions, in the original order. */
  method DeleteIndices(segs: seq<Segment>, toDelete: set<int>) returns (r: seq<Segment>)
    ensures r == Keep(segs, toDelete)
  {
    r := segs;
    var i := |segs|;
    KeepFromLocal(segs, (set k | k in toDelete && k >= i), {}, 0);
    KeepNothing(segs, {});
    while i > 0
      invariant 0 <= i <= |segs|
      invariant r == Keep(segs, set k | k in toDelete && k >= i)
      decreases i
    {
      var m := i - 1;
      ghost var done := set k | k in toDelete && k >= i;
      if m in toDelete {
        EraseHighestStep(segs, done, m);
        assert done + {m} == set k | k in toDelete && k >= m;
        r := r[..m] + r[m + 1..];
      } else {
        assert done == set k | k in toDelete && k >= m;
      }
      i := m;
    }
    KeepFromLocal(segs, (set k | k in toDelete && k >= 0), toDelete, 0);
  }

  // ------------------------------------------------------------- playhead

  predicate Inside(s: Segment, pos: int) {
    s.startMs <= pos < s.endMs
  }

  /** `validatePlayheadPosition`: a playhead inside some segment stays; one
      in a gap jumps to the next segment start at or after it, and one past
      the last segment wraps to the first segment's start. The search keeps
      its result in a variable that starts at -1 and is tested against -1
      afterwards, so a next start of exactly -1 counts as none found. */
  function ValidatePlayhead(segs: seq<Segment>, pos: int): (r: int)
    ensures |segs| == 0 ==> r == pos
    ensures (exists i :: 0 <= i < |segs| && Inside(segs[i], pos)) ==> r == pos
    ensures WellFormed(segs) && |segs| > 0 ==> exists i :: 0 <= i < |segs| && Inside(segs[i], r)
    ensures r == pos || exists i :: 0 <= i < |segs| && r == segs[i].startMs
  {
    if |segs| == 0 then pos
    else match FindFirst(segs, s => Inside(s, pos))
      case Some(_) => pos
      case None =>
        match FindFirst(segs, (s: Segment) => s.startMs >= pos)
        case Some(j) => if segs[j].startMs != -1 then segs[j].startMs else segs[0].startMs
        case None => segs[0].startMs
  }

  /** A jump taken by `ValidatePlayhead` goes to the first start at or
      after the playhead, when there is one (and it is not the sentinel). */
  lemma ValidateJumpsForward(segs: seq<Segment>, pos: int, j: nat)
    requires j < |segs| && segs[j].startMs >= pos && segs[j].startMs != -1
    requires forall k :: 0 <= k < j ==> segs[k].startMs < pos
    requires forall k :: 0 <= k < |segs| ==> !Inside(segs[k], pos)
    ensures ValidatePlayhead(segs, pos) == segs[j].startMs
  {
    var f := FindFirst(segs, (s: Segment) => s.startMs >= pos);
    assert f.Some?;
  }

  /** When the playhead is in no segment and every segment starts before
      it, the playhead wraps back to the first segment's start. */
  lemma ValidateWrapsToFirst(segs: seq<Segment>, pos: int)
    requires |segs| > 0
    requires forall k :: 0 <= k < |segs| ==> !Inside(segs[k], pos) && segs[k].startMs < pos
    ensures ValidatePlayhead(segs, pos) == segs[0].startMs
  {
    var f := FindFirst(segs, (s: Segment) => s.startMs >= pos);
    assert f.None?;
  }

  /** Keyboard stepping (`Q`/`0`, `W`, Left, Right): backwards floored at
      zero, forwards capped at the media duration. */
  function StepBack(pos: int, deltaMs: nat): (r: int)
    ensures r >= 0 && r <= Max(pos, 0)
    ensures pos - deltaMs >= 0 ==> r == pos - deltaMs
    ensures pos - deltaMs < 0 ==> r == 0
  {
    Max(0, pos - deltaMs)
  }

  function StepForward(pos: int, deltaMs: nat, durationMs: int): (r: int)
    ensures r <= durationMs && r <= pos + deltaMs
    ensures r >= Min(pos, durationMs)
    ensures pos + deltaMs <= durationMs ==> r == pos + deltaMs
    ensures pos + deltaMs > durationMs ==> r == durationMs
  {
    Min(durationMs, pos + deltaMs)
  }

  /** Away from the two ends, a step back and a step forward by the same
      amount undo each other, in either order. */
  lemma StepsCancel(pos: int, deltaMs: nat, durationMs: int)
    requires deltaMs <= pos && pos + deltaMs <= durationMs
    ensures StepForward(StepBack(pos, deltaMs), deltaMs, durationMs) == pos
    ensures StepBack(StepForward(pos, deltaMs, durationMs), deltaMs) == pos
  {
  }

  /** At the ends the steps saturate: stepping back from a position within
      `deltaMs` of zero and forward again lands on `deltaMs`, not on the
      starting position. */
  lemma StepBackSaturates(pos: int, deltaMs: nat, durationMs: int)
    requires 0 <= pos < deltaMs && deltaMs <= durationMs
    ensures StepForward(StepBack(pos, deltaMs), deltaMs, durationMs) == deltaMs
  {
  }

  // -------------------------------------------------------------- hit-test

  /** The press hit-test: the first segment containing `t`, both ends
      inclusive. */
  function HitTest(segs: seq<Segment>, t: int): (r: Option<nat>)
    ensures r.Some? ==> r.value < |segs| && segs[r.value].startMs <= t <= segs[r.value].endMs
    ensures r.Some? ==> forall j :: 0 <= j < r.value ==> !(segs[j].startMs <= t <= segs[j].endMs)
    ensures r.None? <==> forall j :: 0 <= j < |segs| ==> !(segs[j].startMs <= t <= segs[j].endMs)
  {
    FindFirst(segs, (s: Segment) => s.startMs <= t <= s.endMs)
  }

  // ------------------------------------------------------------ edge drag

  datatype Edge = NoEdge | StartEdge | EndEdge

  /** The lowest start a start-edge drag may reach: the previous segment's
      end, or zero for the first segment. */
  function MinStart(segs: seq<Segment>, i: nat): int
    requires i < |segs|
  {
    if i > 0 then segs[i - 1].endMs else 0
  }

  /** The highest end an end-edge drag may reach: the next segment's start,
      or the media duration for the last segment. */
  function MaxEnd(segs: seq<Segment>, i: nat, durationMs: int): int
    requires i < |segs|
  {
    if i < |segs| - 1 then segs[i + 1].startMs else durationMs
  }

  /** Dragging edge `edge` of segment `i` to time `t`. The target is first
      clamped into the media; a start never goes below the previous end and
      stays 100 ms before its own end whenever that is achievable; an end
      always stays 100 ms after its start and never passes the next start
      whenever that is achievable. Only the one edge changes. */
  function Drag(segs: seq<Segment>, i: nat, edge: Edge, t: int, durationMs: int): (r: seq<Segment>)
    requires i < |segs|
    ensures |r| == |segs|
    ensures forall j :: 0 <= j < |segs| && j != i ==> r[j] == segs[j]
    ensures edge == NoEdge ==> r == segs
    ensures edge == StartEdge ==> r[i] == segs[i].(startMs := r[i].startMs)
    ensures edge == StartEdge ==> MinStart(segs, i) <= r[i].startMs
    ensures edge == StartEdge && MinStart(segs, i) <= segs[i].endMs - MinLengthMs ==>
              r[i].startMs <= segs[i].endMs - MinLengthMs
    ensures edge == StartEdge && MinStart(segs, i) <= t <= segs[i].endMs - MinLengthMs && 0 <= t <= durationMs ==>
              r[i].startMs == t
    ensures edge == StartEdge && Bound(0, t, durationMs) <= MinStart(segs, i) ==>
              r[i].startMs == MinStart(segs, i)
    ensures edge == StartEdge && MinStart(segs, i) > segs[i].endMs - MinLengthMs ==>
              r[i].startMs == MinStart(segs, i)
    ensures edge == StartEdge && MinStart(segs, i) <= segs[i].endMs - MinLengthMs <= Bound(0, t, durationMs) ==>
              r[i].startMs == segs[i].endMs - MinLengthMs
    ensures edge == EndEdge ==> r[i] == segs[i].(endMs := r[i].endMs)
    ensures edge == EndEdge ==> r[i].endMs >= segs[i].startMs + MinLengthMs
    ensures edge == EndEdge && segs[i].startMs + MinLengthMs <= MaxEnd(segs, i, durationMs) ==>
              r[i].endMs <= MaxEnd(segs, i, durationMs)
    ensures edge == EndEdge && segs[i].startMs + MinLengthMs <= t <= MaxEnd(segs, i, durationMs) && 0 <= t <= durationMs ==>
              r[i].endMs == t
    ensures edge == EndEdge && Bound(0, t, durationMs) <= segs[i].startMs + MinLengthMs ==>
              r[i].endMs == segs[i].startMs + MinLengthMs
    ensures edge == EndEdge && segs[i].startMs + MinLengthMs > MaxEnd(segs, i, durationMs) ==>
              r[i].endMs == segs[i].startMs + MinLengthMs
    ensures edge == EndEdge && segs[i].startMs + MinLengthMs <= MaxEnd(segs, i, durationMs) <= Bound(0, t, durationMs) ==>
              r[i].endMs == MaxEnd(segs, i, durationMs)
  {
    var target := Bound(0, t, durationMs);
    match edge
    case NoEdge => segs
    case StartEdge =>
      segs[i := segs[i].(startMs := Bound(MinStart(segs, i), target, segs[i].endMs - MinLengthMs))]
    case EndEdge =>
      segs[i := segs[i].(endMs := Bound(segs[i].startMs + MinLengthMs, target, MaxEnd(segs, i, durationMs)))]
  }

  /** When the neighbours leave room for the minimum length, a drag keeps
      the timeline ordered and inside the media. */
  lemma DragKeepsOrdered(segs: seq<Segment>, i: nat, edge: Edge, t: int, durationMs: int)
    requires i < |segs| && durationMs >= 0
    requires Ordered(segs) && Within(segs, durationMs)
    requires edge == StartEdge ==> MinStart(segs, i) <= segs[i].endMs - MinLengthMs
    requires edge == EndEdge ==> segs[i].startMs + MinLengthMs <= MaxEnd(segs, i, durationMs)
    ensures Ordered(Drag(segs, i, edge, t, durationMs))
    ensures Within(Drag(segs, i, edge, t, durationMs), durationMs)
  {
    var r := Drag(segs, i, edge, t, durationMs);
    if i > 0 {
      assert segs[i - 1].startMs >= 0;
    }
  }

  /** The end-edge clamp lets the minimum length win over the neighbour:
      with `[0,50]` followed by `[80,500]`, dragging the first end anywhere
      leaves it at 100, overlapping the next segment. */
  lemma EndDragCanOverlap()
    ensures var segs := [NewSegment(0, 50), NewSegment(80, 500)];
            Ordered(segs) && !Ordered(Drag(segs, 0, EndEdge, 60, 1000))
  {
    var segs := [NewSegment(0, 50), NewSegment(80, 500)];
    var r := Drag(segs, 0, EndEdge, 60, 1000);
    assert r[0].endMs == 100;
  }
}
